=== FILE: README.md ===
# Movie catalogue: the model layer in Dafny

This project models the model layer of a small browser-side movie catalogue
written in JavaScript. Three iterations of it are covered.

- **Assignment 6** (`docs/assignment6/src/m`): `Movie`, `Person` and its
  subtypes `Actor` and `Director`. Movies refer to persons as director,
  actors and biography subject (`about`). Each person keeps the inverse maps
  `directedMovies`, `playedMovies` and `aboutMovies`. A movie may be a TV
  series episode or a biography.
- **Assignment 5** (`docs/assignment5/src/m`): `Movie` and `Person` without
  subtypes. The inverse maps exist but nothing fills them.
- **The top-level iteration** (`docs/src/m/Person.mjs`): a `Person` with
  only an id and a name. Its `destroy` finds the movies to delete by
  scanning all movies.

Every class keeps its objects in an in-memory map, `Class.instances`, keyed
by id. The model gives each store a Dafny `map<int, …>` and each object an
immutable datatype. Every storage operation becomes a pure function:

- `add` is constructor plus insert.
- `update` assigns the changed properties and rolls back on a violation.
- `destroy` deletes, with a cascade over the related movies.
- `toJSON` and `retrieveAll` are the save/load pair.

Object references become person ids. The inverse maps become sets of movie
ids.

Inputs come from HTML forms or from JSON. Each is an explicit slot:

- `IdSlot`: missing, integer, integer string, a string `parseInt` reads only
  as a prefix, or unparseable.
- `TextSlot`: a string, or a non-string of given truthiness.
- `DateSlot`: no date, a calendar day, or an invalid date.

With these slots the checks follow JavaScript's truthiness, `parseInt` and
`===` comparisons, and a string's `length` counts UTF-16 code units.

JavaScript code can throw after it has already changed state. For that, the
model has `Exec<S> = Done(state) | Threw(state, error)`, where the state is
the one the exception left behind. For operations that catch and log a
violation, `Threw` names the violation they caught.

The error kinds include the JavaScript `TypeError` and `ReferenceError`
raised by the code itself. Three common sources:

- `cloneObject(undefined)` when updating an unknown id, on the assumption
  that `cloneObject` (lib/util.mjs, not part of this model) reads a
  property of its argument;
- reading a property of `undefined`;
- using an undeclared variable.

Modules, in dependency order:

- `JsValues`: input slots, violations, `Exec`/`Result`, and sorted key
  iteration.
- `PersonChecks` and `MovieChecks`: the static `check…` validators.
- Assignment 6:
  - `Catalog6`: the data model and the store invariants. `Consistent` means
    every reference is mirrored by the inverse maps and no inverse entry is
    stale.
  - `Movie6Setters`: the property setters.
  - `Movie6Store`: constructor, add, update and destroy.
  - `Movie6Records`: toJSON and retrieveAll.
  - `Person6` and `Subtypes6`: persons, actors and directors.
  - `Corrections6`: the corrected storage operations and the runs that
    separate them from the code as written.
- Assignment 5: `Catalog5`, `Movie5Ops` and `Person5Store`.
- The top-level iteration: `PersonSrc`.

## Model

| member | source | states |
|---|---|---|
| JsValues.SetMin | docs/src/m/Person.mjs:146 | the key `Object.keys` visits first among integer keys: a member of the set no larger than any other |
| JsValues.SortedIds | docs/assignment6/src/m/Movie.mjs:485-488 | the actor keys as `Object.keys` lists them: exactly the set's elements, strictly ascending |
| JsValues.Utf16LengthBounds | docs/assignment6/src/m/Movie.mjs:112 | `length` counts UTF-16 code units: between the character count and twice it, equal to it exactly when no character lies outside the Basic Multilingual Plane |
| PersonChecks.CheckPersonId | docs/assignment6/src/m/Person.mjs:31-43 | accepted exactly when truthy and `parseInt` gives an integer of at least 1; Mandatory exactly for a falsy id, Range otherwise |
| PersonChecks.CheckPersonAsId | docs/assignment6/src/m/Person.mjs:44-61 | parse first: Mandatory for NaN or 0, Range for a negative id, Uniqueness for a stored one, accepted exactly for a fresh positive id |
| PersonChecks.CheckPersonAsIdOld | docs/assignment5/src/m/Person.mjs:31-44 | assignment 5's order: the checkPersonId verdict for an ill-formed id, then Uniqueness exactly when the parsed id is stored |
| PersonChecks.CheckPersonAsIdRef | docs/assignment6/src/m/Person.mjs:62-71 | accepted exactly when well formed and the id itself (not its parse) is a stored key; ReferentialIntegrity exactly for a well-formed id that is not |
| PersonChecks.CheckName | docs/assignment6/src/m/Person.mjs:85-95 | accepted exactly for a non-empty string; Mandatory exactly for a falsy name; Range exactly for a truthy non-string |
| PersonChecks.IdAndIdRefComplementary | docs/assignment6/src/m/Person.mjs:44-71 | for a positive integer id, exactly one of the creation check and the reference check accepts it |
| PersonChecks.AsIdVersionsAgreeOnIntegers | docs/assignment5/src/m/Person.mjs:31-44 | the two orderings of checkPersonAsId agree on every integer and integer-string id except the string "0" |
| PersonChecks.AsIdVersionsDifferOnJunk | docs/assignment6/src/m/Person.mjs:44-51 | on an unparseable id the new order reports Mandatory and the old one Range |
| MovieChecks.CheckId | docs/assignment6/src/m/Movie.mjs:67-80 | accepted exactly for a positive integer or integer string; a zero string or negative integer reaches `movieId <= 0` and then an undeclared variable (ReferenceError) |
| MovieChecks.CheckMovieIdAsId | docs/assignment6/src/m/Movie.mjs:81-95 | the checkId verdict first; then Uniqueness exactly for a stored id, accepted exactly for a fresh one |
| MovieChecks.CheckTitle | docs/assignment6/src/m/Movie.mjs:108-118 | accepted exactly for a string that is not all JavaScript white space and is at most 120 UTF-16 code units long; Mandatory exactly for a falsy title |
| MovieChecks.AstralTitleRejected | docs/assignment6/src/m/Movie.mjs:112 | 61 characters outside the Basic Multilingual Plane exceed the 120-unit limit |
| MovieChecks.CheckReleaseDate | docs/assignment6/src/m/Movie.mjs:131-144 | Mandatory exactly for no date; Range exactly for a day before the bound; an invalid date passes |
| MovieChecks.ReleaseDateBoundary | docs/assignment6/src/m/Movie.mjs:131-144 | the bound is really 1896-01-28: 1895-12-28 and 1896-01-27 are rejected, 1896-01-28 accepted |
| MovieChecks.CheckReleaseDateIntended | docs/assignment6/src/m/Movie.mjs:132-139 | the bound the message names: Range exactly for days before 1895-12-28 |
| MovieChecks.ReleaseDateCorrection | docs/assignment6/src/m/Movie.mjs:131-144 | the written and intended checks differ exactly on the days 1895-12-28 to 1896-01-27, which only the intended one accepts |
| MovieChecks.CheckMovieRating | docs/assignment6/src/m/Movie.mjs:159-168 | accepted exactly for a falsy rating or an integer (string); anything else is Mandatory |
| MovieChecks.CheckMovieGenre | docs/assignment6/src/m/Movie.mjs:182-193 | accepted exactly for an integer genre code in range; Mandatory exactly when falsy |
| MovieChecks.FirstGenreViolation | docs/assignment6/src/m/Movie.mjs:203-209 | no violation exactly when every element is a valid genre; otherwise the verdict of the first invalid element |
| MovieChecks.CheckMovieGenres | docs/assignment6/src/m/Movie.mjs:194-211 | accepted exactly for a non-empty array of valid genres; an empty array is Mandatory; a non-array is judged as a single value |
| MovieChecks.CheckPersonRef | docs/assignment6/src/m/Movie.mjs:226-234 | checkDirector and checkActor: the same verdict as checkPersonAsIdRef, including Mandatory for a falsy id |
| MovieChecks.CheckMovieType | docs/assignment6/src/m/Movie.mjs:332-341 | accepted exactly for a falsy type or an integer (string) |
| MovieChecks.CheckTvSeriesName | docs/assignment6/src/m/Movie.mjs:362-373 | an episode needs a truthy name (Mandatory); a non-episode with a name is a generic violation; accepted exactly otherwise |
| MovieChecks.CheckEpisodeNo | docs/assignment6/src/m/Movie.mjs:389-401 | an episode needs an episode number; a non-episode with one is a generic violation |
| MovieChecks.NegativeEpisodeAccepted | docs/assignment6/src/m/Movie.mjs:389-401 | episode number "-3" passes for an episode: only presence is checked |
| MovieChecks.CheckAbout | docs/assignment6/src/m/Movie.mjs:416-428 | a biography without a subject is Mandatory; acceptance is the reference check on the parsed id |
| MovieChecks.AboutIgnoresMovieType | docs/assignment6/src/m/Movie.mjs:420-426 | the verdict is the same for every movie type, so the non-biography branch never fires |
| MovieChecks.AboutAcceptedForEpisode | docs/assignment6/src/m/Movie.mjs:422-423 | an episode with a subject passes checkAbout, where the intended check rejects it |
| MovieChecks.CheckAboutIntended | docs/assignment6/src/m/Movie.mjs:416-428 | only a biography can be accepted; on biographies it agrees with checkAbout; a non-biography with a subject is Mandatory |
| Catalog6.EditRole | docs/assignment6/src/m/Movie.mjs:247-256 | adds or removes one movie id in one role's inverse map and leaves the other maps and fields alone |
| Catalog6.Relink | docs/assignment6/src/m/Movie.mjs:247-256 | the inverse-map edit of one setter: only the named person's named role changes, and only in the given movie id |
| Movie6Setters.SetMovieId | docs/assignment6/src/m/Movie.mjs:96-103 | succeeds exactly when checkMovieIdAsId accepts and then stores a fresh positive id; a failure throws the check's violation with nothing changed |
| Movie6Setters.SetTitle | docs/assignment6/src/m/Movie.mjs:119-126 | gated by checkTitle; a stored title is a valid title |
| Movie6Setters.SetReleaseDate | docs/assignment6/src/m/Movie.mjs:145-152 | gated by checkReleaseDate; stores the day, or the Invalid Date for an unparseable date |
| Movie6Setters.SetMovieRating | docs/assignment6/src/m/Movie.mjs:170-177 | gated by checkMovieRating; stores the parsed rating (NaN as none) |
| Movie6Setters.SetMovieGenre | docs/assignment6/src/m/Movie.mjs:213-220 | gated by checkMovieGenres; stores the codes, element by element, of a non-empty array |
| Movie6Setters.SetDirector | docs/assignment6/src/m/Movie.mjs:235-259 | a falsy value unsets the director and throws TypeError when there is none; a valid id moves the movie from the old director's directedMovies to the new one's |
| Movie6Setters.SetDirectorKeepsLinks | docs/assignment6/src/m/Movie.mjs:235-259 | the director setter keeps the movie mirrored by the inverse maps and edits no other movie's entries |
| Movie6Setters.AddActor | docs/assignment6/src/m/Movie.mjs:275-290 | gated by checkActor on the parsed id; the actor joins the movie and the movie joins the person's playedMovies |
| Movie6Setters.AddActorKeepsLinks | docs/assignment6/src/m/Movie.mjs:275-290 | addActor keeps the movie mirrored and edits no other movie's entries |
| Movie6Setters.RemoveActor | docs/assignment6/src/m/Movie.mjs:291-303 | succeeds exactly for a current actor with a valid id; a valid non-actor dereferences undefined (TypeError); both sides of the link are dropped |
| Movie6Setters.RemoveActorKeepsLinks | docs/assignment6/src/m/Movie.mjs:291-303 | removeActor keeps the movie mirrored |
| Movie6Setters.AddActors | docs/assignment6/src/m/Movie.mjs:306-310 | the add loop succeeds exactly when every id is valid and then adds exactly the parsed ids; otherwise the first invalid id's violation is thrown with the earlier ones already added |
| Movie6Setters.AddActorsThrewKeepsPrefix | docs/assignment6/src/m/Movie.mjs:306-310 | when the add loop throws at slot i, the actors of the earlier slots are already added and nothing else is |
| Movie6Setters.AddActorsKeepsLinks | docs/assignment6/src/m/Movie.mjs:306-310 | the whole loop keeps the movie mirrored, whether it completes or throws |
| Movie6Setters.SetActors | docs/assignment6/src/m/Movie.mjs:304-315 | resets the actors, then: a list adds its ids; an object with keys reads an undeclared variable (ReferenceError); a missing value is a TypeError |
| Movie6Setters.SetActorsKeepsLinks | docs/assignment6/src/m/Movie.mjs:304-315 | starting from no actors, set actors keeps the movie mirrored |
| Movie6Setters.SetMovieType | docs/assignment6/src/m/Movie.mjs:343-355 | once a truthy type is stored every assignment throws FrozenValue; otherwise gated by checkMovieType |
| Movie6Setters.SetTvSeriesName | docs/assignment6/src/m/Movie.mjs:375-382 | gated by checkTvSeriesName against the stored type |
| Movie6Setters.SetEpisodeNo | docs/assignment6/src/m/Movie.mjs:403-410 | gated by checkEpisodeNo against the stored type |
| Movie6Setters.SetAbout | docs/assignment6/src/m/Movie.mjs:430-452 | like set director, with checkAbout and aboutMovies; an id valid only through parseInt unlinks the old subject and then throws TypeError |
| Movie6Setters.SetAboutKeepsLinks | docs/assignment6/src/m/Movie.mjs:430-452 | set about keeps the movie mirrored, including on its TypeError path |
| Movie6Setters.RemoveActors | docs/assignment6/src/m/Movie.mjs:576-581 | on success exactly the listed ids are gone, each having passed the actor check; nothing else of the movie changes |
| Movie6Setters.RemoveActorsOutcome | docs/assignment6/src/m/Movie.mjs:576-581 | the remove loop succeeds exactly when every id passes the actor check and names a current actor at its turn; a throw at slot i keeps the earlier removals and nothing else |
| Movie6Setters.RemoveActorsKeepsLinks | docs/assignment6/src/m/Movie.mjs:576-581 | the remove loop keeps the movie mirrored |
| Movie6Store.SetPlainFields | docs/assignment6/src/m/Movie.mjs:48-52 | the title, date, rating and genre assignments of the constructor: completes only when all four checks accept, then holds the title, the day (or the Invalid Date for any other date input), the parsed rating and the genre codes element by element; touches no other field and no person |
| Movie6Store.SetReferences | docs/assignment6/src/m/Movie.mjs:53-54 | the director and actor assignments: completes only with an accepted director id and resolvable actors, the list's parsed ids as the cast, and no actors for an input that is not a list |
| Movie6Store.SetReferencesKeepsLinks | docs/assignment6/src/m/Movie.mjs:53-54 | the reference assignments of the constructor keep the movie mirrored, whether they complete or throw |
| Movie6Store.SetOptionalFields | docs/assignment6/src/m/Movie.mjs:56-59 | each optional field is stored exactly when its argument is truthy: the type as the code of an integer (string), the series name and episode number as given, the subject as the person id; a stored subject resolves |
| Movie6Store.SetOptionalFieldsKeepsLinks | docs/assignment6/src/m/Movie.mjs:56-59 | the optional assignments keep the movie mirrored |
| Movie6Store.UpdateReferencesKeepsLinks | docs/assignment6/src/m/Movie.mjs:566-581 | the director and actor edits of update keep the movie mirrored |
| Movie6Store.UpdateSegmentsKeepsLinks | docs/assignment6/src/m/Movie.mjs:597-608 | the series, episode and subject edits of update keep the movie mirrored |
| Movie6Store.Construct | docs/assignment6/src/m/Movie.mjs:32-63 | the first violation is the id's when the id fails; a constructed movie has the fresh id it was given and is well formed (references resolve, genres valid, title valid) |
| Movie6Store.ConstructAccepts | docs/assignment6/src/m/Movie.mjs:48-59 | a constructed movie passed every mandatory check, holds the movie id, title, parsed rating and director key, the list's parsed ids as its cast, and an optional field exactly when its slot is truthy |
| Movie6Store.ConstructStores | docs/assignment6/src/m/Movie.mjs:48-59 | a constructed movie holds the given day or the Invalid Date, the genre codes element by element, no actors for a non-list input, and each truthy optional input as its setter stores it |
| Movie6Store.LeakyPlainFields | docs/assignment6/src/m/Movie.mjs:48-52 | the plain fields of the leaky example (title "Reel", 2001-05-04, genre 3) are all accepted |
| Movie6Store.ConstructKeepsLinks | docs/assignment6/src/m/Movie.mjs:32-63 | a constructor, whether it succeeds or fails, edits only inverse entries for its own movie id, and a constructed movie is mirrored |
| Movie6Store.CommitKeepsConsistent | docs/assignment6/src/m/Movie.mjs:521-524 | inserting a mirrored movie with edits confined to its id keeps the store consistent |
| Movie6Store.MovieAdd | docs/assignment6/src/m/Movie.mjs:513-525 | a constructed movie is inserted under its fresh id; a failure leaves the movies as they were but keeps the person edits made before it |
| Movie6Store.MovieAddKeepsConsistent | docs/assignment6/src/m/Movie.mjs:513-525 | a successful add keeps a consistent store consistent and keyed |
| Movie6Store.LeakyConstruct | docs/assignment6/src/m/Movie.mjs:53-54 | constructing movie 7 with director Ann and the unknown actor 9 throws ReferentialIntegrity after Ann's directedMovies gained 7 |
| Movie6Store.FailedAddLeaks | docs/assignment6/src/m/Movie.mjs:513-525 | a concrete failed add after which a person's directedMovies names a movie that does not exist |
| Movie6Store.UpdatePlain | docs/assignment6/src/m/Movie.mjs:550-565 | succeeds exactly when every assigned value passes its check (title only when truthy and different, rating unless the very same number); then stores the title, the date or the Invalid Date, parseInt of the rating and the genre codes |
| Movie6Store.UpdateDirector | docs/assignment6/src/m/Movie.mjs:566-569 | an undefined director is skipped when none is stored and otherwise unsets it; any other value goes to the setter |
| Movie6Store.UpdateReferences | docs/assignment6/src/m/Movie.mjs:566-581 | on success the director is the given one (none for a falsy or undefined value) and the actors are the stored ones plus the added minus the removed; a falsy director with none stored is a TypeError |
| Movie6Store.UpdateType | docs/assignment6/src/m/Movie.mjs:583-596 | the empty string always throws FrozenValue; a different type after one is stored reaches an undeclared variable (ReferenceError); a stored type never changes |
| Movie6Store.UpdateSegments | docs/assignment6/src/m/Movie.mjs:597-608 | on success a truthy series name, episode number or subject is stored, each newly assigned one having passed its check against the stored type; falsy ones leave the property as it was |
| Movie6Store.ApplyChanges | docs/assignment6/src/m/Movie.mjs:549-608 | keeps the movie id and any stored type; the empty type string always fails |
| Movie6Store.ApplyChangesKeepsLinks | docs/assignment6/src/m/Movie.mjs:549-608 | the update body keeps the movie mirrored, whether it completes or throws |
| Movie6Store.MovieUpdate | docs/assignment6/src/m/Movie.mjs:531-624 | an unknown id is a TypeError with nothing changed; a violation restores the movie from its snapshot but keeps the person edits; other movies never change |
| Movie6Store.MovieUpdateStoresChanges | docs/assignment6/src/m/Movie.mjs:549-608 | after a successful update the stored movie holds each given value as its setter stores it: the title, the day or the Invalid Date, the parsed rating, the genre codes element by element, the director key, the series name, episode number and subject. The actors are the stored ones plus the added minus the removed, and each property given a falsy value keeps its old value. A stored type is kept; an untyped movie given a truthy type stores that integer's code |
| Movie6Store.MovieUpdateKeepsConsistent | docs/assignment6/src/m/Movie.mjs:531-624 | a successful update keeps the store consistent and keyed |
| Movie6Store.MovieDestroy | docs/assignment6/src/m/Movie.mjs:628-635 | deletes exactly the given key and touches no person |
| Movie6Store.MovieDestroyKeepsMirrored | docs/assignment6/src/m/Movie.mjs:628-635 | every remaining movie stays mirrored |
| Movie6Store.MovieDestroyLeavesStale | docs/assignment6/src/m/Movie.mjs:628-635 | destroying a movie with a director leaves a stale directedMovies entry |
| Movie6Records.SavedDate | docs/assignment6/src/m/Movie.mjs:471-499 | a valid date saves as its day; the Invalid Date saves as null |
| Movie6Records.MovieToJson | docs/assignment6/src/m/Movie.mjs:471-499 | the record encodes the movie: references as ids, actor ids exactly the actor set, ascending |
| Movie6Records.NumberSlots | docs/assignment6/src/m/Movie.mjs:654-690 | saved numbers read back element by element as integer slots |
| Movie6Records.RecordToSlots | docs/assignment6/src/m/Movie.mjs:654-690 | the constructor arguments retrieveAll builds, including the movieType switch that drops the optional fields |
| Movie6Records.ParsedNumbers | docs/assignment6/src/m/Movie.mjs:485-488 | the actor ids parsed back from a saved list are exactly the saved numbers |
| Movie6Records.ReloadRoundTrip | docs/assignment6/src/m/Movie.mjs:471-499 | a saved movie is reconstructed exactly when it is well formed, has a valid date, a type that is absent or non-zero, segment fields only for a TV episode (each passing its check) and a subject only for a typed movie other than a TV episode |
| Movie6Records.ReloadLoses | docs/assignment6/src/m/Movie.mjs:656-697 | a movie with stored type 0, or with a series name, episode number or subject its type does not pass back, is never reconstructed as itself |
| Movie6Records.InvalidDateNotReloadable | docs/assignment6/src/m/Movie.mjs:131-144 | a movie stored with the Invalid Date saves null, which reads back as a missing date (Mandatory) |
| Movie6Records.LoadOne | docs/assignment6/src/m/Movie.mjs:649-700 | one record: inserted under its fresh id, or a violation with the movies unchanged |
| Movie6Records.LoadOneStores | docs/assignment6/src/m/Movie.mjs:656-697 | one record: exactly when the constructor succeeds, the movie it built is stored under the record's id; either way the persons are those the constructor left |
| Movie6Records.LoadMovies | docs/assignment6/src/m/Movie.mjs:640-702 | all records load (their ids fresh and distinct from the stored ones) or the first failure aborts, keeping what was loaded |
| Movie6Records.LoadMoviesAppend | docs/assignment6/src/m/Movie.mjs:648-700 | loading a + b is loading a, then b only if a went through: the first failure ends the load with the prefix loaded |
| Movie6Records.LoadMoviesKeepsConsistent | docs/assignment6/src/m/Movie.mjs:640-702 | a complete load keeps the store consistent and keyed |
| Person6.NewPersonRec | docs/assignment6/src/m/Person.mjs:18-27 | constructs exactly when checkPersonAsId and checkName accept; the first failing check's violation otherwise; no inverse entries |
| Person6.PersonAdd | docs/assignment6/src/m/Person.mjs:137-149 | a constructed person is inserted under its fresh id; a failure changes nothing |
| Person6.PersonAddKeepsConsistent | docs/assignment6/src/m/Person.mjs:137-149 | adding a person keeps the store consistent |
| Person6.DetachAt | docs/assignment6/src/m/Person.mjs:168-169 | rebinding Person.instances to a clone separates a subtype alias at that key from it, keeping the old object |
| Person6.PersonUpdate | docs/assignment6/src/m/Person.mjs:152-179 | an unknown id is a TypeError; a truthy, different string name is assigned and nothing else changes; a non-string is Range and detaches the subtype aliases |
| Person6.PersonUpdateKeepsConsistent | docs/assignment6/src/m/Person.mjs:152-179 | update keeps the store consistent whether it succeeds or fails |
| Person6.PersonUpdateIdempotent | docs/assignment6/src/m/Person.mjs:152-179 | repeating a successful update changes nothing further |
| Person6.DropPlayed | docs/assignment6/src/m/Person.mjs:184-187 | exactly the movies in playedMovies lose the person as actor |
| Person6.ScanMovies | docs/assignment6/src/m/Person.mjs:197-220 | runs through exactly when no pending key is missing or offends (no director, or a string-id match); only deletes movies and removes actors |
| Person6.PersonDestroy | docs/assignment6/src/m/Person.mjs:181-226 | an unknown id is a TypeError; a run that completes deletes the person from every store |
| Person6.PersonDestroyCascade | docs/assignment6/src/m/Person.mjs:181-226 | on a consistent store: completes exactly when every movie the person neither directs nor is about has a director; then the remaining movies are exactly those, with the person in no cast |
| Person6.PersonDestroyKeepsMirrored | docs/assignment6/src/m/Person.mjs:181-226 | every remaining movie stays mirrored |
| Person6.PersonDestroyLeavesStale | docs/assignment6/src/m/Person.mjs:190-192 | deleting a directed movie leaves its actors' playedMovies naming it |
| Person6.PersonDestroyTrustsInverseMap | docs/assignment6/src/m/Person.mjs:190-192 | any movie id in directedMovies is deleted, whoever directs it now |
| Subtypes6.Resolve | docs/assignment6/src/m/Actor.mjs:60-66 | the object a subtype entry denotes: the shared person for an alias, its own object otherwise |
| Subtypes6.SubtypeAdd | docs/assignment6/src/m/Actor.mjs:44-56 | uniqueness against Person.instances; the new object goes into the subtype store only, replacing any entry there |
| Subtypes6.AddedSubtypeNotReferable | docs/assignment6/src/m/Director.mjs:35-48 | a just-added actor or director fails the reference check, and adding it again succeeds again |
| Subtypes6.Edited | docs/assignment6/src/m/Actor.mjs:70-77 | name and agent assigned when truthy and different |
| Subtypes6.SubtypeUpdate | docs/assignment6/src/m/Actor.mjs:60-92 | an id denoting no object is a TypeError; the edit lands on the denoted object; a failing name check detaches the entry |
| Subtypes6.SubtypeUpdateKeepsConsistent | docs/assignment6/src/m/Director.mjs:52-84 | a subtype update keeps the store consistent |
| Subtypes6.SubtypeDestroy | docs/assignment6/src/m/Actor.mjs:96-101 | deletes the id from the subtype store and from Person.instances, then a TypeError when it denoted no object; movies untouched; every entry of the other subtype store still denotes the object it denoted |
| Subtypes6.SubtypeDestroyKeepsAliasesResolve | docs/assignment6/src/m/Director.mjs:88-93 | after a destroy every alias in either subtype store still names an object of Person.instances |
| Subtypes6.SubtypeDestroyDangles | docs/assignment6/src/m/Director.mjs:88-93 | destroying a referenced actor or director leaves the store unmirrored |
| Subtypes6.SubtypeDestroyOfOutsider | docs/assignment6/src/m/Actor.mjs:96-101 | destroying a non-actor still deletes that person and then throws |
| Subtypes6.LoadPeople | docs/assignment6/src/m/Person.mjs:237-244 | records that construct are added, failures skipped; stored people keep their values |
| Subtypes6.LoadPeopleKeepsConsistent | docs/assignment6/src/m/Person.mjs:237-244 | loading people keeps the store consistent |
| Subtypes6.LoadSubtype | docs/assignment6/src/m/Actor.mjs:105-123 | new entries alias newly stored persons; other subtypes and stored people unchanged |
| Subtypes6.MergeSubtype | docs/assignment6/src/m/Person.mjs:246-252 | afterwards every entry is an alias denoting the same object as before; Person.instances gains exactly the detached ids |
| Subtypes6.PersonRetrieveAll | docs/assignment6/src/m/Person.mjs:228-253 | loading never touches movies |
| Subtypes6.SubtypePhaseAliases | docs/assignment6/src/m/Person.mjs:246-251 | one subtype's load-and-merge phase leaves all its entries aliases and every alias resolvable |
| Subtypes6.PageRetrieveAll | docs/assignment6/src/m/Person.mjs:228-253 | a page registering no subtype loads only people; one registering a subtype leaves the other subtype's store untouched |
| Subtypes6.PageRetrieveAllAliases | docs/assignment6/src/m/Person.mjs:228-253 | on such a page every alias stays resolvable and the registered subtype's entries become aliases |
| Subtypes6.RetrieveAllAliases | docs/assignment6/src/m/Person.mjs:228-253 | afterwards every actor and director entry is an alias with an object in Person.instances |
| Subtypes6.SubtypeRecordShadowed | docs/assignment6/src/m/Director.mjs:97-117 | a subtype record whose id was loaded as a person is rejected and adds nothing |
| Corrections6.MovieAddAtomic | docs/assignment6/src/m/Movie.mjs:513-525 | add that discards every edit of a failed construction |
| Corrections6.MovieAddAtomicKeepsConsistent | docs/assignment6/src/m/Movie.mjs:513-525 | the atomic add keeps the store consistent whatever the slots |
| Corrections6.MovieUpdateAtomic | docs/assignment6/src/m/Movie.mjs:610-615 | update whose rollback also restores the persons; same outcome otherwise |
| Corrections6.MovieUpdateAtomicKeepsConsistent | docs/assignment6/src/m/Movie.mjs:531-624 | the atomic update keeps the store consistent whether it succeeds or fails |
| Corrections6.Unlink | docs/assignment6/src/m/Movie.mjs:628-635 | removes one movie id from every inverse map of a person and nothing else |
| Corrections6.MovieDestroyClean | docs/assignment6/src/m/Movie.mjs:628-635 | destroy that also removes the id from every inverse map |
| Corrections6.MovieDestroyCleanKeepsConsistent | docs/assignment6/src/m/Movie.mjs:628-635 | the clean destroy keeps the store consistent |
| Corrections6.BobsMovieConstructs | docs/assignment6/src/m/Movie.mjs:32-63 | the movie of the Ann/Bob run constructs with Bob as director |
| Corrections6.DestroyDirectorOfAll | docs/assignment6/src/m/Person.mjs:189-192 | when directedMovies names every stored movie, Person.destroy completes and leaves no movies, whoever directs them |
| Corrections6.StaleStoreAfterReuse | docs/assignment6/src/m/Movie.mjs:628-635 | after destroying movie 7 and re-adding it under Bob, Ann's directedMovies still names 7 |
| Corrections6.StaleEntryDeletesReusedMovie | docs/assignment6/src/m/Person.mjs:190-192 | destroy movie 7, re-add it under another director, destroy its old director: the new movie is deleted |
| Corrections6.CleanStoreAfterReuse | docs/assignment6/src/m/Movie.mjs:628-635 | with the clean destroy, the same two steps leave a consistent store holding only Bob's movie |
| Corrections6.CleanDestroyKeepsReusedMovie | docs/assignment6/src/m/Person.mjs:190-192 | the same run with the clean destroy keeps the new movie |
| Corrections6.CleanDestroyThenPersonDestroy | docs/assignment6/src/m/Person.mjs:181-226 | with the clean destroy, a later person destroy deletes exactly the movies that person directs or is about |
| Movie5Ops.DateOf | docs/assignment5/src/m/Movie.mjs:110-117 | an accepted date slot stores its day, anything else the Invalid Date |
| Movie5Ops.GenreCodes | docs/assignment5/src/m/Movie.mjs:178-185 | the stored codes of an accepted genre array, element by element, all in range |
| Movie5Ops.SetDirector5 | docs/assignment5/src/m/Movie.mjs:200-214 | a falsy director is silently ignored; otherwise gated by checkDirector and stored as the id |
| Movie5Ops.SetDirector5Intended | docs/assignment5/src/m/Movie.mjs:200-204 | an accepted movie always has a stored director; an empty one is Mandatory |
| Movie5Ops.DirectorlessMovieAccepted5 | docs/assignment5/src/m/Movie.mjs:200-204 | a concrete movie with no director constructs, where the intended setter rejects it |
| Movie5Ops.AddActor5 | docs/assignment5/src/m/Movie.mjs:230-242 | succeeds exactly for a valid parsed id and then adds exactly that id |
| Movie5Ops.RemoveActor5 | docs/assignment5/src/m/Movie.mjs:243-253 | succeeds exactly for a valid parsed id, actor or not, and removes it |
| Movie5Ops.AddActors5 | docs/assignment5/src/m/Movie.mjs:258-262 | the loop succeeds exactly when every id is valid and adds exactly the parsed ids |
| Movie5Ops.RemoveActors5 | docs/assignment5/src/m/Movie.mjs:369-374 | the loop succeeds exactly when every id is valid and removes exactly the parsed ids |
| Movie5Ops.SetActors5 | docs/assignment5/src/m/Movie.mjs:254-267 | succeeds exactly for an accepted slot and then holds exactly its ids; keyed objects are a ReferenceError, a missing value a TypeError |
| Movie5Ops.PlainViolation | docs/assignment5/src/m/Movie.mjs:18-23 | no violation exactly when all the plain setters accept |
| Movie5Ops.Construct5 | docs/assignment5/src/m/Movie.mjs:18-27 | constructs exactly when every setter accepts (a falsy director included); every field is the checked input; every reference resolves |
| Movie5Ops.Movie5Add | docs/assignment5/src/m/Movie.mjs:311-325 | a constructed movie is inserted under its fresh id; a failure changes nothing |
| Movie5Ops.Movie5AddKeepsResolved | docs/assignment5/src/m/Movie.mjs:311-325 | add keeps every reference resolvable and the store keyed |
| Movie5Ops.UpdateFields5 | docs/assignment5/src/m/Movie.mjs:340-355 | title only when truthy (and then a string); date and genres always; rating unless the same number |
| Movie5Ops.UpdateRefs5 | docs/assignment5/src/m/Movie.mjs:356-374 | the director only when truthy; actors are the stored ones plus the added minus the removed ids; new references resolve |
| Movie5Ops.ApplyChanges5 | docs/assignment5/src/m/Movie.mjs:339-374 | the field assignments first, a failure there stopping the update with its violation |
| Movie5Ops.Movie5Update | docs/assignment5/src/m/Movie.mjs:331-389 | an unknown id is a TypeError; completes exactly when all assignments pass; any failure leaves the store exactly as it was |
| Movie5Ops.Movie5UpdateKeepsResolved | docs/assignment5/src/m/Movie.mjs:331-389 | update keeps every reference resolvable and the store keyed |
| Movie5Ops.UpdateKeepsDirector5 | docs/assignment5/src/m/Movie.mjs:356-359 | an update with a falsy director keeps the stored one |
| Movie5Ops.Movie5Destroy | docs/assignment5/src/m/Movie.mjs:393-400 | deletes exactly the given key |
| Movie5Ops.Movie5DestroyKeepsResolved | docs/assignment5/src/m/Movie.mjs:393-400 | destroy keeps the store keyed and its references resolved, and a second destroy changes nothing |
| Movie5Ops.Movie5ToJson | docs/assignment5/src/m/Movie.mjs:274-297 | the record encodes the movie: the director's id, the actor ids exactly the actor set, ascending |
| Movie5Ops.Record5ToSlots | docs/assignment5/src/m/Movie.mjs:416-432 | the constructor arguments retrieveAll builds: the director read back from the saved person's id |
| Movie5Ops.Reload5RoundTrip | docs/assignment5/src/m/Movie.mjs:274-297 | a saved movie with a valid date and resolvable references is reconstructed exactly |
| Movie5Ops.LostDirectorBlocksReload5 | docs/assignment5/src/m/Movie.mjs:416-432 | a saved director no longer stored makes reloading fail with ReferentialIntegrity |
| Movie5Ops.LoadOne5 | docs/assignment5/src/m/Movie.mjs:417-432 | one record: exactly when the constructor succeeds, the movie it built is inserted under the record's fresh id; otherwise the constructor's violation with nothing changed |
| Movie5Ops.LoadMovies5 | docs/assignment5/src/m/Movie.mjs:405-435 | a complete load adds exactly the record ids, fresh and distinct; a failure keeps the earlier movies |
| Movie5Ops.LoadMovies5Append | docs/assignment5/src/m/Movie.mjs:416-434 | loading a + b is loading a, then b only if a went through: the first failure ends the load |
| Movie5Ops.LoadMovies5KeepsResolved | docs/assignment5/src/m/Movie.mjs:405-435 | loading keeps every reference resolvable and the store keyed |
| Person5Store.NewPerson5 | docs/assignment5/src/m/Person.mjs:9-14 | constructs exactly for a well-formed fresh id and a non-empty string name; the id's violation first; empty inverse maps |
| Person5Store.Person5Add | docs/assignment5/src/m/Person.mjs:122-134 | a constructed person is inserted under its fresh id; a failure changes nothing |
| Person5Store.Person5AddKeepsResolved | docs/assignment5/src/m/Person.mjs:122-134 | add keeps references resolvable and the inverse maps empty |
| Person5Store.Person5Update | docs/assignment5/src/m/Person.mjs:137-158 | an unknown id is a TypeError; a non-string name is Range with nothing changed; otherwise only the name changes |
| Person5Store.Person5UpdateKeepsResolved | docs/assignment5/src/m/Person.mjs:137-158 | update keeps references resolvable and the inverse maps empty |
| Person5Store.DropPlayed5 | docs/assignment5/src/m/Person.mjs:163-166 | exactly the movies in playedMovies lose the person as actor |
| Person5Store.Person5Destroy | docs/assignment5/src/m/Person.mjs:160-197 | an unknown id is a TypeError; otherwise the person goes, the directed movies go, the played movies lose the actor, and nothing else changes |
| Person5Store.Person5DestroyDangles | docs/assignment5/src/m/Person.mjs:160-197 | with empty inverse maps, destroying a director or actor keeps all movies and leaves a reference to nobody |
| Person5Store.Person5DestroyResolvedIff | docs/assignment5/src/m/Person.mjs:160-197 | destroy keeps references resolvable exactly when no movie names the person |
| Person5Store.LoadPeople5 | docs/assignment5/src/m/Person.mjs:199-217 | records that construct are added and failures skipped; loaded people have empty inverse maps |
| Person5Store.Person5Json | docs/assignment5/src/m/Person.mjs:103-111 | the id and the name as the constructor reads them back |
| Person5Store.People5RoundTrip | docs/assignment5/src/m/Person.mjs:199-217 | saved people with distinct fresh ids and non-empty names load back exactly, with empty inverse maps |
| PersonSrc.NewPersonSrc | docs/src/m/Person.mjs:9-12 | constructs exactly for a well-formed fresh id and a non-empty string name; the id's violation first |
| PersonSrc.PersonSrcAdd | docs/src/m/Person.mjs:106-118 | a constructed person is inserted under its fresh id; a failure changes nothing |
| PersonSrc.PersonSrcAddKeepsKeyed | docs/src/m/Person.mjs:106-118 | add keeps every person under its own id with a non-empty name, and adding the same record again changes nothing |
| PersonSrc.PersonSrcUpdate | docs/src/m/Person.mjs:121-142 | an unknown id is a TypeError; a non-string name is Range with nothing changed; otherwise only the name can change |
| PersonSrc.PersonSrcUpdateKeepsKeyed | docs/src/m/Person.mjs:121-142 | update keeps every person under its own id with a non-empty name, and repeating it changes nothing |
| PersonSrc.ScanSrc | docs/src/m/Person.mjs:146-169 | only deletes movies, and only for an id given as a string; for any other id it completes exactly when every pending movie exists and has a director |
| PersonSrc.PersonSrcDestroy | docs/src/m/Person.mjs:144-173 | completes exactly when the scan does and the person exists; the person is deleted even when it throws afterwards |
| PersonSrc.ScanSrcDeletes | docs/src/m/Person.mjs:146-169 | on a keyed store with directors throughout, the scan deletes exactly the pending movies naming the person |
| PersonSrc.PersonSrcDestroyByString | docs/src/m/Person.mjs:144-173 | with a string id: the person goes and exactly the movies they act in or direct |
| PersonSrc.PersonSrcDestroyByNumber | docs/src/m/Person.mjs:144-173 | with a number id: no movie matches, so only the person goes |
| PersonSrc.ScanSrcBlocked | docs/src/m/Person.mjs:144-169 | a pending key whose movie is missing or has no director makes the scan throw, whatever it deleted before |
| PersonSrc.DirectorlessMovieBlocksDestroy | docs/src/m/Person.mjs:144-173 | for every id, a movie without a director makes destroy throw a TypeError with the person still stored; for a non-string id nothing changes at all |
| PersonSrc.StringIdDeletesBeforeThrow | docs/src/m/Person.mjs:156-164 | with the string id the forms pass, the movie the person acts in at key 1 is deleted before the directorless movie at key 2 throws |
| PersonSrc.PersonSrcJson | docs/src/m/Person.mjs:89-96 | the id and the name as the constructor reads them back |
| PersonSrc.LoadPeopleSrc | docs/src/m/Person.mjs:175-189 | records are added in order; a failing first record aborts with nothing changed |
| PersonSrc.PeopleSrcRoundTrip | docs/src/m/Person.mjs:175-189 | saved people with distinct fresh ids and non-empty names load back completely and exactly |

## Left out

- Storage I/O: `localStorage`, `JSON.parse`/`JSON.stringify` and every
  `saveAll` are outside the model. A saved record is modelled as the values
  the loader reads back, and loading starts from a list of records.
- Logging, `console.log` and `alert` have no effect on state and are left out.
- Date parsing: a date is given as a calendar day, no date, or an invalid
  date. Time zones and the `Date` constructor's accepted formats are left out.
- Object references as inputs: the setters also take a Person object
  instead of an id. Only ids are modelled. The forms and the other loaders
  pass ids. The assignment-5 movie loader passes the saved
  director object back to `set director`: toJSON's `_publisher` case never
  matches, so `_director` is saved whole. The setter reads only that
  object's `personId`, so Movie5Ops.Record5 keeps just that id.
- Object identity: a person is a value. Which object a movie holds after
  `cloneObject` rebinds an entry is not tracked, except for the subtype
  aliases that `Subtypes6` needs.
- Person.subtypes registration (`Actor.mjs:36`, `Director.mjs:27`):
  Subtypes6.PersonRetrieveAll and Subtypes6.RetrieveAllAliases describe a
  page that loads both subtypes, Actor first. No page in the repository
  does. The actors page imports only Actor, the directors page only
  Director, and the movies page neither, so each registers at most one
  subtype. Subtypes6.PageRetrieveAll models that case.
- Keys: a record is bound under its parsed id. A stored map key that differs
  from its own record's id is not modelled. Integer strings are canonical
  ("7", never "07").
- The Movie class of the top-level iteration is not part of this model. Its
  movies are seen only through the three properties Person.destroy reads.
- toJSON of Person (both iterations): the filter `p !== "_directedMovies" ||
  p !== "_playedMovies"` is always true, so the inverse maps are saved too.
  The constructor ignores them on reload, so the model drops them.
- Movie6Records.MovieToJson: the saved about reference and the movie type
  fields are covered; property order in the JSON text is not.
- Person6.PersonDestroy: the name-display step reads `person.name` for the
  log only. Its TypeError for an unknown id is modelled as the first check,
  which is when nothing has changed yet.
- Movie6Store.MovieUpdate, Movie5Ops.Movie5Update, Person5Store.Person5Update
  and PersonSrc.PersonSrcUpdate: a violation that the operation catches and
  logs is reported as `Threw` with the state after the rollback. The code
  does not rethrow it.
- Movie6Store.MovieUpdate: `cloneObject` (lib/util.mjs, not part of this
  model) is taken to copy the movie deeply. After a failed update the
  persons' inverse maps still hold the discarded movie object, and a later
  Person.destroy edits that object rather than the restored one. The model
  edits movies by id, so it does not show this.
- Movie5Ops.Movie5Update: the rollback restores the copy `cloneObject`
  made, taken to be deep. addActor and removeActor edit the movie's
  `_actors` object in place (assignment 5 Movie.mjs:238 and 249), so with
  a shallow copy a failed update would keep its actor edits.
- Movie6Store.UpdateType: JavaScript's `!=` converts a string with
  `Number`, so "2.0" or " 2" is loosely equal to a stored 2. The model
  reads every Prefixed input as unequal and throws ReferenceError for it;
  only a number or the canonical decimal string count as equal.

## Findings

| source | as written | input that shows it | evidently intended | confidence | as-written member | corrected member |
|---|---|---|---|---|---|---|
| docs/assignment6/src/m/Movie.mjs:513-525 | a failed construction is dropped, but the director setter already added the movie id to the director's directedMovies | Ann (1) stored; Movie.add of movie 7 directed by 1 with unknown actor 9 | a failed add leaves the store as it was | not executed | Movie6Store.FailedAddLeaks | Corrections6.MovieAddAtomicKeepsConsistent |
| docs/assignment6/src/m/Movie.mjs:628-635 | Movie.destroy leaves the movie id in the director's directedMovies; a later Person.destroy of that director deletes whatever movie then has the id | Ann directs 7; destroy 7; add a new 7 directed by Bob; destroy Ann | Bob's movie survives | not executed | Corrections6.StaleEntryDeletesReusedMovie | Corrections6.CleanDestroyKeepsReusedMovie |
| docs/assignment6/src/m/Movie.mjs:416-428 | `cat === !MovieTypeEL.BIOGRAPHY` compares a number with `false`, so a non-biography with a subject passes | about 1 on a TV series episode, person 1 stored | Mandatory, as the message says | not executed | MovieChecks.AboutAcceptedForEpisode | MovieChecks.CheckAboutIntended |
| docs/assignment6/src/m/Movie.mjs:131-144 | `new Date(1895, 12, 28)` takes month 12 as January of 1896, so the bound is 1896-01-28 | release date 1895-12-28 | accepted: the message names 1895-12-28 as the bound | not executed | MovieChecks.ReleaseDateBoundary | MovieChecks.ReleaseDateCorrection |
| docs/assignment5/src/m/Movie.mjs:200-204 | set director returns the violation for an empty director instead of throwing it, so the movie is stored without a director | Movie.add with every field valid and no director | the mandatory director is enforced, as in assignment 6 | not executed | Movie5Ops.DirectorlessMovieAccepted5 | Movie5Ops.SetDirector5Intended |

The corrected members stand beside the as-written ones. The operations
model the code as written, and the corrections state what the evident
intent would guarantee.

=== FILE: catalog5.dfy ===
/**
 * The in-memory stores of assignment 5. Movies refer to their director
 * and actors by person id; persons carry directedMovies and playedMovies
 * maps, which nothing in assignment 5 ever fills.
 */
module Catalog5 {
  import opened JsValues
  import opened MovieChecks

  /**
   * A Movie object of assignment 5: `director` None when the property was
   * never set, `rating` None for NaN.
   */
  datatype Movie5 = Movie5(
    movieId: int,
    title: string,
    releaseDate: DateVal,
    rating: Option<int>,
    genres: seq<int>,
    director: Option<int>,
    actors: set<int>)

  /** A Person object of assignment 5 with its (derived) inverse maps as movie-id sets. */
  datatype Person5 = Person5(personId: int, name: string, directed: set<int>, played: set<int>)

  datatype Store5 = Store5(movies: map<int, Movie5>, persons: map<int, Person5>)

  /** The record `new Person` receives. */
  datatype PersonInput = PersonInput(personId: IdSlot, name: TextSlot)

  /** Every reference a movie holds names a stored person. */
  ghost predicate Resolved5(s: Store5) {
    forall mid :: mid in s.movies ==>
      && (s.movies[mid].director.Some? ==> s.movies[mid].director.value in s.persons)
      && forall a :: a in s.movies[mid].actors ==> a in s.persons
  }

  /** No person's inverse maps name any movie: how assignment 5 always leaves them. */
  ghost predicate NoInverse5(s: Store5) {
    forall p :: p in s.persons ==> s.persons[p].directed == {} && s.persons[p].played == {}
  }

  /** Movie.instances binds every movie under its own movieId. */
  ghost predicate Keyed5(s: Store5) {
    forall mid :: mid in s.movies ==> s.movies[mid].movieId == mid
  }
}

=== FILE: catalog6.dfy ===
/**
 * The in-memory stores of assignment 6: Movie.instances, Person.instances
 * and the stores of the two registered Person subtypes, Actor.instances
 * and Director.instances.
 *
 * Object references become ids: a movie names its director, actors and
 * subject by person id, and a person's derived inverse maps
 * (directedMovies, playedMovies, aboutMovies) become sets of movie ids.
 */
module Catalog6 {
  import opened JsValues
  import opened MovieChecks

  /** Which class built the object bound in Person.instances. */
  datatype Kind = PlainPerson | ActorKind | DirectorKind

  /**
   * A Person, Actor or Director object. `agent` is meaningful for actors
   * (NonString(false) when unset); the three sets are the inverse maps.
   */
  datatype PersonRec = PersonRec(
    personId: int,
    name: string,
    kind: Kind,
    agent: TextSlot,
    directed: set<int>,
    played: set<int>,
    about: set<int>)

  /**
   * An entry of a subtype store: Alias when it is the very object bound at
   * the same key of Person.instances (what retrieveAll establishes),
   * Detached when it is an object of its own (what Actor.add creates).
   */
  datatype SubEntry = Alias | Detached(rec: PersonRec)

  /** The stored movieType: absent, parseInt of the accepted slot, or NaN. */
  datatype TypeVal = Untyped | TypeCode(code: int) | TypeNaN

  /** `if (this.movieType)`: only a non-zero code is truthy. */
  predicate TypeTruthy(t: TypeVal) {
    t.TypeCode? && t.code != 0
  }

  /** The stored type as the segment checks receive it (`this.movieType`). */
  function TypeSlot(t: TypeVal): (v: IdSlot)
    ensures TypeIs(v, TvSeriesEpisode) <==> t == TypeCode(TvSeriesEpisode)
    ensures TypeIs(v, Biography) <==> t == TypeCode(Biography)
  {
    match t
    case TypeCode(c) => IntNumber(c)
    case _ => Missing
  }

  /**
   * A Movie object. Fields a constructor never reached hold placeholders
   * (such a movie is never stored). `rating` None is NaN; `director` and
   * `about` None mean the property is unset; `tvSeriesName` and
   * `episodeNo` hold the raw accepted slot, None when never assigned.
   */
  datatype MovieRec = MovieRec(
    movieId: int,
    title: string,
    releaseDate: DateVal,
    rating: Option<int>,
    genres: seq<int>,
    director: Option<int>,
    actors: set<int>,
    movieType: TypeVal,
    tvSeriesName: Option<TextSlot>,
    episodeNo: Option<IdSlot>,
    about: Option<int>)

  /** The state of a movie under construction before any setter ran. */
  const BlankMovie := MovieRec(0, [], InvalidDate, None, [], None, {}, Untyped, None, None, None)

  datatype Store = Store(
    movies: map<int, MovieRec>,
    persons: map<int, PersonRec>,
    actors: map<int, SubEntry>,
    directors: map<int, SubEntry>)

  /** The three person-to-movie roles with inverse maps. */
  datatype Role = Directing | Playing | Subject

  /** Movie ids in a person's inverse map for a role. */
  function RoleSet(r: PersonRec, role: Role): set<int> {
    match role
    case Directing => r.directed
    case Playing => r.played
    case Subject => r.about
  }

  /** Add (`link`) or delete movie id `mid` in one inverse map, nothing else. */
  function EditRole(r: PersonRec, role: Role, mid: int, link: bool): (r': PersonRec)
    ensures RoleSet(r', role) == if link then RoleSet(r, role) + {mid} else RoleSet(r, role) - {mid}
    ensures forall other :: other != role ==> RoleSet(r', other) == RoleSet(r, other)
    ensures r'.personId == r.personId && r'.name == r.name && r'.kind == r.kind && r'.agent == r.agent
  {
    var s := if link then RoleSet(r, role) + {mid} else RoleSet(r, role) - {mid};
    match role
    case Directing => r.(directed := s)
    case Playing => r.(played := s)
    case Subject => r.(about := s)
  }

  /**
   * The inverse-map edit a setter makes through its person reference; a
   * reference that does not resolve edits nothing the stores can see.
   */
  function Relink(persons: map<int, PersonRec>, p: Option<int>, role: Role, mid: int, link: bool): (ps: map<int, PersonRec>)
    ensures ps.Keys == persons.Keys
    ensures forall q :: q in persons && Some(q) != p ==> ps[q] == persons[q]
    ensures p.Some? && p.value in persons ==> ps[p.value] == EditRole(persons[p.value], role, mid, link)
  {
    if p.Some? && p.value in persons then persons[p.value := EditRole(persons[p.value], role, mid, link)]
    else persons
  }

  /** Movie `m`, stored or being built under id `mid`, plays `role` for person `p`. */
  predicate Plays(m: MovieRec, role: Role, p: int) {
    match role
    case Directing => m.director == Some(p)
    case Playing => p in m.actors
    case Subject => m.about == Some(p)
  }

  /**
   * The central invariant for one movie: its references resolve, and every
   * person's inverse map holds `mid` exactly when the movie refers to that
   * person in the corresponding role.
   */
  ghost predicate Mirrors(persons: map<int, PersonRec>, mid: int, m: MovieRec) {
    && (m.director.Some? ==> m.director.value in persons)
    && (forall p :: p in m.actors ==> p in persons)
    && (m.about.Some? ==> m.about.value in persons)
    && forall p, role :: p in persons ==> (mid in RoleSet(persons[p], role) <==> Plays(m, role, p))
  }

  /** No inverse map names a movie id that Movie.instances lacks. */
  ghost predicate NoStale(s: Store) {
    forall p, role, mid :: p in s.persons && mid in RoleSet(s.persons[p], role) ==> mid in s.movies
  }

  /** Every stored movie is mirrored by the person side. */
  ghost predicate AllMirrored(s: Store) {
    forall mid :: mid in s.movies ==> Mirrors(s.persons, mid, s.movies[mid])
  }

  /**
   * The full bidirectional invariant:
   * `m in persons[p].directedMovies <==> movies[m].director == p`, and the
   * same for actors and about.
   */
  ghost predicate Consistent(s: Store) {
    AllMirrored(s) && NoStale(s)
  }

  /** Two person stores agree on everything except inverse-map entries for movie `mid`. */
  ghost predicate SameExcept(a: map<int, PersonRec>, b: map<int, PersonRec>, mid: int) {
    && a.Keys == b.Keys
    && forall p :: p in a ==>
         && b[p].personId == a[p].personId && b[p].name == a[p].name
         && b[p].kind == a[p].kind && b[p].agent == a[p].agent
         && forall role :: RoleSet(b[p], role) - {mid} == RoleSet(a[p], role) - {mid}
  }

  /** Every subtype entry that aliases Person.instances has an object to alias. */
  ghost predicate AliasesResolve(s: Store) {
    && (forall k :: k in s.actors && s.actors[k].Alias? ==> k in s.persons)
    && (forall k :: k in s.directors && s.directors[k].Alias? ==> k in s.persons)
  }

  /** Movie.instances binds every movie under its own movieId. */
  ghost predicate Keyed(s: Store) {
    forall mid :: mid in s.movies ==> s.movies[mid].movieId == mid
  }
}

=== FILE: movie5.dfy ===
/**
 * Movie of assignment 5: construction, Movie.add, Movie.update,
 * Movie.destroy, toJSON and retrieveAll. Unlike assignment 6 the setters
 * keep no inverse maps, so a failed construction or update leaves nothing
 * behind; the actor slot shapes and the saved-value helpers are shared
 * with assignment 6.
 */
module Movie5Ops {
  import opened JsValues
  import opened PersonChecks
  import opened MovieChecks
  import opened Catalog5
  import S = Movie6Setters
  import U = Movie6Store
  import R = Movie6Records

  /** The constructor's argument record after the `||` fallbacks. */
  datatype Slots5 = Slots5(
    movieId: IdSlot,
    title: TextSlot,
    releaseDate: DateSlot,
    movieRating: IdSlot,
    movieGenre: GenresSlot,
    director: IdSlot,
    actors: S.ActorsSlot)

  /** `new Date(releaseDate)` of an accepted slot. */
  function DateOf(d: DateSlot): (v: DateVal)
    ensures v.ValidDate? <==> d.Day?
    ensures d.Day? ==> v == ValidDate(d.year, d.month, d.day)
  {
    match d
    case Day(y, m, dd) => ValidDate(y, m, dd)
    case _ => InvalidDate
  }

  /** The genre codes of an accepted genre array. */
  function GenreCodes(gs: GenresSlot): (r: seq<int>)
    requires CheckMovieGenres(gs) == NoConstraintViolation
    ensures gs.GenreArray? && |r| == |gs.items| > 0
    ensures forall i :: 0 <= i < |r| ==> gs.items[i] == IntNumber(r[i]) && 1 <= r[i] <= GenreMax
  {
    seq(|gs.items|, i requires 0 <= i < |gs.items| => gs.items[i].n)
  }

  /**
   * set director of assignment 5: a falsy slot RETURNS a violation instead
   * of throwing it, so the director is left as it was; a truthy one must
   * pass checkDirector.
   */
  function SetDirector5(m: Movie5, p: IdSlot, personKeys: set<int>): (r: Result<Movie5>)
    ensures !Truthy(p) ==> r == Ok(m)
    ensures Truthy(p) ==> (r.Ok? <==> CheckPersonRef(p, personKeys) == NoConstraintViolation)
    ensures Truthy(p) && r.Ok? ==>
              r.value == m.(director := StoreKey(p)) && StoreKey(p).Some? &&
              StoreKey(p).value >= 1 && StoreKey(p).value in personKeys
    ensures r.Err? ==> r.error == CheckPersonRef(p, personKeys) && r.error != NoConstraintViolation
  {
    if !Truthy(p) then Ok(m)
    else
      var v := CheckPersonRef(p, personKeys);
      if v == NoConstraintViolation then Ok(m.(director := StoreKey(p))) else Err(v)
  }

  /** set director as its message says it should behave: an empty director is rejected. */
  function SetDirector5Intended(m: Movie5, p: IdSlot, personKeys: set<int>): (r: Result<Movie5>)
    ensures r.Ok? ==> r.value.director.Some? && r.value.director.value in personKeys
    ensures Truthy(p) ==> r == SetDirector5(m, p, personKeys)
    ensures !Truthy(p) ==> r == Err(MandatoryValue)
  {
    if !Truthy(p) then Err(MandatoryValue) else SetDirector5(m, p, personKeys)
  }

  /**
   * A movie whose only fault is a missing director: the constructor of
   * assignment 5 accepts it and stores no director, where the intended
   * setter rejects it as a missing mandatory value.
   */
  lemma DirectorlessMovieAccepted5(personKeys: set<int>)
    ensures var sl := Slots5(IntNumber(1), Chars("Reel"), Day(2001, 5, 4), Missing, GenreArray([IntNumber(3)]),
                             Missing, S.KeyedObject(0));
            && Construct5(sl, {}, personKeys).Ok?
            && Construct5(sl, {}, personKeys).value.director.None?
    ensures forall m :: SetDirector5Intended(m, Missing, personKeys) == Err(MandatoryValue)
  {
    var sl := Slots5(IntNumber(1), Chars("Reel"), Day(2001, 5, 4), Missing, GenreArray([IntNumber(3)]),
                     Missing, S.KeyedObject(0));
    ReelTitleValid();
    assert ValidGenre(IntNumber(3));
    assert CheckMovieGenres(sl.movieGenre) == NoConstraintViolation;
  }

  /** addActor: an id passing checkActor joins the actors map under its parsed value. */
  function AddActor5(m: Movie5, a: IdSlot, personKeys: set<int>): (r: Result<Movie5>)
    ensures r.Ok? <==> S.ActorRefOk(a, personKeys)
    ensures r.Ok? ==>
              ParseInt(a).Some? && ParseInt(a).value >= 1 && ParseInt(a).value in personKeys &&
              r.value == m.(actors := m.actors + {ParseInt(a).value})
    ensures r.Err? ==> r.error == CheckPersonRef(Parsed(a), personKeys)
  {
    var pid := Parsed(a);
    var v := CheckPersonRef(pid, personKeys);
    if Truthy(pid) && v == NoConstraintViolation then Ok(m.(actors := m.actors + {pid.n})) else Err(v)
  }

  /** removeActor: an id passing checkActor leaves the actors map; deleting an absent key is harmless. */
  function RemoveActor5(m: Movie5, a: IdSlot, personKeys: set<int>): (r: Result<Movie5>)
    ensures r.Ok? <==> S.ActorRefOk(a, personKeys)
    ensures r.Ok? ==> r.value == m.(actors := m.actors - {ParseInt(a).value})
    ensures r.Err? ==> r.error == CheckPersonRef(Parsed(a), personKeys)
  {
    var pid := Parsed(a);
    var v := CheckPersonRef(pid, personKeys);
    if v == NoConstraintViolation then Ok(m.(actors := m.actors - {pid.n})) else Err(v)
  }

  lemma ParsedIdsCons(refs: seq<IdSlot>)
    requires refs != [] && ParseInt(refs[0]).Some?
    ensures S.ParsedIds(refs) == {ParseInt(refs[0]).value} + S.ParsedIds(refs[1..])
  {
    forall x | x in S.ParsedIds(refs)
      ensures x in {ParseInt(refs[0]).value} + S.ParsedIds(refs[1..])
    {
      var i :| 0 <= i < |refs| && ParseInt(refs[i]).Some? && x == ParseInt(refs[i]).value;
      if i > 0 {
        assert refs[1..][i - 1] == refs[i];
      }
    }
    forall x | x in S.ParsedIds(refs[1..])
      ensures x in S.ParsedIds(refs)
    {
      var i :| 0 <= i < |refs[1..]| && ParseInt(refs[1..][i]).Some? && x == ParseInt(refs[1..][i]).value;
      assert refs[i + 1] == refs[1..][i];
    }
  }

  /** The addActor loop: all ids are added, or the first rejected one aborts it. */
  function AddActors5(m: Movie5, refs: seq<IdSlot>, personKeys: set<int>): (r: Result<Movie5>)
    ensures r.Ok? <==> forall i :: 0 <= i < |refs| ==> S.ActorRefOk(refs[i], personKeys)
    ensures r.Ok? ==> r.value == m.(actors := m.actors + S.ParsedIds(refs))
    ensures r.Err? ==> r.error != NoConstraintViolation
    decreases |refs|
  {
    if refs == [] then Ok(m)
    else
      var m1 :- AddActor5(m, refs[0], personKeys);
      var r := AddActors5(m1, refs[1..], personKeys);
      assert forall i :: 1 <= i < |refs| ==> refs[i] == refs[1..][i - 1];
      ParsedIdsCons(refs);
      r
  }

  /** The removeActor loop: all ids are removed, or the first rejected one aborts it. */
  function RemoveActors5(m: Movie5, refs: seq<IdSlot>, personKeys: set<int>): (r: Result<Movie5>)
    ensures r.Ok? <==> forall i :: 0 <= i < |refs| ==> S.ActorRefOk(refs[i], personKeys)
    ensures r.Ok? ==> r.value == m.(actors := m.actors - S.ParsedIds(refs))
    ensures r.Err? ==> r.error != NoConstraintViolation
    decreases |refs|
  {
    if refs == [] then Ok(m)
    else
      var m1 :- RemoveActor5(m, refs[0], personKeys);
      var r := RemoveActors5(m1, refs[1..], personKeys);
      assert forall i :: 1 <= i < |refs| ==> refs[i] == refs[1..][i - 1];
      ParsedIdsCons(refs);
      r
  }

  /** The actors slot is one the setter accepts. */
  predicate ActorsOk(slot: S.ActorsSlot, personKeys: set<int>) {
    match slot
    case ActorIdList(refs) => forall i :: 0 <= i < |refs| ==> S.ActorRefOk(refs[i], personKeys)
    case KeyedObject(n) => n == 0
    case NoActors => false
  }

  /** The actor ids an accepted actors slot yields. */
  function SlotIds(slot: S.ActorsSlot): set<int> {
    if slot.ActorIdList? then S.ParsedIds(slot.refs) else {}
  }

  /** set actors: reset, then add each listed id (an id map or a missing value throws as in assignment 6). */
  function SetActors5(m: Movie5, slot: S.ActorsSlot, personKeys: set<int>): (r: Result<Movie5>)
    ensures r.Ok? <==> ActorsOk(slot, personKeys)
    ensures r.Ok? ==> r.value == m.(actors := SlotIds(slot))
    ensures slot == S.NoActors ==> r == Err(TypeError)
    ensures slot.KeyedObject? && slot.keyCount > 0 ==> r == Err(ReferenceError)
  {
    match slot
    case NoActors => Err(TypeError)
    case KeyedObject(n) => if n == 0 then Ok(m.(actors := {})) else Err(ReferenceError)
    case ActorIdList(refs) => AddActors5(m.(actors := {}), refs, personKeys)
  }

  /** Every check the constructor's plain setters run passes. */
  predicate PlainOk(sl: Slots5, movieKeys: set<int>) {
    && CheckMovieIdAsId(sl.movieId, movieKeys) == NoConstraintViolation
    && CheckTitle(sl.title) == NoConstraintViolation
    && CheckReleaseDate(sl.releaseDate) == NoConstraintViolation
    && CheckMovieRating(sl.movieRating) == NoConstraintViolation
    && CheckMovieGenres(sl.movieGenre) == NoConstraintViolation
  }

  /** The first violation among the plain setters, in source order. */
  function PlainViolation(sl: Slots5, movieKeys: set<int>): (v: Violation)
    ensures v == NoConstraintViolation <==> PlainOk(sl, movieKeys)
  {
    if CheckMovieIdAsId(sl.movieId, movieKeys) != NoConstraintViolation then CheckMovieIdAsId(sl.movieId, movieKeys)
    else if CheckTitle(sl.title) != NoConstraintViolation then CheckTitle(sl.title)
    else if CheckReleaseDate(sl.releaseDate) != NoConstraintViolation then CheckReleaseDate(sl.releaseDate)
    else if CheckMovieRating(sl.movieRating) != NoConstraintViolation then CheckMovieRating(sl.movieRating)
    else CheckMovieGenres(sl.movieGenre)
  }

  /**
   * `new Movie(slots)` of assignment 5. It succeeds exactly when every
   * setter accepts its slot; a falsy director is no obstacle and leaves the
   * movie without one.
   */
  function Construct5(sl: Slots5, movieKeys: set<int>, personKeys: set<int>): (r: Result<Movie5>)
    ensures r.Ok? <==>
              && PlainOk(sl, movieKeys)
              && (Truthy(sl.director) ==> CheckPersonRef(sl.director, personKeys) == NoConstraintViolation)
              && ActorsOk(sl.actors, personKeys)
    ensures !PlainOk(sl, movieKeys) ==> r == Err(PlainViolation(sl, movieKeys))
    ensures r.Ok? ==>
              && r.value.movieId == sl.movieId.n && r.value.movieId >= 1 && r.value.movieId !in movieKeys
              && r.value.title == sl.title.s && ValidTitle(r.value.title)
              && r.value.releaseDate == DateOf(sl.releaseDate)
              && r.value.rating == ParseInt(sl.movieRating)
              && r.value.genres == GenreCodes(sl.movieGenre)
              && r.value.director == (if Truthy(sl.director) then StoreKey(sl.director) else None)
              && r.value.actors == SlotIds(sl.actors)
    ensures r.Ok? ==> forall a :: a in r.value.actors ==> a >= 1 && a in personKeys
    ensures r.Ok? && r.value.director.Some? ==> r.value.director.value in personKeys
    ensures r.Err? ==> r.error != NoConstraintViolation
  {
    if !PlainOk(sl, movieKeys) then Err(PlainViolation(sl, movieKeys))
    else
      var m0 := Movie5(sl.movieId.n, sl.title.s, DateOf(sl.releaseDate), ParseInt(sl.movieRating),
                       GenreCodes(sl.movieGenre), None, {});
      var m1 :- SetDirector5(m0, sl.director, personKeys);
      var r := SetActors5(m1, sl.actors, personKeys);
      assert r.Ok? ==> forall a :: a in r.value.actors ==> a >= 1 && a in personKeys by {
        if r.Ok? && sl.actors.ActorIdList? {
          forall a | a in r.value.actors
            ensures a >= 1 && a in personKeys
          {
            var i :| 0 <= i < |sl.actors.refs| && ParseInt(sl.actors.refs[i]).Some? && a == ParseInt(sl.actors.refs[i]).value;
            assert S.ActorRefOk(sl.actors.refs[i], personKeys);
          }
        }
      }
      r
  }

  /** Movie.add: a constructed movie is bound under its id; a failure changes nothing. */
  function Movie5Add(s: Store5, sl: Slots5): (r: Store5)
    ensures r.persons == s.persons
    ensures Construct5(sl, s.movies.Keys, s.persons.Keys).Err? ==> r == s
    ensures Construct5(sl, s.movies.Keys, s.persons.Keys).Ok? ==>
              var m := Construct5(sl, s.movies.Keys, s.persons.Keys).value;
              r.movies == s.movies[m.movieId := m] && m.movieId !in s.movies
  {
    match Construct5(sl, s.movies.Keys, s.persons.Keys)
    case Err(_) => s
    case Ok(m) => s.(movies := s.movies[m.movieId := m])
  }

  /** Movie.add keeps every reference resolvable and every movie under its own id. */
  lemma Movie5AddKeepsResolved(s: Store5, sl: Slots5)
    requires Resolved5(s) && Keyed5(s)
    ensures Resolved5(Movie5Add(s, sl)) && Keyed5(Movie5Add(s, sl))
  {
  }

  /** The argument record of Movie.update in assignment 5. */
  datatype Changes5 = Changes5(
    movieId: int,
    title: TextSlot,
    releaseDate: DateSlot,
    movieRating: IdSlot,
    movieGenre: GenresSlot,
    director: IdSlot,
    actorsToAdd: Option<seq<IdSlot>>,
    actorsToRemove: Option<seq<IdSlot>>)

  /**
   * The plain assignments of Movie.update. The stored date and genre array
   * are objects, never `===` to an input, so both are always assigned; the
   * title only when truthy and different, the rating unless it is the very
   * same number.
   */
  function UpdateFields5(m: Movie5, u: Changes5): (r: Result<Movie5>)
    ensures r.Ok? ==>
              && CheckReleaseDate(u.releaseDate) == NoConstraintViolation
              && CheckMovieGenres(u.movieGenre) == NoConstraintViolation
              && r.value.movieId == m.movieId
              && (TextTruthy(u.title) ==> u.title.Chars? && r.value.title == u.title.s)
              && (!TextTruthy(u.title) ==> r.value.title == m.title)
              && r.value.releaseDate == DateOf(u.releaseDate)
              && r.value.rating == (if U.SameRating(u.movieRating, m.rating) then m.rating else ParseInt(u.movieRating))
              && r.value.genres == GenreCodes(u.movieGenre)
              && r.value.director == m.director
              && r.value.actors == m.actors
    ensures CheckReleaseDate(u.releaseDate) != NoConstraintViolation ==> r.Err?
  {
    var m1 :- if TextTruthy(u.title) && u.title != Chars(m.title) then
                (if CheckTitle(u.title) == NoConstraintViolation then Ok(m.(title := u.title.s)) else Err(CheckTitle(u.title)))
              else Ok(m);
    var m2 :- if CheckReleaseDate(u.releaseDate) == NoConstraintViolation then Ok(m1.(releaseDate := DateOf(u.releaseDate)))
              else Err(CheckReleaseDate(u.releaseDate));
    var m3 :- if U.SameRating(u.movieRating, m2.rating) then Ok(m2)
              else if CheckMovieRating(u.movieRating) == NoConstraintViolation then Ok(m2.(rating := ParseInt(u.movieRating)))
              else Err(CheckMovieRating(u.movieRating));
    if CheckMovieGenres(u.movieGenre) == NoConstraintViolation then Ok(m3.(genres := GenreCodes(u.movieGenre)))
    else Err(CheckMovieGenres(u.movieGenre))
  }

  /**
   * The reference assignments of Movie.update: the director (a falsy one is
   * a no-op), then the ids to add, then the ids to remove.
   */
  function UpdateRefs5(m: Movie5, u: Changes5, personKeys: set<int>): (r: Result<Movie5>)
    ensures r.Ok? ==> r.value == m.(director := r.value.director, actors := r.value.actors)
    ensures r.Ok? ==> r.value.director == (if Truthy(u.director) then StoreKey(u.director) else m.director)
    ensures r.Ok? && Truthy(u.director) ==> StoreKey(u.director).Some? && StoreKey(u.director).value in personKeys
    ensures r.Ok? ==>
              r.value.actors == (m.actors + (if u.actorsToAdd.Some? then S.ParsedIds(u.actorsToAdd.value) else {}))
                                - (if u.actorsToRemove.Some? then S.ParsedIds(u.actorsToRemove.value) else {})
    ensures r.Ok? ==> forall a :: a in r.value.actors && a !in m.actors ==> a in personKeys
  {
    var m5 :- SetDirector5(m, u.director, personKeys);
    var m6 :- if u.actorsToAdd.Some? then AddActors5(m5, u.actorsToAdd.value, personKeys) else Ok(m5);
    var r := if u.actorsToRemove.Some? then RemoveActors5(m6, u.actorsToRemove.value, personKeys) else Ok(m6);
    assert r.Ok? ==> forall a :: a in r.value.actors && a !in m.actors ==> a in personKeys by {
      if r.Ok? && u.actorsToAdd.Some? {
        forall a | a in r.value.actors && a !in m.actors
          ensures a in personKeys
        {
          var refs := u.actorsToAdd.value;
          var i :| 0 <= i < |refs| && ParseInt(refs[i]).Some? && a == ParseInt(refs[i]).value;
          assert S.ActorRefOk(refs[i], personKeys);
        }
      }
    }
    r
  }

  /** All assignments of Movie.update on one movie, in source order. */
  function ApplyChanges5(m: Movie5, u: Changes5, personKeys: set<int>): (r: Result<Movie5>)
    ensures r.Ok? ==> UpdateFields5(m, u).Ok? && UpdateRefs5(UpdateFields5(m, u).value, u, personKeys).Ok?
    ensures UpdateFields5(m, u).Err? ==> r == Err(UpdateFields5(m, u).error)
  {
    var m1 :- UpdateFields5(m, u);
    UpdateRefs5(m1, u, personKeys)
  }

  /**
   * Movie.update of assignment 5. An unknown id makes cloneObject throw a
   * TypeError; any violation restores the snapshot, and since no setter
   * touched anything else, the store is exactly as before.
   */
  function Movie5Update(s: Store5, u: Changes5): (r: Exec<Store5>)
    ensures r.Threw? ==> r.state == s
    ensures u.movieId !in s.movies ==> r == Threw(s, TypeError)
    ensures r.Done? <==> u.movieId in s.movies && ApplyChanges5(s.movies[u.movieId], u, s.persons.Keys).Ok?
    ensures r.Done? ==>
              && u.movieId in s.movies
              && ApplyChanges5(s.movies[u.movieId], u, s.persons.Keys).Ok?
              && r.state.persons == s.persons
              && r.state.movies.Keys == s.movies.Keys
              && (forall k :: k in s.movies && k != u.movieId ==> r.state.movies[k] == s.movies[k])
              && r.state.movies[u.movieId] == ApplyChanges5(s.movies[u.movieId], u, s.persons.Keys).value
  {
    if u.movieId !in s.movies then Threw(s, TypeError)
    else
      match ApplyChanges5(s.movies[u.movieId], u, s.persons.Keys)
      case Ok(m) => Done(s.(movies := s.movies[u.movieId := m]))
      case Err(e) => Threw(s, e)
  }

  /** Movie.update keeps every reference resolvable and every movie under its own id. */
  lemma Movie5UpdateKeepsResolved(s: Store5, u: Changes5)
    requires Resolved5(s) && Keyed5(s)
    ensures Resolved5(Movie5Update(s, u).state) && Keyed5(Movie5Update(s, u).state)
  {
    var r := Movie5Update(s, u);
    if r.Done? {
      var m := s.movies[u.movieId];
      var m' := r.state.movies[u.movieId];
      assert forall a :: a in m'.actors ==> a in m.actors || a in s.persons;
    }
  }

  /**
   * An update cannot take a director away: a falsy director slot leaves the
   * stored one in place.
   */
  lemma UpdateKeepsDirector5(s: Store5, u: Changes5)
    requires !Truthy(u.director)
    requires Movie5Update(s, u).Done?
    ensures Movie5Update(s, u).state.movies[u.movieId].director == s.movies[u.movieId].director
  {
  }

  /** Movie.destroy: deletes the key if it is bound; nothing else changes. */
  function Movie5Destroy(s: Store5, movieId: int): (r: Store5)
    ensures r.persons == s.persons
    ensures r.movies.Keys == s.movies.Keys - {movieId}
    ensures forall k :: k in r.movies ==> r.movies[k] == s.movies[k]
  {
    if movieId in s.movies then s.(movies := s.movies - {movieId}) else s
  }

  /**
   * Movie.destroy keeps every remaining movie keyed and its references
   * resolved (persons are untouched), and a second destroy of the same id
   * changes nothing.
   */
  lemma Movie5DestroyKeepsResolved(s: Store5, movieId: int)
    requires Resolved5(s) && Keyed5(s)
    ensures Resolved5(Movie5Destroy(s, movieId)) && Keyed5(Movie5Destroy(s, movieId))
    ensures Movie5Destroy(Movie5Destroy(s, movieId), movieId) == Movie5Destroy(s, movieId)
  {
  }

  /**
   * A saved movie of assignment 5. The director is saved as the whole
   * person object; retrieveAll reads only its personId back, so the record
   * keeps that id.
   */
  datatype Record5 = Record5(
    movieId: int,
    title: string,
    releaseDate: DateSlot,
    movieRating: Option<int>,
    movieGenre: seq<int>,
    director: Option<int>,
    actorsIdRefs: seq<int>)

  /** `rec` is movie `m` as toJSON writes it. */
  predicate Encodes5(m: Movie5, rec: Record5) {
    && rec.movieId == m.movieId
    && rec.title == m.title
    && rec.releaseDate == R.SavedDate(m.releaseDate)
    && rec.movieRating == m.rating
    && rec.movieGenre == m.genres
    && rec.director == m.director
    && (forall i :: 0 <= i < |rec.actorsIdRefs| ==> rec.actorsIdRefs[i] in m.actors)
    && (forall a :: a in m.actors ==> a in rec.actorsIdRefs)
  }

  /** toJSON: every underscore property copied, the actor keys as ascending integers. */
  method Movie5ToJson(m: Movie5) returns (rec: Record5)
    ensures Encodes5(m, rec)
    ensures Ascending(rec.actorsIdRefs) && |rec.actorsIdRefs| == |m.actors|
  {
    var ids := SortedIds(m.actors);
    rec := Record5(m.movieId, m.title, R.SavedDate(m.releaseDate), m.rating, m.genres, m.director, ids);
  }

  /** The constructor arguments retrieveAll passes for a record. */
  function Record5ToSlots(rec: Record5): (sl: Slots5)
    ensures sl.movieId == IntNumber(rec.movieId) && sl.title == Chars(rec.title)
    ensures sl.director == R.NumberSlot(rec.director)
    ensures sl.actors == S.ActorIdList(R.NumberSlots(rec.actorsIdRefs))
  {
    Slots5(IntNumber(rec.movieId), Chars(rec.title), rec.releaseDate, R.NumberSlot(rec.movieRating),
           GenreArray(R.NumberSlots(rec.movieGenre)), R.NumberSlot(rec.director),
           S.ActorIdList(R.NumberSlots(rec.actorsIdRefs)))
  }

  /** The movies a save/load cycle of assignment 5 reproduces. */
  predicate Reloadable5(m: Movie5, personKeys: set<int>) {
    && m.movieId >= 1
    && ValidTitle(m.title)
    && m.releaseDate.ValidDate?
    && !BeforeMinDate(m.releaseDate.year, m.releaseDate.month, m.releaseDate.day)
    && |m.genres| > 0
    && (forall i :: 0 <= i < |m.genres| ==> 1 <= m.genres[i] <= GenreMax)
    && (m.director.Some? ==> m.director.value >= 1 && m.director.value in personKeys)
    && (forall a :: a in m.actors ==> a >= 1 && a in personKeys)
  }

  /**
   * Saving a movie and reading it back reconstructs the same movie, as
   * long as its release date is a real day and everything it refers to is
   * still stored.
   */
  lemma Reload5RoundTrip(m: Movie5, rec: Record5, movieKeys: set<int>, personKeys: set<int>)
    requires Reloadable5(m, personKeys) && m.movieId !in movieKeys
    requires Encodes5(m, rec)
    ensures Construct5(Record5ToSlots(rec), movieKeys, personKeys) == Ok(m)
  {
    var sl := Record5ToSlots(rec);
    assert !IsBlank(m.title);
    assert CheckTitle(sl.title) == NoConstraintViolation;
    assert forall i :: 0 <= i < |m.genres| ==> ValidGenre(IntNumber(m.genres[i]));
    assert CheckMovieGenres(sl.movieGenre) == NoConstraintViolation by {
      AllGenresValid(R.NumberSlots(rec.movieGenre));
    }
    assert GenreCodes(sl.movieGenre) == m.genres;
    forall i | 0 <= i < |rec.actorsIdRefs|
      ensures S.ActorRefOk(R.NumberSlots(rec.actorsIdRefs)[i], personKeys)
    {
      assert rec.actorsIdRefs[i] in m.actors;
    }
    R.ParsedNumbers(rec.actorsIdRefs);
    assert SlotIds(sl.actors) == m.actors by {
      forall a | a in m.actors ensures a in SlotIds(sl.actors) {
        var i :| 0 <= i < |rec.actorsIdRefs| && rec.actorsIdRefs[i] == a;
      }
    }
    if m.director.Some? {
      assert CheckPersonRef(sl.director, personKeys) == NoConstraintViolation;
    }
  }

  lemma AllGenresValid(items: seq<IdSlot>)
    requires items != []
    requires forall i :: 0 <= i < |items| ==> ValidGenre(items[i])
    ensures CheckMovieGenres(GenreArray(items)) == NoConstraintViolation
  {
  }

  /**
   * A movie whose saved director is no longer stored cannot be reloaded:
   * the constructor throws a ReferentialIntegrity violation.
   */
  lemma LostDirectorBlocksReload5(rec: Record5, movieKeys: set<int>, personKeys: set<int>)
    requires rec.director.Some? && rec.director.value >= 1 && rec.director.value !in personKeys
    requires PlainOk(Record5ToSlots(rec), movieKeys)
    ensures Construct5(Record5ToSlots(rec), movieKeys, personKeys) == Err(ReferentialIntegrity)
  {
  }

  /** The movie ids of a list of saved records. */
  function RecordIds5(recs: seq<Record5>): set<int> {
    set i | 0 <= i < |recs| :: recs[i].movieId
  }

  lemma RecordIds5Cons(recs: seq<Record5>)
    requires recs != []
    ensures RecordIds5(recs) == {recs[0].movieId} + RecordIds5(recs[1..])
  {
    forall x | x in RecordIds5(recs) ensures x in {recs[0].movieId} + RecordIds5(recs[1..]) {
      var i :| 0 <= i < |recs| && x == recs[i].movieId;
      if i > 0 {
        assert recs[1..][i - 1] == recs[i];
      }
    }
    forall x | x in RecordIds5(recs[1..]) ensures x in RecordIds5(recs) {
      var i :| 0 <= i < |recs[1..]| && x == recs[1..][i].movieId;
      assert recs[i + 1] == recs[1..][i];
    }
  }

  /** One iteration of Movie.retrieveAll: the rebuilt movie goes in under its id, or the constructor throws. */
  function LoadOne5(s: Store5, rec: Record5): (r: Exec<Store5>)
    ensures r.state.persons == s.persons
    ensures r.Threw? ==> r.state == s && r.error != NoConstraintViolation
    ensures r.Done? ==> rec.movieId !in s.movies && r.state.movies.Keys == s.movies.Keys + {rec.movieId}
    ensures r.Done? ==> forall k :: k in s.movies ==> r.state.movies[k] == s.movies[k]
    ensures r.Done? <==> Construct5(Record5ToSlots(rec), s.movies.Keys, s.persons.Keys).Ok?
    ensures r.Done? ==> r.state.movies[rec.movieId] == Construct5(Record5ToSlots(rec), s.movies.Keys, s.persons.Keys).value
    ensures r.Threw? ==> r.error == Construct5(Record5ToSlots(rec), s.movies.Keys, s.persons.Keys).error
  {
    match Construct5(Record5ToSlots(rec), s.movies.Keys, s.persons.Keys)
    case Err(e) => Threw(s, e)
    case Ok(m) => Done(s.(movies := s.movies[m.movieId := m]))
  }

  /**
   * Movie.retrieveAll of assignment 5: each record is rebuilt against the
   * movies loaded so far and bound under its id. The loop has no
   * try/catch, so the first failing constructor aborts the load with the
   * earlier movies in place.
   */
  function LoadMovies5(s: Store5, recs: seq<Record5>): (r: Exec<Store5>)
    ensures r.state.persons == s.persons
    ensures s.movies.Keys <= r.state.movies.Keys
    ensures forall k :: k in s.movies ==> r.state.movies[k] == s.movies[k]
    ensures r.Done? ==> r.state.movies.Keys == s.movies.Keys + RecordIds5(recs)
    ensures r.Done? ==> RecordIds5(recs) !! s.movies.Keys
    ensures r.Threw? ==> r.error != NoConstraintViolation
    decreases |recs|
  {
    if recs == [] then Done(s)
    else
      RecordIds5Cons(recs);
      var s1 :- LoadOne5(s, recs[0]);
      LoadMovies5(s1, recs[1..])
  }

  /**
   * Loading a + b is loading a and then, only if that went through,
   * loading b on the result: a failure ends the load for good.
   */
  lemma {:induction false} LoadMovies5Append(s: Store5, a: seq<Record5>, b: seq<Record5>)
    ensures LoadMovies5(s, a + b) ==
            (if LoadMovies5(s, a).Threw? then LoadMovies5(s, a) else LoadMovies5(LoadMovies5(s, a).state, b))
    decreases |a|
  {
    if a == [] {
      assert a + b == b;
    } else {
      assert (a + b)[0] == a[0];
      assert (a + b)[1..] == a[1..] + b;
      if LoadOne5(s, a[0]).Done? {
        LoadMovies5Append(LoadOne5(s, a[0]).state, a[1..], b);
      }
    }
  }

  /** Loading saved movies keeps every reference resolvable and every movie under its own id. */
  lemma {:induction false} LoadMovies5KeepsResolved(s: Store5, recs: seq<Record5>)
    requires Resolved5(s) && Keyed5(s)
    ensures Resolved5(LoadMovies5(s, recs).state) && Keyed5(LoadMovies5(s, recs).state)
    decreases |recs|
  {
    if recs != [] {
      var s1 := LoadOne5(s, recs[0]);
      if s1.Done? {
        LoadMovies5KeepsResolved(s1.state, recs[1..]);
      }
    }
  }
}

=== FILE: movie6_fixes.dfy ===
/**
 * Corrected forms of the assignment 6 storage operations that leave
 * inverse maps out of step with Movie.instances, with the invariant each
 * correction restores, and the concrete runs that separate the code as
 * written from the correction.
 */
module Corrections6 {
  import opened JsValues
  import opened MovieChecks
  import opened Catalog6
  import opened Movie6Setters
  import opened Movie6Store
  import opened Person6

  /** Movie.add that discards the whole construction, person edits included, when it fails. */
  function MovieAddAtomic(s: Store, sl: MovieSlots): (r: Store)
    ensures Construct(sl, s.movies.Keys, s.persons).Threw? ==> r == s
    ensures Construct(sl, s.movies.Keys, s.persons).Done? ==> r == MovieAdd(s, sl)
  {
    match Construct(sl, s.movies.Keys, s.persons)
    case Done(d) => s.(movies := s.movies[d.movie.movieId := d.movie], persons := d.persons)
    case Threw(_, _) => s
  }

  /** The atomic Movie.add keeps a keyed, consistent store so whatever the slots. */
  lemma MovieAddAtomicKeepsConsistent(s: Store, sl: MovieSlots)
    requires Consistent(s) && Keyed(s)
    ensures Consistent(MovieAddAtomic(s, sl)) && Keyed(MovieAddAtomic(s, sl))
  {
    if Construct(sl, s.movies.Keys, s.persons).Done? {
      MovieAddKeepsConsistent(s, sl);
    }
  }

  /** Movie.update that also rolls back the person edits when a setter throws. */
  function MovieUpdateAtomic(s: Store, u: MovieChanges): (r: Exec<Store>)
    ensures r.Done? <==> MovieUpdate(s, u).Done?
    ensures r.Threw? ==> r.state == s && r.error == MovieUpdate(s, u).error
    ensures r.Done? ==> r == MovieUpdate(s, u)
  {
    match MovieUpdate(s, u)
    case Done(s1) => Done(s1)
    case Threw(_, e) => Threw(s, e)
  }

  /** The atomic Movie.update keeps a keyed, consistent store so whether it succeeds or fails. */
  lemma MovieUpdateAtomicKeepsConsistent(s: Store, u: MovieChanges)
    requires Consistent(s) && Keyed(s)
    ensures Consistent(MovieUpdateAtomic(s, u).state) && Keyed(MovieUpdateAtomic(s, u).state)
  {
    if MovieUpdate(s, u).Done? {
      MovieUpdateKeepsConsistent(s, u);
    }
  }

  /** A person with movie id `mid` removed from all three inverse maps. */
  function Unlink(p: PersonRec, mid: int): (q: PersonRec)
    ensures forall role :: RoleSet(q, role) == RoleSet(p, role) - {mid}
    ensures q.personId == p.personId && q.name == p.name && q.kind == p.kind && q.agent == p.agent
  {
    p.(directed := p.directed - {mid}, played := p.played - {mid}, about := p.about - {mid})
  }

  /**
   * Movie.destroy as the bidirectional association requires it: the movie
   * is deleted and its id leaves every person's inverse maps.
   */
  function MovieDestroyClean(s: Store, movieId: int): (r: Store)
    ensures r.actors == s.actors && r.directors == s.directors
    ensures r.movies.Keys == s.movies.Keys - {movieId}
    ensures forall k :: k in r.movies ==> r.movies[k] == s.movies[k]
    ensures r.persons.Keys == s.persons.Keys
    ensures forall p, role :: p in r.persons ==> movieId !in RoleSet(r.persons[p], role)
    ensures SameExcept(s.persons, r.persons, movieId)
  {
    var ps := map p | p in s.persons :: Unlink(s.persons[p], movieId);
    Store(s.movies - {movieId}, ps, s.actors, s.directors)
  }

  /** The clean Movie.destroy keeps a keyed, consistent store so. */
  lemma MovieDestroyCleanKeepsConsistent(s: Store, movieId: int)
    requires Consistent(s) && Keyed(s)
    ensures Consistent(MovieDestroyClean(s, movieId)) && Keyed(MovieDestroyClean(s, movieId))
  {
    var r := MovieDestroyClean(s, movieId);
    forall mid | mid in r.movies
      ensures Mirrors(r.persons, mid, r.movies[mid])
    {
      assert Mirrors(s.persons, mid, s.movies[mid]);
      forall p, role | p in r.persons
        ensures mid in RoleSet(r.persons[p], role) <==> mid in RoleSet(s.persons[p], role)
      {
        assert RoleSet(r.persons[p], role) == RoleSet(s.persons[p], role) - {movieId};
      }
    }
    forall p, role, mid | p in r.persons && mid in RoleSet(r.persons[p], role)
      ensures mid in r.movies
    {
      assert RoleSet(r.persons[p], role) == RoleSet(s.persons[p], role) - {movieId};
    }
  }

  /** Ann (1) directs movie 7; Bob (2) directs nothing. */
  function AnnsStore(): Store {
    Store(map[7 := MovieRec(7, "Reel", ValidDate(2001, 5, 4), None, [3], Some(1), {}, Untyped, None, None, None)],
          map[1 := NewPerson(1, "Ann").(directed := {7}), 2 := NewPerson(2, "Bob")],
          map[], map[])
  }

  /** Ann's store satisfies the store invariants. */
  lemma AnnsStoreConsistent()
    ensures Consistent(AnnsStore()) && Keyed(AnnsStore())
  {
    var s0 := AnnsStore();
    assert Mirrors(s0.persons, 7, s0.movies[7]);
  }

  /** Movie 7 again, now directed by Bob. */
  function BobsMovie(): MovieSlots {
    MovieSlots(IntNumber(7), Chars("Reel"), Day(2001, 5, 4), Missing, GenreArray([IntNumber(3)]),
               IntNumber(2), KeyedObject(0), Missing, NonString(false), Missing, Missing)
  }

  /** Construction of Bob's movie 7 succeeds on any store without a movie 7 and with Bob in it. */
  lemma BobsMovieConstructs(persons: map<int, PersonRec>)
    requires 2 in persons
    ensures var r := Construct(BobsMovie(), {}, persons);
            && r.Done?
            && r.state.movie.director == Some(2) && r.state.movie.about == None
            && forall p :: p in persons && p != 2 ==> r.state.persons[p] == persons[p]
  {
    var sl := BobsMovie();
    var d1 := Draft(BlankMovie.(movieId := 7), persons);
    assert SetMovieId(Draft(BlankMovie, persons), sl.movieId, {}) == Done(d1);
    ReelTitleValid();
    assert ValidGenre(IntNumber(3));
    assert CheckMovieGenres(sl.movieGenre) == NoConstraintViolation;
    var r5 := SetPlainFields(d1, sl);
    assert r5.Done?;
    var r7 := SetReferences(r5.state, sl);
    assert r7.Done?;
    assert SetOptionalFields(r7.state, sl) == Done(r7.state);
    ConstructAccepts(sl, {}, persons);
  }

  /**
   * Movie.destroy as written, then Movie.add of a new movie 7 directed by
   * Bob: Bob's movie is stored, and Ann's directedMovies still names 7.
   */
  lemma StaleStoreAfterReuse()
    ensures var s2 := MovieAdd(MovieDestroy(AnnsStore(), 7), BobsMovie());
            && s2.movies.Keys == {7} && s2.movies[7].director == Some(2)
            && 1 in s2.persons && 7 in s2.persons[1].directed
  {
    var s1 := MovieDestroy(AnnsStore(), 7);
    assert s1.movies.Keys == {};
    BobsMovieConstructs(s1.persons);
  }

  /**
   * When directedMovies names every stored movie, Person.destroy deletes
   * them all and completes, whoever directs them now.
   */
  lemma DestroyDirectorOfAll(s: Store, personId: IdSlot)
    requires StoreKey(personId).Some? && StoreKey(personId).value in s.persons
    requires s.movies.Keys <= s.persons[StoreKey(personId).value].directed
    ensures PersonDestroy(s, personId).Done? && PersonDestroy(s, personId).state.movies == map[]
  {
    var k := StoreKey(personId).value;
    var p := s.persons[k];
    assert (DropPlayed(s.movies, p.played, k) - p.directed - p.about).Keys == {};
  }

  /**
   * The run continued with Person.destroy of Ann: her stale directedMovies
   * entry makes it delete Bob's movie.
   */
  lemma StaleEntryDeletesReusedMovie()
    ensures Consistent(AnnsStore())
    ensures var s2 := MovieAdd(MovieDestroy(AnnsStore(), 7), BobsMovie());
            && 7 in s2.movies && s2.movies[7].director == Some(2)
            && PersonDestroy(s2, IntNumber(1)).Done?
            && 7 !in PersonDestroy(s2, IntNumber(1)).state.movies
  {
    AnnsStoreConsistent();
    StaleStoreAfterReuse();
    DestroyDirectorOfAll(MovieAdd(MovieDestroy(AnnsStore(), 7), BobsMovie()), IntNumber(1));
  }

  /**
   * The same two steps with the clean Movie.destroy: the store is
   * consistent, and Bob's movie is stored with no subject.
   */
  lemma CleanStoreAfterReuse()
    ensures var s2 := MovieAdd(MovieDestroyClean(AnnsStore(), 7), BobsMovie());
            && Consistent(s2) && 1 in s2.persons
            && s2.movies.Keys == {7} && s2.movies[7].director == Some(2) && s2.movies[7].about == None
  {
    var s0 := AnnsStore();
    AnnsStoreConsistent();
    MovieDestroyCleanKeepsConsistent(s0, 7);
    var s1 := MovieDestroyClean(s0, 7);
    assert s1.movies.Keys == {};
    BobsMovieConstructs(s1.persons);
    MovieAddKeepsConsistent(s1, BobsMovie());
  }

  /** Continued with Person.destroy of Ann: Bob's movie survives. */
  lemma CleanDestroyKeepsReusedMovie()
    ensures var s2 := MovieAdd(MovieDestroyClean(AnnsStore(), 7), BobsMovie());
            && 7 in s2.movies && s2.movies[7].director == Some(2)
            && PersonDestroy(s2, IntNumber(1)).Done?
            && 7 in PersonDestroy(s2, IntNumber(1)).state.movies
  {
    CleanStoreAfterReuse();
    PersonDestroyCascade(MovieAdd(MovieDestroyClean(AnnsStore(), 7), BobsMovie()), 1, IntNumber(1));
  }

  /**
   * With Movie.destroy made clean, a consistent store stays consistent
   * across any movie deletion, so a later Person.destroy deletes exactly
   * the movies that person directs or is the subject of.
   */
  lemma CleanDestroyThenPersonDestroy(s: Store, movieId: int, k: int, personId: IdSlot)
    requires Consistent(s) && Keyed(s)
    requires StoreKey(personId) == Some(k) && k in s.persons
    ensures var s1 := MovieDestroyClean(s, movieId);
            PersonDestroy(s1, personId).Done? ==>
              forall mid :: mid in PersonDestroy(s1, personId).state.movies <==>
                mid in s1.movies && s1.movies[mid].director != Some(k) && s1.movies[mid].about != Some(k)
  {
    MovieDestroyCleanKeepsConsistent(s, movieId);
    PersonDestroyCascade(MovieDestroyClean(s, movieId), k, personId);
  }
}

=== FILE: movie6_records.dfy ===
/**
 * The persistence mapping of assignment 6's Movie: `toJSON`, which turns
 * references back into ids, and the record-to-movie mapping of
 * `Movie.retrieveAll`. JSON text and localStorage are not modelled; a
 * record is the value JSON.stringify would write and JSON.parse return.
 */
module Movie6Records {
  import opened JsValues
  import opened MovieChecks
  import opened Catalog6
  import opened Movie6Setters
  import opened Movie6Store

  /**
   * A saved movie. `releaseDate` is what `new Date(json)` reads back: the
   * day, or NoDate for the `null` an Invalid Date serialises to. A rating
   * of NaN is saved as `null` (None). Absent fields are None.
   */
  datatype MovieRecord = MovieRecord(
    movieId: int,
    title: string,
    releaseDate: DateSlot,
    movieRating: Option<int>,
    movieGenre: seq<int>,
    director: Option<int>,
    actorsIdRefs: seq<int>,
    movieType: Option<int>,
    tvSeriesName: Option<TextSlot>,
    episodeNo: Option<IdSlot>,
    about: Option<int>)

  /** What a saved date reads back as. */
  function SavedDate(d: DateVal): (r: DateSlot)
    ensures r.Day? <==> d.ValidDate?
    ensures d.ValidDate? ==> r == Day(d.year, d.month, d.day)
  {
    match d
    case ValidDate(y, m, dd) => Day(y, m, dd)
    case InvalidDate => NoDate
  }

  /**
   * `rec` is movie `m` as toJSON writes it: director and about as person
   * ids, the actor keys as a list of integers, every other field copied.
   */
  predicate Encodes(m: MovieRec, rec: MovieRecord) {
    && rec.movieId == m.movieId
    && rec.title == m.title
    && rec.releaseDate == SavedDate(m.releaseDate)
    && rec.movieRating == m.rating
    && rec.movieGenre == m.genres
    && rec.director == m.director
    && (forall i :: 0 <= i < |rec.actorsIdRefs| ==> rec.actorsIdRefs[i] in m.actors)
    && (forall a :: a in m.actors ==> a in rec.actorsIdRefs)
    && rec.movieType == (if m.movieType.TypeCode? then Some(m.movieType.code) else None)
    && rec.tvSeriesName == m.tvSeriesName
    && rec.episodeNo == m.episodeNo
    && rec.about == m.about
  }

  /** toJSON: the record of a movie, with the actor ids in the ascending order of `Object.keys`. */
  method MovieToJson(m: MovieRec) returns (rec: MovieRecord)
    ensures Encodes(m, rec)
    ensures Ascending(rec.actorsIdRefs) && |rec.actorsIdRefs| == |m.actors|
  {
    var ids := SortedIds(m.actors);
    var t := if m.movieType.TypeCode? then Some(m.movieType.code) else None;
    rec := MovieRecord(m.movieId, m.title, SavedDate(m.releaseDate), m.rating, m.genres, m.director,
                       ids, t, m.tvSeriesName, m.episodeNo, m.about);
  }

  /** A saved number as an input slot; `null` or an absent field reads as Missing. */
  function NumberSlot(n: Option<int>): IdSlot {
    match n
    case Some(k) => IntNumber(k)
    case None => Missing
  }

  /** A list of saved numbers as input slots. */
  function NumberSlots(ns: seq<int>): (r: seq<IdSlot>)
    ensures |r| == |ns|
    ensures forall i :: 0 <= i < |ns| ==> r[i] == IntNumber(ns[i])
  {
    seq(|ns|, i requires 0 <= i < |ns| => IntNumber(ns[i]))
  }

  /**
   * The constructor arguments retrieveAll builds from a record: the
   * segment fields of a TV episode for type 2, the subject for any other
   * truthy type, and neither for a falsy one.
   */
  function RecordToSlots(rec: MovieRecord): (sl: MovieSlots)
    ensures sl.movieId == IntNumber(rec.movieId) && sl.title == Chars(rec.title)
    ensures sl.actors == ActorIdList(NumberSlots(rec.actorsIdRefs))
    ensures rec.movieType.None? || rec.movieType == Some(0) ==>
              !Truthy(sl.movieType) && !TextTruthy(sl.tvSeriesName) && !Truthy(sl.episodeNo) && !Truthy(sl.about)
    ensures rec.movieType == Some(TvSeriesEpisode) ==> !Truthy(sl.about)
    ensures rec.movieType.Some? && rec.movieType.value !in {0, TvSeriesEpisode} ==>
              !TextTruthy(sl.tvSeriesName) && !Truthy(sl.episodeNo)
  {
    var base := MovieSlots(IntNumber(rec.movieId), Chars(rec.title), rec.releaseDate, NumberSlot(rec.movieRating),
                           GenreArray(NumberSlots(rec.movieGenre)), NumberSlot(rec.director),
                           ActorIdList(NumberSlots(rec.actorsIdRefs)), Missing, NonString(false), Missing, Missing);
    match rec.movieType
    case None => base
    case Some(c) =>
      if c == 0 then base
      else if c == TvSeriesEpisode then
        base.(movieType := IntNumber(c),
              tvSeriesName := match rec.tvSeriesName case Some(t) => t case None => NonString(false),
              episodeNo := match rec.episodeNo case Some(e) => e case None => Missing)
      else base.(movieType := IntNumber(c), about := NumberSlot(rec.about))
  }

  /**
   * The movies a save/load cycle reproduces: a constructed movie whose
   * release date is a real day, whose type is absent or non-zero, and
   * whose segment fields are those retrieveAll passes back for that type.
   */
  predicate Reloadable(m: MovieRec, personKeys: set<int>) {
    && WellFormed(m, personKeys)
    && m.releaseDate.ValidDate?
    && (m.movieType.Untyped? || (m.movieType.TypeCode? && m.movieType.code != 0))
    && (m.movieType.Untyped? ==> m.tvSeriesName == None && m.episodeNo == None && m.about == None)
    && (m.movieType == TypeCode(TvSeriesEpisode) ==>
          && m.about == None
          && (m.tvSeriesName.Some? ==>
                CheckTvSeriesName(m.tvSeriesName.value, IntNumber(TvSeriesEpisode)) == NoConstraintViolation)
          && (m.episodeNo.Some? ==>
                CheckEpisodeNo(m.episodeNo.value, IntNumber(TvSeriesEpisode)) == NoConstraintViolation))
    && (m.movieType.TypeCode? && m.movieType.code != TvSeriesEpisode ==>
          m.tvSeriesName == None && m.episodeNo == None)
  }

  lemma ParsedNumbers(ns: seq<int>)
    ensures ParsedIds(NumberSlots(ns)) == set i | 0 <= i < |ns| :: ns[i]
  {
    var sl := NumberSlots(ns);
    forall x | x in set i | 0 <= i < |ns| :: ns[i]
      ensures x in ParsedIds(sl)
    {
      var i :| 0 <= i < |ns| && x == ns[i];
      assert ParseInt(sl[i]) == Some(x);
    }
  }

  /** The plain fields of a reloadable movie survive a save/load cycle. */
  lemma ReloadPlainFields(m: MovieRec, rec: MovieRecord, d: Draft)
    requires Reloadable(m, d.persons.Keys) && Encodes(m, rec)
    requires d.movie == BlankMovie.(movieId := m.movieId)
    ensures SetPlainFields(d, RecordToSlots(rec)) ==
            Done(d.(movie := d.movie.(title := m.title, releaseDate := m.releaseDate, rating := m.rating, genres := m.genres)))
  {
    var sl := RecordToSlots(rec);
    assert CheckTitle(sl.title) == NoConstraintViolation;
    assert forall i :: 0 <= i < |m.genres| ==> ValidGenre(sl.movieGenre.items[i]);
    assert CheckMovieGenres(sl.movieGenre) == NoConstraintViolation;
    var r := SetPlainFields(d, sl);
    assert r.Done?;
    assert r.state.movie.genres == m.genres;
  }

  /** Director and actors of a reloadable movie survive a save/load cycle. */
  lemma ReloadReferences(m: MovieRec, rec: MovieRecord, d: Draft)
    requires Reloadable(m, d.persons.Keys) && Encodes(m, rec)
    requires d.movie.director == None && d.movie.actors == {}
    ensures SetReferences(d, RecordToSlots(rec)).Done?
    ensures SetReferences(d, RecordToSlots(rec)).state.movie == d.movie.(director := m.director, actors := m.actors)
  {
    var sl := RecordToSlots(rec);
    ParsedNumbers(rec.actorsIdRefs);
    assert (set i | 0 <= i < |rec.actorsIdRefs| :: rec.actorsIdRefs[i]) == m.actors by {
      forall a | a in m.actors
        ensures a in set i | 0 <= i < |rec.actorsIdRefs| :: rec.actorsIdRefs[i]
      {
        var i :| 0 <= i < |rec.actorsIdRefs| && rec.actorsIdRefs[i] == a;
      }
    }
    var refs := sl.actors.refs;
    forall i | 0 <= i < |refs|
      ensures ActorRefOk(refs[i], d.persons.Keys)
    {
      assert rec.actorsIdRefs[i] in m.actors;
    }
    assert CheckPersonRef(sl.director, d.persons.Keys) == NoConstraintViolation;
  }

  /** Type and segment fields of a reloadable movie survive a save/load cycle. */
  lemma ReloadOptionalFields(m: MovieRec, rec: MovieRecord, d: Draft)
    requires Reloadable(m, d.persons.Keys) && Encodes(m, rec)
    requires d.movie == m.(movieType := Untyped, tvSeriesName := None, episodeNo := None, about := None)
    ensures SetOptionalFields(d, RecordToSlots(rec)).Done?
    ensures SetOptionalFields(d, RecordToSlots(rec)).state.movie == m
  {
    var sl := RecordToSlots(rec);
    if m.movieType.Untyped? {
      assert SetOptionalFields(d, sl) == Done(d);
    } else {
      var c := m.movieType.code;
      var d8 := d.(movie := d.movie.(movieType := TypeCode(c)));
      assert SetMovieType(d, sl.movieType) == Done(d8);
      if c == TvSeriesEpisode {
        var d9 := if m.tvSeriesName.Some? then d8.(movie := d8.movie.(tvSeriesName := m.tvSeriesName)) else d8;
        assert (if TextTruthy(sl.tvSeriesName) then SetTvSeriesName(d8, sl.tvSeriesName) else Done(d8)) == Done(d9);
        var d10 := if m.episodeNo.Some? then d9.(movie := d9.movie.(episodeNo := m.episodeNo)) else d9;
        assert (if Truthy(sl.episodeNo) then SetEpisodeNo(d9, sl.episodeNo) else Done(d9)) == Done(d10);
        assert d10.movie == m;
      } else {
        assert !TextTruthy(sl.tvSeriesName) && !Truthy(sl.episodeNo);
        if m.about.Some? {
          var p := m.about.value;
          assert CheckAbout(IntNumber(p), TypeSlot(TypeCode(c)), d.persons.Keys) == NoConstraintViolation;
          assert SetAbout(d8, sl.about).Done?;
        }
      }
    }
  }

  /**
   * toJSON followed by retrieveAll's mapping reproduces a reloadable movie:
   * decoding the record into constructor arguments and constructing
   * against the same persons yields the original movie value.
   */
  lemma ReloadRoundTrip(m: MovieRec, rec: MovieRecord, movieKeys: set<int>, persons: map<int, PersonRec>)
    requires Reloadable(m, persons.Keys) && m.movieId !in movieKeys
    requires Encodes(m, rec)
    ensures Construct(RecordToSlots(rec), movieKeys, persons).Done?
    ensures Construct(RecordToSlots(rec), movieKeys, persons).state.movie == m
  {
    var sl := RecordToSlots(rec);
    var d1 := Draft(BlankMovie.(movieId := m.movieId), persons);
    assert SetMovieId(Draft(BlankMovie, persons), sl.movieId, movieKeys) == Done(d1);
    ReloadFill(m, rec, d1);
    ConstructSteps(sl, movieKeys, persons);
  }

  /**
   * The fields retrieveAll does not pass back: a stored type 0 (falsy, so
   * not forwarded), and segment fields or a subject the saved type does
   * not call for. A movie holding any of them never reloads as itself.
   */
  predicate LosesOnReload(m: MovieRec) {
    || m.movieType == TypeCode(0)
    || (m.movieType.Untyped? && (m.tvSeriesName.Some? || m.episodeNo.Some? || m.about.Some?))
    || (m.movieType == TypeCode(TvSeriesEpisode) && m.about.Some?)
    || (m.movieType.TypeCode? && m.movieType.code != TvSeriesEpisode && (m.tvSeriesName.Some? || m.episodeNo.Some?))
  }

  /**
   * What ReloadRoundTrip needs beyond a valid date is necessary: a movie
   * with a type-0 code, or with a segment field or subject its type does
   * not carry through the record, comes back different (or not at all).
   */
  lemma ReloadLoses(m: MovieRec, rec: MovieRecord, movieKeys: set<int>, persons: map<int, PersonRec>)
    requires Encodes(m, rec) && LosesOnReload(m)
    ensures Construct(RecordToSlots(rec), movieKeys, persons).Done? ==>
              Construct(RecordToSlots(rec), movieKeys, persons).state.movie != m
  {
    ConstructAccepts(RecordToSlots(rec), movieKeys, persons);
  }

  /** The constructor's assignments after movieId rebuild a reloadable movie from its record. */
  lemma ReloadFill(m: MovieRec, rec: MovieRecord, d1: Draft)
    requires Reloadable(m, d1.persons.Keys) && Encodes(m, rec)
    requires d1.movie == BlankMovie.(movieId := m.movieId)
    ensures FillFields(d1, RecordToSlots(rec)).Done?
    ensures FillFields(d1, RecordToSlots(rec)).state.movie == m
  {
    var sl := RecordToSlots(rec);
    ReloadPlainFields(m, rec, d1);
    var d5 := SetPlainFields(d1, sl).state;
    ReloadReferences(m, rec, d5);
    var d7 := SetReferences(d5, sl).state;
    ReloadOptionalFields(m, rec, d7);
    var r := SetOptionalFields(d7, sl);
    assert r.Done? && r.state.movie == m;
    FillFieldsSteps(d1, sl);
  }

  lemma FillFieldsSteps(d: Draft, sl: MovieSlots)
    requires d.movie == BlankMovie.(movieId := d.movie.movieId)
    requires SetPlainFields(d, sl).Done?
    requires SetReferences(SetPlainFields(d, sl).state, sl).Done?
    ensures FillFields(d, sl) == SetOptionalFields(SetReferences(SetPlainFields(d, sl).state, sl).state, sl)
  {
  }

  lemma ConstructSteps(sl: MovieSlots, movieKeys: set<int>, persons: map<int, PersonRec>)
    requires SetMovieId(Draft(BlankMovie, persons), sl.movieId, movieKeys).Done?
    ensures Construct(sl, movieKeys, persons) == FillFields(SetMovieId(Draft(BlankMovie, persons), sl.movieId, movieKeys).state, sl)
  {
  }

  /** The movie ids of a list of records. */
  function RecordIds(recs: seq<MovieRecord>): set<int> {
    set i | 0 <= i < |recs| :: recs[i].movieId
  }

  /** The ids of a non-empty list are the first record's id and the ids of the rest. */
  lemma RecordIdsCons(recs: seq<MovieRecord>)
    requires recs != []
    ensures RecordIds(recs) == {recs[0].movieId} + RecordIds(recs[1..])
  {
    forall x | x in RecordIds(recs) ensures x in {recs[0].movieId} + RecordIds(recs[1..]) {
      var i :| 0 <= i < |recs| && x == recs[i].movieId;
      if i > 0 {
        assert recs[1..][i - 1] == recs[i];
      }
    }
    forall x | x in RecordIds(recs[1..]) ensures x in RecordIds(recs) {
      var i :| 0 <= i < |recs[1..]| && x == recs[1..][i].movieId;
      assert recs[i + 1] == recs[1..][i];
    }
  }

  /**
   * One iteration of Movie.retrieveAll: the movie rebuilt from a record
   * goes into Movie.instances under its id; a failing constructor throws
   * out of the loop with the person edits it made.
   */
  function LoadOne(s: Store, rec: MovieRecord): (r: Exec<Store>)
    ensures r.state.actors == s.actors && r.state.directors == s.directors
    ensures r.state.persons.Keys == s.persons.Keys
    ensures r.Threw? ==> r.state.movies == s.movies && r.error != NoConstraintViolation
    ensures r.Done? ==> rec.movieId !in s.movies && r.state.movies.Keys == s.movies.Keys + {rec.movieId}
    ensures r.Done? ==> forall k :: k in s.movies ==> r.state.movies[k] == s.movies[k]
  {
    match Construct(RecordToSlots(rec), s.movies.Keys, s.persons)
    case Threw(d, e) => Threw(s.(persons := d.persons), e)
    case Done(d) => Done(s.(movies := s.movies[d.movie.movieId := d.movie], persons := d.persons))
  }

  /**
   * What one load step stores: the movie the constructor built, under the
   * record's id, exactly when the constructor completes, and in every case
   * the persons as the constructor left them.
   */
  lemma LoadOneStores(s: Store, rec: MovieRecord)
    ensures var c := Construct(RecordToSlots(rec), s.movies.Keys, s.persons);
            && (LoadOne(s, rec).Done? <==> c.Done?)
            && (c.Done? ==> LoadOne(s, rec).state.movies[rec.movieId] == c.state.movie)
            && LoadOne(s, rec).state.persons == c.state.persons
  {
  }

  /**
   * The loop of Movie.retrieveAll over the saved records (keyed by their
   * movie ids), each rebuilt against the movies loaded so far. The loop has
   * no try/catch, so the first failing constructor aborts the load.
   */
  function LoadMovies(s: Store, recs: seq<MovieRecord>): (r: Exec<Store>)
    ensures r.state.actors == s.actors && r.state.directors == s.directors
    ensures r.state.persons.Keys == s.persons.Keys
    ensures s.movies.Keys <= r.state.movies.Keys
    ensures forall k :: k in s.movies ==> r.state.movies[k] == s.movies[k]
    ensures r.Done? ==> r.state.movies.Keys == s.movies.Keys + RecordIds(recs)
    ensures r.Done? ==> RecordIds(recs) !! s.movies.Keys
    ensures r.Threw? ==> r.error != NoConstraintViolation
    decreases |recs|
  {
    if recs == [] then Done(s)
    else
      RecordIdsCons(recs);
      var s1 :- LoadOne(s, recs[0]);
      LoadMovies(s1, recs[1..])
  }

  /**
   * Loading a + b is loading a and then, only if that went through,
   * loading b on the result: a failure ends the load for good, with the
   * movies of the loaded prefix in place.
   */
  lemma {:induction false} LoadMoviesAppend(s: Store, a: seq<MovieRecord>, b: seq<MovieRecord>)
    ensures LoadMovies(s, a + b) ==
            (if LoadMovies(s, a).Threw? then LoadMovies(s, a) else LoadMovies(LoadMovies(s, a).state, b))
    decreases |a|
  {
    if a == [] {
      assert a + b == b;
    } else {
      assert (a + b)[0] == a[0];
      assert (a + b)[1..] == a[1..] + b;
      if LoadOne(s, a[0]).Done? {
        LoadMoviesAppend(LoadOne(s, a[0]).state, a[1..], b);
      }
    }
  }

  /** Loading saved movies into a consistent, keyed store keeps it consistent and keyed. */
  lemma {:induction false} LoadMoviesKeepsConsistent(s: Store, recs: seq<MovieRecord>)
    requires Consistent(s) && Keyed(s)
    ensures LoadMovies(s, recs).Done? ==> Consistent(LoadMovies(s, recs).state) && Keyed(LoadMovies(s, recs).state)
    decreases |recs|
  {
    if recs != [] {
      var sl := RecordToSlots(recs[0]);
      var c := Construct(sl, s.movies.Keys, s.persons);
      if c.Done? {
        ConstructKeepsLinks(sl, s.movies.Keys, s.persons);
        CommitKeepsConsistent(s, c.state.movie.movieId, c.state.movie, c.state.persons);
        LoadMoviesKeepsConsistent(LoadOne(s, recs[0]).state, recs[1..]);
      }
    }
  }

  /**
   * A movie stored with an unparseable release date (which checkReleaseDate
   * lets through) cannot be reloaded: its date is saved as `null`, which
   * the same check then rejects as missing.
   */
  lemma InvalidDateNotReloadable(m: MovieRec, rec: MovieRecord, movieKeys: set<int>, persons: map<int, PersonRec>)
    requires m.releaseDate == InvalidDate && m.movieId >= 1 && m.movieId !in movieKeys && ValidTitle(m.title)
    requires Encodes(m, rec)
    ensures Construct(RecordToSlots(rec), movieKeys, persons).Threw?
    ensures Construct(RecordToSlots(rec), movieKeys, persons).error == MandatoryValue
  {
    var sl := RecordToSlots(rec);
    var d1 := Draft(BlankMovie.(movieId := m.movieId), persons);
    assert SetMovieId(Draft(BlankMovie, persons), sl.movieId, movieKeys) == Done(d1);
    assert CheckTitle(sl.title) == NoConstraintViolation;
    var d2 := SetTitle(d1, sl.title).state;
    assert SetReleaseDate(d2, sl.releaseDate) == Threw(d2, MandatoryValue);
    assert SetPlainFields(d1, sl) == Threw(d2, MandatoryValue);
    assert FillFields(d1, sl) == Threw(d2, MandatoryValue);
  }
}

=== FILE: movie6_setters.dfy ===
/**
 * The Movie setters of assignment 6. Each setter runs its check and
 * commits the value only when the check succeeds; the reference setters
 * (director, addActor/removeActor, actors, about) also edit the inverse
 * maps of the Person objects they reach. A setter that throws may already
 * have made some of those edits: its Threw state says which.
 */
module Movie6Setters {
  import opened JsValues
  import opened PersonChecks
  import opened MovieChecks
  import opened Catalog6

  /** A movie object together with the Person objects its setters reach. */
  datatype Draft = Draft(movie: MovieRec, persons: map<int, PersonRec>)

  /** The setter discipline: success exactly when the check passes; a failing check throws its violation, changing nothing. */
  predicate Gated(d: Draft, r: Exec<Draft>, v: Violation) {
    (r.Done? <==> v == NoConstraintViolation) && (r.Threw? ==> r == Threw(d, v))
  }

  /** The references of a movie resolve in the person store. */
  ghost predicate Resolves(persons: map<int, PersonRec>, m: MovieRec) {
    && (m.director.Some? ==> m.director.value in persons)
    && (forall p :: p in m.actors ==> p in persons)
    && (m.about.Some? ==> m.about.value in persons)
  }

  /** The setter keeps the invariant for its movie and touches no other movie's entries. */
  ghost predicate KeepsLinks(d: Draft, r: Exec<Draft>) {
    && SameExcept(d.persons, r.state.persons, d.movie.movieId)
    && r.state.movie.movieId == d.movie.movieId
    && (Mirrors(d.persons, d.movie.movieId, d.movie) ==> Mirrors(r.state.persons, d.movie.movieId, r.state.movie))
  }

  /**
   * One inverse-map edit keeps the invariant when the movie's role for
   * that one person changes accordingly and nothing else changes.
   */
  lemma RelinkStep(persons: map<int, PersonRec>, mid: int, m: MovieRec, m': MovieRec, role: Role, q: int, link: bool)
    requires Mirrors(persons, mid, m)
    requires q in persons && Resolves(persons, m')
    requires Plays(m', role, q) == link
    requires forall p, ro :: (p != q || ro != role) ==> (Plays(m', ro, p) <==> Plays(m, ro, p))
    ensures Mirrors(Relink(persons, Some(q), role, mid, link), mid, m')
  {
    var ps := Relink(persons, Some(q), role, mid, link);
    forall p, ro | p in ps
      ensures mid in RoleSet(ps[p], ro) <==> Plays(m', ro, p)
    {
      if p != q {
        assert ps[p] == persons[p];
      }
    }
  }

  /** A Relink keeps every person's fields and other movies' entries. */
  lemma RelinkSameExcept(persons: map<int, PersonRec>, p: Option<int>, role: Role, mid: int, link: bool)
    ensures SameExcept(persons, Relink(persons, p, role, mid, link), mid)
  {
  }

  lemma SameExceptTrans(a: map<int, PersonRec>, b: map<int, PersonRec>, c: map<int, PersonRec>, mid: int)
    requires SameExcept(a, b, mid) && SameExcept(b, c, mid)
    ensures SameExcept(a, c, mid)
  {
  }

  lemma SameExceptRefl(a: map<int, PersonRec>, mid: int)
    ensures SameExcept(a, a, mid)
  {
  }

  /** set movieId: checkMovieIdAsId against the keys of Movie.instances. */
  function SetMovieId(d: Draft, movieId: IdSlot, movieKeys: set<int>): (r: Exec<Draft>)
    ensures Gated(d, r, CheckMovieIdAsId(movieId, movieKeys))
    ensures r.Done? ==> r.state.movie.movieId == movieId.n && movieId.n > 0 && movieId.n !in movieKeys
    ensures r.Done? ==> r.state == Draft(d.movie.(movieId := movieId.n), d.persons)
  {
    var v := CheckMovieIdAsId(movieId, movieKeys);
    if v == NoConstraintViolation then Done(d.(movie := d.movie.(movieId := movieId.n)))
    else Threw(d, v)
  }

  /** set title: the title is stored unchanged once checkTitle accepts it. */
  function SetTitle(d: Draft, title: TextSlot): (r: Exec<Draft>)
    ensures Gated(d, r, CheckTitle(title))
    ensures r.Done? ==> ValidTitle(r.state.movie.title) && r.state == Draft(d.movie.(title := title.s), d.persons)
  {
    var v := CheckTitle(title);
    if v == NoConstraintViolation then Done(d.(movie := d.movie.(title := title.s)))
    else Threw(d, v)
  }

  /** set releaseDate: stores `new Date(releaseDate)`, which may be the Invalid Date. */
  function SetReleaseDate(d: Draft, date: DateSlot): (r: Exec<Draft>)
    ensures Gated(d, r, CheckReleaseDate(date))
    ensures r.Done? ==> r.state.persons == d.persons
    ensures r.Done? && date.Day? ==>
              r.state.movie == d.movie.(releaseDate := ValidDate(date.year, date.month, date.day)) &&
              !BeforeMinDate(date.year, date.month, date.day)
    ensures r.Done? && !date.Day? ==> r.state.movie == d.movie.(releaseDate := InvalidDate)
  {
    match date
    case NoDate => Threw(d, MandatoryValue)
    case BadDate => Done(d.(movie := d.movie.(releaseDate := InvalidDate)))
    case Day(y, m, dd) =>
      if BeforeMinDate(y, m, dd) then Threw(d, Range)
      else Done(d.(movie := d.movie.(releaseDate := ValidDate(y, m, dd))))
  }

  /** set movieRating: stores parseInt of the accepted slot (NaN for an empty one). */
  function SetMovieRating(d: Draft, rating: IdSlot): (r: Exec<Draft>)
    ensures Gated(d, r, CheckMovieRating(rating))
    ensures r.Done? ==> r.state == Draft(d.movie.(rating := ParseInt(rating)), d.persons)
  {
    var v := CheckMovieRating(rating);
    if v == NoConstraintViolation then Done(d.(movie := d.movie.(rating := ParseInt(rating))))
    else Threw(d, v)
  }

  /** set movieGenre: stores the accepted array of genre codes. */
  function SetMovieGenre(d: Draft, genres: GenresSlot): (r: Exec<Draft>)
    ensures Gated(d, r, CheckMovieGenres(genres))
    ensures r.Done? ==> r.state.persons == d.persons && genres.GenreArray?
    ensures r.Done? ==> |r.state.movie.genres| == |genres.items| > 0
    ensures r.Done? ==>
              forall i :: 0 <= i < |genres.items| ==>
                genres.items[i] == IntNumber(r.state.movie.genres[i]) && 1 <= r.state.movie.genres[i] <= GenreMax
    ensures r.Done? ==> r.state.movie == d.movie.(genres := r.state.movie.genres)
  {
    var v := CheckMovieGenres(genres);
    if v == NoConstraintViolation then
      Done(d.(movie := d.movie.(genres := seq(|genres.items|, i requires 0 <= i < |genres.items| => genres.items[i].n))))
    else Threw(d, v)
  }

  /**
   * set director. A falsy slot unsets the director, and throws a TypeError
   * when there is none to unset. A slot passing checkDirector moves the
   * movie id from the old director's directedMovies to the new one's.
   */
  function SetDirector(d: Draft, p: IdSlot): (r: Exec<Draft>)
    ensures r.state.persons.Keys == d.persons.Keys
    ensures !Truthy(p) ==> (r.Threw? <==> d.movie.director == None)
    ensures !Truthy(p) && r.Threw? ==> r == Threw(d, TypeError)
    ensures !Truthy(p) && r.Done? ==> r.state.movie == d.movie.(director := None)
    ensures Truthy(p) ==> Gated(d, r, CheckPersonRef(p, d.persons.Keys))
    ensures Truthy(p) && r.Done? ==>
              StoreKey(p).Some? && StoreKey(p).value in d.persons &&
              r.state.movie == d.movie.(director := StoreKey(p)) &&
              d.movie.movieId in r.state.persons[StoreKey(p).value].directed
    ensures r.Done? && d.movie.director.Some? && d.movie.director.value in d.persons &&
            r.state.movie.director != d.movie.director ==>
              d.movie.movieId !in r.state.persons[d.movie.director.value].directed
  {
    var mid := d.movie.movieId;
    var ps1 := Relink(d.persons, d.movie.director, Directing, mid, false);
    if !Truthy(p) then
      if d.movie.director == None then Threw(d, TypeError)
      else Done(Draft(d.movie.(director := None), ps1))
    else
      var v := CheckPersonRef(p, d.persons.Keys);
      if v != NoConstraintViolation then Threw(d, v)
      else
        var k := StoreKey(p).value;
        Done(Draft(d.movie.(director := Some(k)), Relink(ps1, Some(k), Directing, mid, true)))
  }

  /** The director setter keeps the inverse-map invariant and edits only this movie's entries. */
  lemma SetDirectorKeepsLinks(d: Draft, p: IdSlot)
    ensures KeepsLinks(d, SetDirector(d, p))
  {
    var mid := d.movie.movieId;
    var r := SetDirector(d, p);
    var m1 := d.movie.(director := None);
    var ps1 := Relink(d.persons, d.movie.director, Directing, mid, false);
    RelinkSameExcept(d.persons, d.movie.director, Directing, mid, false);
    if r.Threw? && r.state == d {
      SameExceptRefl(d.persons, mid);
    } else {
      if Mirrors(d.persons, mid, d.movie) && d.movie.director.Some? {
        RelinkStep(d.persons, mid, d.movie, m1, Directing, d.movie.director.value, false);
      }
      if Truthy(p) {
        var k := StoreKey(p).value;
        RelinkSameExcept(ps1, Some(k), Directing, mid, true);
        SameExceptTrans(d.persons, ps1, r.state.persons, mid);
        if Mirrors(d.persons, mid, d.movie) {
          RelinkStep(ps1, mid, m1, r.state.movie, Directing, k, true);
        }
      }
    }
  }

  /** An actor id addActor accepts: parseInt reads it as a key of Person.instances. */
  predicate ActorRefOk(a: IdSlot, personKeys: set<int>) {
    CheckPersonRef(Parsed(a), personKeys) == NoConstraintViolation
  }

  /**
   * addActor: on an id passing checkActor, the person joins the movie's
   * actors and the movie id joins the person's playedMovies; otherwise the
   * check's violation is thrown with nothing changed.
   */
  function AddActor(d: Draft, a: IdSlot): (r: Exec<Draft>)
    ensures r.state.persons.Keys == d.persons.Keys
    ensures Gated(d, r, CheckPersonRef(Parsed(a), d.persons.Keys))
    ensures r.Done? ==>
              ParseInt(a).Some? && ParseInt(a).value >= 1 && ParseInt(a).value in d.persons &&
              r.state.movie == d.movie.(actors := d.movie.actors + {ParseInt(a).value}) &&
              d.movie.movieId in r.state.persons[ParseInt(a).value].played
  {
    var pid := Parsed(a);
    var v := CheckPersonRef(pid, d.persons.Keys);
    if Truthy(pid) && v == NoConstraintViolation then
      Done(Draft(d.movie.(actors := d.movie.actors + {pid.n}),
                 Relink(d.persons, Some(pid.n), Playing, d.movie.movieId, true)))
    else Threw(d, v)
  }

  lemma AddActorKeepsLinks(d: Draft, a: IdSlot)
    ensures KeepsLinks(d, AddActor(d, a))
  {
    var r := AddActor(d, a);
    if r.Done? {
      var n := ParseInt(a).value;
      RelinkSameExcept(d.persons, Some(n), Playing, d.movie.movieId, true);
      if Mirrors(d.persons, d.movie.movieId, d.movie) {
        RelinkStep(d.persons, d.movie.movieId, d.movie, r.state.movie, Playing, n, true);
      }
    } else {
      SameExceptRefl(d.persons, d.movie.movieId);
    }
  }

  /**
   * removeActor: on a current actor passing checkActor, drops the person
   * from the actors and the movie id from the person's playedMovies. A
   * well-formed id that is not a current actor dereferences undefined
   * (TypeError); a failing check throws its violation.
   */
  function RemoveActor(d: Draft, a: IdSlot): (r: Exec<Draft>)
    ensures r.state.persons.Keys == d.persons.Keys
    ensures r.Threw? ==> r.state == d
    ensures r.Done? <==> ActorRefOk(a, d.persons.Keys) && ParseInt(a).value in d.movie.actors
    ensures !ActorRefOk(a, d.persons.Keys) ==> r == Threw(d, CheckPersonRef(Parsed(a), d.persons.Keys))
    ensures ActorRefOk(a, d.persons.Keys) && ParseInt(a).value !in d.movie.actors ==> r == Threw(d, TypeError)
    ensures r.Done? ==>
              r.state.movie == d.movie.(actors := d.movie.actors - {ParseInt(a).value}) &&
              d.movie.movieId !in r.state.persons[ParseInt(a).value].played
  {
    var pid := Parsed(a);
    var v := CheckPersonRef(pid, d.persons.Keys);
    if v != NoConstraintViolation then Threw(d, v)
    else if pid.n !in d.movie.actors then Threw(d, TypeError)
    else
      Done(Draft(d.movie.(actors := d.movie.actors - {pid.n}),
                 Relink(d.persons, Some(pid.n), Playing, d.movie.movieId, false)))
  }

  lemma RemoveActorKeepsLinks(d: Draft, a: IdSlot)
    ensures KeepsLinks(d, RemoveActor(d, a))
  {
    var r := RemoveActor(d, a);
    if r.Done? {
      var n := ParseInt(a).value;
      RelinkSameExcept(d.persons, Some(n), Playing, d.movie.movieId, false);
      if Mirrors(d.persons, d.movie.movieId, d.movie) {
        RelinkStep(d.persons, d.movie.movieId, d.movie, r.state.movie, Playing, n, false);
      }
    } else {
      SameExceptRefl(d.persons, d.movie.movieId);
    }
  }

  /** The ids parseInt reads from a list of actor slots. */
  function ParsedIds(refs: seq<IdSlot>): set<int> {
    set i | 0 <= i < |refs| && ParseInt(refs[i]).Some? :: ParseInt(refs[i]).value
  }

  /** parseInt of a concatenation reads the ids of both parts. */
  lemma ParsedIdsAppend(a: seq<IdSlot>, b: seq<IdSlot>)
    ensures ParsedIds(a + b) == ParsedIds(a) + ParsedIds(b)
  {
    var c := a + b;
    forall x | x in ParsedIds(c) ensures x in ParsedIds(a) + ParsedIds(b) {
      var i :| 0 <= i < |c| && ParseInt(c[i]).Some? && x == ParseInt(c[i]).value;
      if i < |a| {
        assert c[i] == a[i];
      } else {
        assert c[i] == b[i - |a|];
      }
    }
    forall x | x in ParsedIds(a) ensures x in ParsedIds(c) {
      var i :| 0 <= i < |a| && ParseInt(a[i]).Some? && x == ParseInt(a[i]).value;
      assert c[i] == a[i];
    }
    forall x | x in ParsedIds(b) ensures x in ParsedIds(c) {
      var i :| 0 <= i < |b| && ParseInt(b[i]).Some? && x == ParseInt(b[i]).value;
      assert c[|a| + i] == b[i];
    }
  }

  /** The first i + 1 slots read as the first slot's id and the next i slots' ids. */
  lemma ParsedIdsPrefix(refs: seq<IdSlot>, i: nat)
    requires i < |refs| && ParseInt(refs[0]).Some?
    ensures ParsedIds(refs[..i + 1]) == {ParseInt(refs[0]).value} + ParsedIds(refs[1..][..i])
  {
    assert refs[..i + 1] == [refs[0]] + refs[1..][..i];
    ParsedIdsAppend([refs[0]], refs[1..][..i]);
    assert ParsedIds([refs[0]]) == {ParseInt(refs[0]).value} by {
      assert [refs[0]][0] == refs[0];
    }
  }

  /** A list reads as its first slot's id and the rest's ids. */
  lemma ParsedIdsCons(refs: seq<IdSlot>)
    requires refs != [] && ParseInt(refs[0]).Some?
    ensures ParsedIds(refs) == {ParseInt(refs[0]).value} + ParsedIds(refs[1..])
  {
    ParsedIdsPrefix(refs, |refs| - 1);
    assert refs[..|refs|] == refs;
    assert refs[1..][..|refs| - 1] == refs[1..];
  }

  /**
   * The loop `for (const idRef of actors) this.addActor(idRef)`: every id
   * is added in turn, and the first invalid one throws with the earlier
   * ones (and their playedMovies entries) already in place.
   */
  function AddActors(d: Draft, refs: seq<IdSlot>): (r: Exec<Draft>)
    ensures r.state.persons.Keys == d.persons.Keys
    ensures r.state.movie == d.movie.(actors := r.state.movie.actors)
    ensures r.Done? <==> forall i :: 0 <= i < |refs| ==> ActorRefOk(refs[i], d.persons.Keys)
    ensures r.Done? ==> r.state.movie.actors == d.movie.actors + ParsedIds(refs)
    ensures r.Threw? ==>
              exists i :: 0 <= i < |refs| && !ActorRefOk(refs[i], d.persons.Keys) &&
                          r.error == CheckPersonRef(Parsed(refs[i]), d.persons.Keys) &&
                          forall j :: 0 <= j < i ==> ActorRefOk(refs[j], d.persons.Keys)
    decreases |refs|
  {
    if refs == [] then Done(d)
    else
      var d1 :- AddActor(d, refs[0]);
      var r := AddActors(d1, refs[1..]);
      assert forall i :: 1 <= i < |refs| ==> refs[i] == refs[1..][i - 1];
      ParsedIdsCons(refs);
      if r.Threw? then
        var i :| 0 <= i < |refs[1..]| && !ActorRefOk(refs[1..][i], d1.persons.Keys) &&
                 r.error == CheckPersonRef(Parsed(refs[1..][i]), d1.persons.Keys) &&
                 forall j :: 0 <= j < i ==> ActorRefOk(refs[1..][j], d1.persons.Keys);
        assert !ActorRefOk(refs[i + 1], d.persons.Keys);
        r
      else r
  }

  /**
   * When the adding loop throws at slot i, the actors of slots 0..i-1 are
   * already added and nothing else is.
   */
  lemma {:induction false} AddActorsThrewKeepsPrefix(d: Draft, refs: seq<IdSlot>)
    ensures var r := AddActors(d, refs);
            r.Threw? ==>
              exists i :: 0 <= i < |refs| && !ActorRefOk(refs[i], d.persons.Keys) &&
                          (forall j :: 0 <= j < i ==> ActorRefOk(refs[j], d.persons.Keys)) &&
                          r.state.movie.actors == d.movie.actors + ParsedIds(refs[..i])
    decreases |refs|
  {
    if refs != [] {
      var r1 := AddActor(d, refs[0]);
      if r1.Threw? {
        assert ParsedIds(refs[..0]) == {};
      } else {
        var d1 := r1.state;
        var r := AddActors(d1, refs[1..]);
        AddActorsThrewKeepsPrefix(d1, refs[1..]);
        if r.Threw? {
          var i :| 0 <= i < |refs[1..]| && !ActorRefOk(refs[1..][i], d1.persons.Keys) &&
                   (forall j :: 0 <= j < i ==> ActorRefOk(refs[1..][j], d1.persons.Keys)) &&
                   r.state.movie.actors == d1.movie.actors + ParsedIds(refs[1..][..i]);
          AddedPrefixShift(d, d1, refs, r.state.movie.actors, i);
        }
      }
    }
  }

  /** The witness of a throw in the rest of the list, moved one slot along. */
  lemma AddedPrefixShift(d: Draft, d1: Draft, refs: seq<IdSlot>, actors: set<int>, i: nat)
    requires i + 1 < |refs| && ActorRefOk(refs[0], d.persons.Keys) && ParseInt(refs[0]).Some?
    requires d1.persons.Keys == d.persons.Keys
    requires d1.movie.actors == d.movie.actors + {ParseInt(refs[0]).value}
    requires !ActorRefOk(refs[1..][i], d1.persons.Keys)
    requires forall j :: 0 <= j < i ==> ActorRefOk(refs[1..][j], d1.persons.Keys)
    requires actors == d1.movie.actors + ParsedIds(refs[1..][..i])
    ensures !ActorRefOk(refs[i + 1], d.persons.Keys)
    ensures forall j :: 0 <= j < i + 1 ==> ActorRefOk(refs[j], d.persons.Keys)
    ensures actors == d.movie.actors + ParsedIds(refs[..i + 1])
  {
    assert refs[1..][i] == refs[i + 1];
    forall j | 0 < j < i + 1 ensures ActorRefOk(refs[j], d.persons.Keys) {
      assert refs[1..][j - 1] == refs[j];
    }
    ParsedIdsPrefix(refs, i);
  }

  lemma {:induction false} AddActorsKeepsLinks(d: Draft, refs: seq<IdSlot>)
    ensures KeepsLinks(d, AddActors(d, refs))
    decreases |refs|
  {
    if refs == [] {
      SameExceptRefl(d.persons, d.movie.movieId);
    } else {
      AddActorKeepsLinks(d, refs[0]);
      var r1 := AddActor(d, refs[0]);
      if r1.Done? {
        AddActorsKeepsLinks(r1.state, refs[1..]);
        SameExceptTrans(d.persons, r1.state.persons, AddActors(r1.state, refs[1..]).state.persons, d.movie.movieId);
      }
    }
  }

  /**
   * An actors slot: `actors || actorIdRefs` as the constructor resolves it.
   * - ActorIdList: an array of id references.
   * - KeyedObject(n): a non-array value with n enumerable keys; the map
   *   branch reads an undefined variable, so any key raises a ReferenceError.
   * - NoActors: undefined or null; `Object.keys` raises a TypeError.
   */
  datatype ActorsSlot = ActorIdList(refs: seq<IdSlot>) | KeyedObject(keyCount: nat) | NoActors

  /**
   * set actors: resets the actors map (without touching the old actors'
   * playedMovies) and adds the listed ids one by one.
   */
  function SetActors(d: Draft, slot: ActorsSlot): (r: Exec<Draft>)
    ensures r.state.persons.Keys == d.persons.Keys
    ensures r.state.movie == d.movie.(actors := r.state.movie.actors)
    ensures slot.ActorIdList? ==>
              (r.Done? <==> forall i :: 0 <= i < |slot.refs| ==> ActorRefOk(slot.refs[i], d.persons.Keys))
    ensures slot.ActorIdList? && r.Done? ==> r.state.movie.actors == ParsedIds(slot.refs)
    ensures slot == NoActors ==> r == Threw(Draft(d.movie.(actors := {}), d.persons), TypeError)
    ensures slot.KeyedObject? ==>
              r == if slot.keyCount == 0 then Done(Draft(d.movie.(actors := {}), d.persons))
                   else Threw(Draft(d.movie.(actors := {}), d.persons), ReferenceError)
  {
    var d0 := d.(movie := d.movie.(actors := {}));
    match slot
    case NoActors => Threw(d0, TypeError)
    case KeyedObject(n) => if n == 0 then Done(d0) else Threw(d0, ReferenceError)
    case ActorIdList(refs) => AddActors(d0, refs)
  }

  /** Starting from a movie with no actors (as the constructor does), set actors keeps the invariant. */
  lemma SetActorsKeepsLinks(d: Draft, slot: ActorsSlot)
    requires d.movie.actors == {}
    ensures KeepsLinks(d, SetActors(d, slot))
  {
    var d0 := d.(movie := d.movie.(actors := {}));
    assert d0 == d;
    SameExceptRefl(d.persons, d.movie.movieId);
    if slot.ActorIdList? {
      AddActorsKeepsLinks(d0, slot.refs);
    }
  }

  /**
   * set movieType: once the stored type is truthy every assignment throws
   * FrozenValue; otherwise checkMovieType gates storing parseInt(type).
   */
  function SetMovieType(d: Draft, t: IdSlot): (r: Exec<Draft>)
    ensures TypeTruthy(d.movie.movieType) ==> r == Threw(d, FrozenValue)
    ensures !TypeTruthy(d.movie.movieType) ==> Gated(d, r, CheckMovieType(t))
    ensures r.Done? ==> r.state.persons == d.persons
    ensures r.Done? ==> r.state.movie == d.movie.(movieType := r.state.movie.movieType)
    ensures r.Done? && ParseInt(t).Some? ==> r.state.movie.movieType == TypeCode(ParseInt(t).value)
    ensures r.Done? && ParseInt(t).None? ==> r.state.movie.movieType == TypeNaN
  {
    if TypeTruthy(d.movie.movieType) then Threw(d, FrozenValue)
    else
      var v := CheckMovieType(t);
      if v != NoConstraintViolation then Threw(d, v)
      else
        var code := match ParseInt(t) case Some(n) => TypeCode(n) case None => TypeNaN;
        Done(d.(movie := d.movie.(movieType := code)))
  }

  /** set tvSeriesName: checkTvSeriesName against the stored type gates storing the raw name. */
  function SetTvSeriesName(d: Draft, name: TextSlot): (r: Exec<Draft>)
    ensures Gated(d, r, CheckTvSeriesName(name, TypeSlot(d.movie.movieType)))
    ensures r.Done? ==> r.state == Draft(d.movie.(tvSeriesName := Some(name)), d.persons)
  {
    var v := CheckTvSeriesName(name, TypeSlot(d.movie.movieType));
    if v == NoConstraintViolation then Done(d.(movie := d.movie.(tvSeriesName := Some(name))))
    else Threw(d, v)
  }

  /** set episodeNo: checkEpisodeNo against the stored type gates storing the raw slot. */
  function SetEpisodeNo(d: Draft, episodeNo: IdSlot): (r: Exec<Draft>)
    ensures Gated(d, r, CheckEpisodeNo(episodeNo, TypeSlot(d.movie.movieType)))
    ensures r.Done? ==> r.state == Draft(d.movie.(episodeNo := Some(episodeNo)), d.persons)
  {
    var v := CheckEpisodeNo(episodeNo, TypeSlot(d.movie.movieType));
    if v == NoConstraintViolation then Done(d.(movie := d.movie.(episodeNo := Some(episodeNo))))
    else Threw(d, v)
  }

  /**
   * set about: mirrors set director with checkAbout and aboutMovies. An id
   * that passes checkAbout only through parseInt ("5x") is looked up
   * verbatim, finds no person and throws a TypeError after the old subject
   * was already unlinked and the property cleared.
   */
  function SetAbout(d: Draft, a: IdSlot): (r: Exec<Draft>)
    ensures r.state.persons.Keys == d.persons.Keys
    ensures !Truthy(a) ==> (r.Threw? <==> d.movie.about == None)
    ensures !Truthy(a) && r.Threw? ==> r == Threw(d, TypeError)
    ensures !Truthy(a) && r.Done? ==> r.state.movie == d.movie.(about := None)
    ensures Truthy(a) && CheckAbout(a, TypeSlot(d.movie.movieType), d.persons.Keys) != NoConstraintViolation ==>
              r == Threw(d, CheckAbout(a, TypeSlot(d.movie.movieType), d.persons.Keys))
    ensures Truthy(a) && r.Done? ==>
              IsIntegerOrIntegerString(a) && a.n in d.persons &&
              r.state.movie == d.movie.(about := Some(a.n)) &&
              d.movie.movieId in r.state.persons[a.n].about
    ensures Truthy(a) && CheckAbout(a, TypeSlot(d.movie.movieType), d.persons.Keys) == NoConstraintViolation ==>
              (r.Done? <==> IsIntegerOrIntegerString(a))
    ensures r.Threw? && r.error == TypeError && Truthy(a) ==> r.state.movie == d.movie.(about := None)
    ensures r.Done? && d.movie.about.Some? && d.movie.about.value in d.persons &&
            r.state.movie.about != d.movie.about ==>
              d.movie.movieId !in r.state.persons[d.movie.about.value].about
  {
    var mid := d.movie.movieId;
    var ps1 := Relink(d.persons, d.movie.about, Subject, mid, false);
    if !Truthy(a) then
      if d.movie.about == None then Threw(d, TypeError)
      else Done(Draft(d.movie.(about := None), ps1))
    else
      var v := CheckAbout(a, TypeSlot(d.movie.movieType), d.persons.Keys);
      if v != NoConstraintViolation then Threw(d, v)
      else
        match StoreKey(a)
        case None => Threw(Draft(d.movie.(about := None), ps1), TypeError)
        case Some(k) => Done(Draft(d.movie.(about := Some(k)), Relink(ps1, Some(k), Subject, mid, true)))
  }

  lemma SetAboutKeepsLinks(d: Draft, a: IdSlot)
    ensures KeepsLinks(d, SetAbout(d, a))
  {
    var mid := d.movie.movieId;
    var r := SetAbout(d, a);
    var m1 := d.movie.(about := None);
    var ps1 := Relink(d.persons, d.movie.about, Subject, mid, false);
    RelinkSameExcept(d.persons, d.movie.about, Subject, mid, false);
    if r.state == d {
      SameExceptRefl(d.persons, mid);
    } else {
      if Mirrors(d.persons, mid, d.movie) && d.movie.about.Some? {
        RelinkStep(d.persons, mid, d.movie, m1, Subject, d.movie.about.value, false);
      }
      if r.Done? && Truthy(a) {
        var k := StoreKey(a).value;
        RelinkSameExcept(ps1, Some(k), Subject, mid, true);
        SameExceptTrans(d.persons, ps1, r.state.persons, mid);
        if Mirrors(d.persons, mid, d.movie) {
          RelinkStep(ps1, mid, m1, r.state.movie, Subject, k, true);
        }
      }
    }
  }

  /**
   * The i-th call of the removal loop succeeds: its id passes checkActor
   * and is still an actor once the earlier slots' ids are gone.
   */
  predicate Removable(d: Draft, refs: seq<IdSlot>, i: int)
    requires 0 <= i < |refs|
  {
    && ActorRefOk(refs[i], d.persons.Keys)
    && ParseInt(refs[i]).Some?
    && ParseInt(refs[i]).value in d.movie.actors - ParsedIds(refs[..i])
  }

  /** After a successful first removal, the later calls of the loop face the shrunken actor set. */
  lemma RemovableShift(d: Draft, d1: Draft, refs: seq<IdSlot>, j: nat)
    requires j + 1 < |refs| && ActorRefOk(refs[0], d.persons.Keys)
    requires d1.persons.Keys == d.persons.Keys
    requires d1.movie.actors == d.movie.actors - {ParseInt(refs[0]).value}
    ensures Removable(d, refs, j + 1) <==> Removable(d1, refs[1..], j)
  {
    assert refs[1..][j] == refs[j + 1];
    ParsedIdsPrefix(refs, j);
  }

  /**
   * The loop `for (let actorIdRef of actorIdRefsToRemove) movie.removeActor(actorIdRef)`:
   * on success exactly the listed actors are gone; the first failing
   * removal throws with the earlier removals already made.
   */
  function RemoveActors(d: Draft, refs: seq<IdSlot>): (r: Exec<Draft>)
    ensures r.state.persons.Keys == d.persons.Keys
    ensures r.state.movie == d.movie.(actors := r.state.movie.actors)
    ensures r.state.movie.actors <= d.movie.actors
    ensures r.Threw? ==> r.error != NoConstraintViolation
    ensures r.Done? ==> r.state.movie.actors == d.movie.actors - ParsedIds(refs)
    ensures r.Done? ==> forall i :: 0 <= i < |refs| ==> ActorRefOk(refs[i], d.persons.Keys)
    decreases |refs|
  {
    if refs == [] then Done(d)
    else
      var d1 :- RemoveActor(d, refs[0]);
      var r := RemoveActors(d1, refs[1..]);
      assert forall i :: 1 <= i < |refs| ==> refs[i] == refs[1..][i - 1];
      ParsedIdsCons(refs);
      r
  }

  /**
   * The removal loop succeeds exactly when every call finds its id among
   * the actors left by the earlier calls; when it throws at slot i, the
   * actors of slots 0..i-1 are already gone and nothing else is.
   */
  lemma {:induction false} RemoveActorsOutcome(d: Draft, refs: seq<IdSlot>)
    ensures var r := RemoveActors(d, refs);
            r.Done? <==> forall i :: 0 <= i < |refs| ==> Removable(d, refs, i)
    ensures var r := RemoveActors(d, refs);
            r.Threw? ==>
              exists i :: 0 <= i < |refs| && !Removable(d, refs, i) &&
                          (forall j :: 0 <= j < i ==> Removable(d, refs, j)) &&
                          r.state.movie.actors == d.movie.actors - ParsedIds(refs[..i])
    decreases |refs|
  {
    if refs != [] {
      var r1 := RemoveActor(d, refs[0]);
      assert ParsedIds(refs[..0]) == {};
      if r1.Threw? {
        assert !Removable(d, refs, 0);
      } else {
        var d1 := r1.state;
        var r := RemoveActors(d1, refs[1..]);
        RemoveActorsOutcome(d1, refs[1..]);
        assert Removable(d, refs, 0);
        assert RemoveActors(d, refs) == r;
        if r.Threw? {
          var i :| 0 <= i < |refs[1..]| && !Removable(d1, refs[1..], i) &&
                   (forall j :: 0 <= j < i ==> Removable(d1, refs[1..], j)) &&
                   r.state.movie.actors == d1.movie.actors - ParsedIds(refs[1..][..i]);
          RemovableShift(d, d1, refs, i);
          forall j | 0 < j < i + 1 ensures Removable(d, refs, j) {
            RemovableShift(d, d1, refs, j - 1);
          }
          ParsedIdsPrefix(refs, i);
        } else {
          forall i | 0 < i < |refs| ensures Removable(d, refs, i) {
            RemovableShift(d, d1, refs, i - 1);
          }
        }
      }
    }
  }

  lemma {:induction false} RemoveActorsKeepsLinks(d: Draft, refs: seq<IdSlot>)
    ensures KeepsLinks(d, RemoveActors(d, refs))
    decreases |refs|
  {
    if refs == [] {
      SameExceptRefl(d.persons, d.movie.movieId);
    } else {
      RemoveActorKeepsLinks(d, refs[0]);
      var r1 := RemoveActor(d, refs[0]);
      if r1.Done? {
        RemoveActorsKeepsLinks(r1.state, refs[1..]);
        SameExceptTrans(d.persons, r1.state.persons, RemoveActors(r1.state, refs[1..]).state.persons, d.movie.movieId);
      }
    }
  }
}

=== FILE: movie6_store.dfy ===
/**
 * Movie construction and the storage operations of assignment 6:
 * Movie.add, Movie.update and Movie.destroy over Movie.instances, with the
 * person-side inverse maps the setters edit along the way.
 */
module Movie6Store {
  import opened JsValues
  import opened MovieChecks
  import opened Catalog6
  import opened Movie6Setters

  /**
   * The constructor's argument record after the `director || directorIdRef`,
   * `actors || actorIdRefs` and `about || aboutIdRef` fallbacks.
   */
  datatype MovieSlots = MovieSlots(
    movieId: IdSlot,
    title: TextSlot,
    releaseDate: DateSlot,
    movieRating: IdSlot,
    movieGenre: GenresSlot,
    director: IdSlot,
    actors: ActorsSlot,
    movieType: IdSlot,
    tvSeriesName: TextSlot,
    episodeNo: IdSlot,
    about: IdSlot)

  /** What every movie a constructor returns satisfies. */
  predicate WellFormed(m: MovieRec, personKeys: set<int>) {
    && m.movieId >= 1
    && ValidTitle(m.title)
    && (m.releaseDate.ValidDate? ==> !BeforeMinDate(m.releaseDate.year, m.releaseDate.month, m.releaseDate.day))
    && |m.genres| > 0
    && (forall i :: 0 <= i < |m.genres| ==> 1 <= m.genres[i] <= GenreMax)
    && m.director.Some? && m.director.value >= 1
    && (forall a :: a in m.actors ==> a >= 1)
    && (m.about.Some? ==> m.about.value >= 1)
    && m.director.value in personKeys
    && (forall a :: a in m.actors ==> a in personKeys)
    && (m.about.Some? ==> m.about.value in personKeys)
  }

  /** The constructor's plain mandatory setters, in source order. */
  function SetPlainFields(d: Draft, sl: MovieSlots): (r: Exec<Draft>)
    ensures r.state.persons == d.persons
    ensures r.state.movie == d.movie.(title := r.state.movie.title, releaseDate := r.state.movie.releaseDate,
                                      rating := r.state.movie.rating, genres := r.state.movie.genres)
    ensures r.Threw? ==> r.error != NoConstraintViolation
    ensures r.Done? ==>
              && CheckTitle(sl.title) == NoConstraintViolation
              && CheckReleaseDate(sl.releaseDate) == NoConstraintViolation
              && CheckMovieRating(sl.movieRating) == NoConstraintViolation
              && CheckMovieGenres(sl.movieGenre) == NoConstraintViolation
              && r.state.movie == d.movie.(title := sl.title.s, releaseDate := r.state.movie.releaseDate,
                                           rating := ParseInt(sl.movieRating), genres := r.state.movie.genres)
              && ValidTitle(r.state.movie.title)
              && (r.state.movie.releaseDate.ValidDate? ==>
                    !BeforeMinDate(r.state.movie.releaseDate.year, r.state.movie.releaseDate.month, r.state.movie.releaseDate.day))
              && |r.state.movie.genres| > 0
              && (forall i :: 0 <= i < |r.state.movie.genres| ==> 1 <= r.state.movie.genres[i] <= GenreMax)
    ensures r.Done? && sl.releaseDate.Day? ==>
              r.state.movie.releaseDate == ValidDate(sl.releaseDate.year, sl.releaseDate.month, sl.releaseDate.day)
    ensures r.Done? && !sl.releaseDate.Day? ==> r.state.movie.releaseDate == InvalidDate
    ensures r.Done? ==>
              sl.movieGenre.GenreArray? && |r.state.movie.genres| == |sl.movieGenre.items| &&
              forall i :: 0 <= i < |sl.movieGenre.items| ==> sl.movieGenre.items[i] == IntNumber(r.state.movie.genres[i])
  {
    var d2 :- SetTitle(d, sl.title);
    var d3 :- SetReleaseDate(d2, sl.releaseDate);
    var d4 :- SetMovieRating(d3, sl.movieRating);
    SetMovieGenre(d4, sl.movieGenre)
  }

  /** The constructor's director and actors assignments on a movie with neither. */
  function SetReferences(d: Draft, sl: MovieSlots): (r: Exec<Draft>)
    requires d.movie.director == None && d.movie.actors == {}
    ensures r.state.persons.Keys == d.persons.Keys
    ensures r.state.movie == d.movie.(director := r.state.movie.director, actors := r.state.movie.actors)
    ensures r.Threw? ==> r.error != NoConstraintViolation
    ensures r.Done? ==>
              && CheckPersonRef(sl.director, d.persons.Keys) == NoConstraintViolation
              && r.state.movie.director == StoreKey(sl.director)
              && r.state.movie.director.Some? && r.state.movie.director.value >= 1
              && r.state.movie.director.value in d.persons
              && (forall a :: a in r.state.movie.actors ==> a >= 1 && a in d.persons)
    ensures r.Done? && sl.actors.ActorIdList? ==> r.state.movie.actors == ParsedIds(sl.actors.refs)
    ensures r.Done? && !sl.actors.ActorIdList? ==> r.state.movie.actors == {}
  {
    var d6 :- SetDirector(d, sl.director);
    SetActors(d6, sl.actors)
  }

  /** The constructor's optional assignments, each made only for a truthy slot. */
  function SetOptionalFields(d: Draft, sl: MovieSlots): (r: Exec<Draft>)
    requires d.movie.movieType == Untyped && d.movie.tvSeriesName == None
    requires d.movie.episodeNo == None && d.movie.about == None
    ensures r.state.persons.Keys == d.persons.Keys
    ensures r.state.movie == d.movie.(movieType := r.state.movie.movieType, tvSeriesName := r.state.movie.tvSeriesName,
                                      episodeNo := r.state.movie.episodeNo, about := r.state.movie.about)
    ensures r.Threw? ==> r.error != NoConstraintViolation
    ensures r.Done? ==> (r.state.movie.movieType == Untyped <==> !Truthy(sl.movieType))
    ensures r.Done? ==> (r.state.movie.tvSeriesName.Some? <==> TextTruthy(sl.tvSeriesName))
    ensures r.Done? ==> (r.state.movie.episodeNo.Some? <==> Truthy(sl.episodeNo))
    ensures r.Done? ==> (r.state.movie.about.Some? <==> Truthy(sl.about))
    ensures r.Done? && r.state.movie.about.Some? ==>
              r.state.movie.about.value >= 1 && r.state.movie.about.value in d.persons
    ensures r.Done? && Truthy(sl.movieType) ==>
              IsIntegerOrIntegerString(sl.movieType) && r.state.movie.movieType == TypeCode(sl.movieType.n)
    ensures r.Done? && TextTruthy(sl.tvSeriesName) ==> r.state.movie.tvSeriesName == Some(sl.tvSeriesName)
    ensures r.Done? && Truthy(sl.episodeNo) ==> r.state.movie.episodeNo == Some(sl.episodeNo)
    ensures r.Done? && Truthy(sl.about) ==> r.state.movie.about == StoreKey(sl.about)
  {
    var d8 :- if Truthy(sl.movieType) then SetMovieType(d, sl.movieType) else Done(d);
    var d9 :- if TextTruthy(sl.tvSeriesName) then SetTvSeriesName(d8, sl.tvSeriesName) else Done(d8);
    var d10 :- if Truthy(sl.episodeNo) then SetEpisodeNo(d9, sl.episodeNo) else Done(d9);
    if Truthy(sl.about) then SetAbout(d10, sl.about) else Done(d10)
  }

  /** The constructor after its movieId assignment. */
  function FillFields(d: Draft, sl: MovieSlots): (r: Exec<Draft>)
    requires d.movie == BlankMovie.(movieId := d.movie.movieId)
  {
    var d5 :- SetPlainFields(d, sl);
    var d7 :- SetReferences(d5, sl);
    SetOptionalFields(d7, sl)
  }

  /**
   * `new Movie(slots)` against the current keys of Movie.instances and the
   * current Person.instances. A successful construction checked every
   * mandatory slot and holds a well-formed movie; a failed one reports a
   * genuine violation or JavaScript error, along with the inverse-map edits
   * the reference setters had already made.
   */
  function Construct(sl: MovieSlots, movieKeys: set<int>, persons: map<int, PersonRec>): (r: Exec<Draft>)
    ensures r.state.persons.Keys == persons.Keys
    ensures CheckMovieIdAsId(sl.movieId, movieKeys) != NoConstraintViolation ==>
              r == Threw(Draft(BlankMovie, persons), CheckMovieIdAsId(sl.movieId, movieKeys))
    ensures r.Threw? ==> r.error != NoConstraintViolation
    ensures r.Done? ==> r.state.movie.movieId == sl.movieId.n && sl.movieId.n !in movieKeys
    ensures r.Done? ==> WellFormed(r.state.movie, persons.Keys)
  {
    var d1 :- SetMovieId(Draft(BlankMovie, persons), sl.movieId, movieKeys);
    FillFields(d1, sl)
  }

  /**
   * What a successful `new Movie(slots)` has checked and stored: every
   * mandatory slot passed its check, each field holds its checked input,
   * and an optional field is set exactly when its slot is truthy.
   */
  lemma ConstructAccepts(sl: MovieSlots, movieKeys: set<int>, persons: map<int, PersonRec>)
    ensures var r := Construct(sl, movieKeys, persons);
            r.Done? ==>
              && CheckMovieIdAsId(sl.movieId, movieKeys) == NoConstraintViolation
              && CheckTitle(sl.title) == NoConstraintViolation && r.state.movie.title == sl.title.s
              && CheckReleaseDate(sl.releaseDate) == NoConstraintViolation
              && CheckMovieRating(sl.movieRating) == NoConstraintViolation
              && r.state.movie.rating == ParseInt(sl.movieRating)
              && CheckMovieGenres(sl.movieGenre) == NoConstraintViolation
              && CheckPersonRef(sl.director, persons.Keys) == NoConstraintViolation
              && r.state.movie.director == StoreKey(sl.director)
              && (sl.actors.ActorIdList? ==> r.state.movie.actors == ParsedIds(sl.actors.refs))
              && (r.state.movie.movieType == Untyped <==> !Truthy(sl.movieType))
              && (r.state.movie.tvSeriesName.Some? <==> TextTruthy(sl.tvSeriesName))
              && (r.state.movie.episodeNo.Some? <==> Truthy(sl.episodeNo))
              && (r.state.movie.about.Some? <==> Truthy(sl.about))
  {
  }

  /**
   * What a successful `new Movie(slots)` stores in the fields the checks
   * do not pin by value: the day or the Invalid Date, the genre codes
   * element by element, no actors for a non-list slot, and each truthy
   * optional slot as its setter stores it.
   */
  lemma ConstructStores(sl: MovieSlots, movieKeys: set<int>, persons: map<int, PersonRec>)
    ensures var r := Construct(sl, movieKeys, persons);
            r.Done? ==>
              && (sl.releaseDate.Day? ==>
                    r.state.movie.releaseDate == ValidDate(sl.releaseDate.year, sl.releaseDate.month, sl.releaseDate.day))
              && (!sl.releaseDate.Day? ==> r.state.movie.releaseDate == InvalidDate)
              && sl.movieGenre.GenreArray? && |r.state.movie.genres| == |sl.movieGenre.items|
              && (forall i :: 0 <= i < |sl.movieGenre.items| ==>
                    sl.movieGenre.items[i] == IntNumber(r.state.movie.genres[i]))
              && (!sl.actors.ActorIdList? ==> r.state.movie.actors == {})
              && (Truthy(sl.movieType) ==>
                    IsIntegerOrIntegerString(sl.movieType) && r.state.movie.movieType == TypeCode(sl.movieType.n))
              && (TextTruthy(sl.tvSeriesName) ==> r.state.movie.tvSeriesName == Some(sl.tvSeriesName))
              && (Truthy(sl.episodeNo) ==> r.state.movie.episodeNo == Some(sl.episodeNo))
              && (Truthy(sl.about) ==> r.state.movie.about == StoreKey(sl.about))
  {
  }

  /** A step that edits no inverse map and no reference keeps the links. */
  lemma PlainStep(d: Draft, r: Exec<Draft>)
    requires r.state.persons == d.persons
    requires r.state.movie.movieId == d.movie.movieId && r.state.movie.director == d.movie.director
    requires r.state.movie.actors == d.movie.actors && r.state.movie.about == d.movie.about
    ensures KeepsLinks(d, r)
  {
    SameExceptRefl(d.persons, d.movie.movieId);
  }

  lemma ChainLinks(d: Draft, r1: Exec<Draft>, r2: Exec<Draft>)
    requires KeepsLinks(d, r1) && KeepsLinks(r1.state, r2)
    ensures KeepsLinks(d, r2)
  {
    SameExceptTrans(d.persons, r1.state.persons, r2.state.persons, d.movie.movieId);
  }

  lemma SetReferencesKeepsLinks(d: Draft, sl: MovieSlots)
    requires d.movie.director == None && d.movie.actors == {}
    ensures KeepsLinks(d, SetReferences(d, sl))
  {
    var r6 := SetDirector(d, sl.director);
    SetDirectorKeepsLinks(d, sl.director);
    if r6.Done? {
      SetActorsKeepsLinks(r6.state, sl.actors);
      ChainLinks(d, r6, SetActors(r6.state, sl.actors));
    }
  }

  lemma SetOptionalFieldsKeepsLinks(d: Draft, sl: MovieSlots)
    requires d.movie.movieType == Untyped && d.movie.tvSeriesName == None
    requires d.movie.episodeNo == None && d.movie.about == None
    ensures KeepsLinks(d, SetOptionalFields(d, sl))
  {
    var r8 := if Truthy(sl.movieType) then SetMovieType(d, sl.movieType) else Done(d);
    PlainStep(d, r8);
    if r8.Done? {
      var r9 := if TextTruthy(sl.tvSeriesName) then SetTvSeriesName(r8.state, sl.tvSeriesName) else Done(r8.state);
      PlainStep(r8.state, r9);
      ChainLinks(d, r8, r9);
      if r9.Done? {
        var r10 := if Truthy(sl.episodeNo) then SetEpisodeNo(r9.state, sl.episodeNo) else Done(r9.state);
        PlainStep(r9.state, r10);
        ChainLinks(d, r9, r10);
        if r10.Done? {
          var r11 := if Truthy(sl.about) then SetAbout(r10.state, sl.about) else Done(r10.state);
          if Truthy(sl.about) {
            SetAboutKeepsLinks(r10.state, sl.about);
          } else {
            PlainStep(r10.state, r11);
          }
          ChainLinks(d, r10, r11);
        }
      }
    }
  }

  /**
   * Construction against a store whose inverse maps name only existing
   * movies: a constructed movie is mirrored by the person side, and a
   * constructor, successful or not, edits only entries for its own movie id.
   */
  lemma ConstructKeepsLinks(sl: MovieSlots, movieKeys: set<int>, persons: map<int, PersonRec>)
    requires forall p, role, mid :: p in persons && mid in RoleSet(persons[p], role) ==> mid in movieKeys
    ensures SameExcept(persons, Construct(sl, movieKeys, persons).state.persons,
                       Construct(sl, movieKeys, persons).state.movie.movieId)
    ensures Construct(sl, movieKeys, persons).Done? ==>
              Mirrors(Construct(sl, movieKeys, persons).state.persons,
                      Construct(sl, movieKeys, persons).state.movie.movieId,
                      Construct(sl, movieKeys, persons).state.movie)
  {
    var d0 := Draft(BlankMovie, persons);
    var r1 := SetMovieId(d0, sl.movieId, movieKeys);
    if r1.Threw? {
      SameExceptRefl(persons, 0);
    } else {
      var d1 := r1.state;
      var mid := d1.movie.movieId;
      assert Mirrors(persons, mid, d1.movie);
      var r5 := SetPlainFields(d1, sl);
      PlainStep(d1, r5);
      if r5.Done? {
        SetReferencesKeepsLinks(r5.state, sl);
        var r7 := SetReferences(r5.state, sl);
        ChainLinks(d1, r5, r7);
        if r7.Done? {
          SetOptionalFieldsKeepsLinks(r7.state, sl);
          ChainLinks(d1, r7, SetOptionalFields(r7.state, sl));
        }
      }
    }
  }

  /**
   * Committing a movie under id `mid`, together with person edits confined
   * to `mid` that mirror it, keeps the whole store consistent.
   */
  lemma CommitKeepsConsistent(s: Store, mid: int, m: MovieRec, ps: map<int, PersonRec>)
    requires Consistent(s)
    requires SameExcept(s.persons, ps, mid)
    requires Mirrors(ps, mid, m)
    ensures Consistent(s.(movies := s.movies[mid := m], persons := ps))
  {
    var s' := s.(movies := s.movies[mid := m], persons := ps);
    forall k | k in s'.movies
      ensures Mirrors(ps, k, s'.movies[k])
    {
      if k != mid {
        forall p, role | p in ps
          ensures k in RoleSet(ps[p], role) <==> k in RoleSet(s.persons[p], role)
        {
          assert p in s.persons;
          assert RoleSet(ps[p], role) - {mid} == RoleSet(s.persons[p], role) - {mid};
          assert k in RoleSet(ps[p], role) <==> k in RoleSet(ps[p], role) - {mid};
          assert k in RoleSet(s.persons[p], role) <==> k in RoleSet(s.persons[p], role) - {mid};
        }
      }
    }
    forall p, role, k | p in ps && k in RoleSet(ps[p], role)
      ensures k in s'.movies
    {
      if k != mid {
        assert k in RoleSet(ps[p], role) - {mid};
      }
    }
  }

  /**
   * Movie.add: the constructed movie goes into Movie.instances under its
   * id; a failed construction is logged and leaves Movie.instances as it
   * was, while the person edits the setters made before the failure stay.
   */
  function MovieAdd(s: Store, sl: MovieSlots): (r: Store)
    ensures r.actors == s.actors && r.directors == s.directors
    ensures r.persons.Keys == s.persons.Keys
    ensures Construct(sl, s.movies.Keys, s.persons).Threw? ==> r.movies == s.movies
    ensures Construct(sl, s.movies.Keys, s.persons).Done? ==>
              var m := Construct(sl, s.movies.Keys, s.persons).state.movie;
              && m.movieId !in s.movies
              && r.movies.Keys == s.movies.Keys + {m.movieId}
              && r.movies[m.movieId] == m
              && WellFormed(m, s.persons.Keys)
              && (forall k :: k in s.movies ==> r.movies[k] == s.movies[k])
  {
    var c := Construct(sl, s.movies.Keys, s.persons);
    var m := c.state.movie;
    if c.Done? then s.(movies := s.movies[m.movieId := m], persons := c.state.persons)
    else s.(persons := c.state.persons)
  }

  /** A successful Movie.add keeps the store keyed by movie id and consistent. */
  lemma MovieAddKeepsConsistent(s: Store, sl: MovieSlots)
    requires Consistent(s) && Keyed(s)
    requires Construct(sl, s.movies.Keys, s.persons).Done?
    ensures Consistent(MovieAdd(s, sl)) && Keyed(MovieAdd(s, sl))
  {
    ConstructKeepsLinks(sl, s.movies.Keys, s.persons);
    var d := Construct(sl, s.movies.Keys, s.persons).state;
    CommitKeepsConsistent(s, d.movie.movieId, d.movie, d.persons);
  }

  /** An empty person record as the Person constructor leaves it. */
  function NewPerson(id: int, name: string): PersonRec {
    PersonRec(id, name, PlainPerson, NonString(false), {}, {}, {})
  }

  /** Ann (1) alone, with no movies. */
  function AnnAlone(): Store {
    Store(map[], map[1 := NewPerson(1, "Ann")], map[], map[])
  }

  /** Movie 7 directed by Ann, with the unknown actor 9. */
  function LeakySlots(): MovieSlots {
    MovieSlots(IntNumber(7), Chars("Reel"), Day(2001, 5, 4), Missing,
               GenreArray([IntNumber(3)]), IntNumber(1), ActorIdList([IntNumber(9)]),
               Missing, NonString(false), Missing, Missing)
  }

  /** The plain fields of the leaky movie all pass their checks. */
  lemma LeakyPlainFields()
    ensures SetPlainFields(Draft(BlankMovie.(movieId := 7), AnnAlone().persons), LeakySlots()).Done?
  {
    ReelTitleValid();
    assert ValidGenre(IntNumber(3));
    assert CheckMovieGenres(LeakySlots().movieGenre) == NoConstraintViolation;
  }

  /**
   * Constructing that movie fails on actor 9, after the director setter
   * has added movie 7 to Ann's directedMovies.
   */
  lemma LeakyConstruct()
    ensures var c := Construct(LeakySlots(), {}, AnnAlone().persons);
            && c.Threw? && c.error == ReferentialIntegrity
            && 1 in c.state.persons && c.state.persons[1].directed == {7}
  {
    var s := AnnAlone();
    var sl := LeakySlots();
    var d1 := Draft(BlankMovie.(movieId := 7), s.persons);
    assert SetMovieId(Draft(BlankMovie, s.persons), sl.movieId, {}) == Done(d1);
    LeakyPlainFields();
    var r5 := SetPlainFields(d1, sl);
    var d6 := SetDirector(r5.state, sl.director).state;
    assert d6.persons[1].directed == {7};
    assert AddActor(d6, IntNumber(9)) == Threw(d6, ReferentialIntegrity);
    assert SetReferences(r5.state, sl) == Threw(d6, ReferentialIntegrity);
    assert FillFields(d1, sl) == Threw(d6, ReferentialIntegrity);
    assert Construct(sl, {}, s.persons) == Threw(d6, ReferentialIntegrity);
  }

  /**
   * A failed Movie.add does not undo the director setter's edit: movie 7
   * is rejected for its unknown actor 9, yet person 1's directedMovies
   * keeps naming it, so the store is no longer consistent.
   */
  lemma FailedAddLeaks()
    ensures Consistent(AnnAlone())
    ensures Construct(LeakySlots(), {}, AnnAlone().persons).Threw?
    ensures MovieAdd(AnnAlone(), LeakySlots()).movies == map[]
    ensures MovieAdd(AnnAlone(), LeakySlots()).persons[1].directed == {7}
    ensures !Consistent(MovieAdd(AnnAlone(), LeakySlots()))
  {
    LeakyConstruct();
    var c := Construct(LeakySlots(), {}, AnnAlone().persons);
    var r := MovieAdd(AnnAlone(), LeakySlots());
    assert r == AnnAlone().(persons := c.state.persons);
    assert 7 in RoleSet(r.persons[1], Directing);
  }

  /** The movieType slot of an update: the empty string, or any other value. */
  datatype TypeInput = EmptyString | TypeValue(v: IdSlot)

  /**
   * The argument record of Movie.update (`movieId` names the entry to
   * update). `director` is None when the property is undefined, the one
   * value `director !== movie.director` can find equal to a movie without
   * a director.
   */
  datatype MovieChanges = MovieChanges(
    movieId: int,
    title: TextSlot,
    releaseDate: DateSlot,
    movieRating: IdSlot,
    movieGenre: GenresSlot,
    director: Option<IdSlot>,
    actorsToAdd: Option<seq<IdSlot>>,
    actorsToRemove: Option<seq<IdSlot>>,
    movieType: TypeInput,
    tvSeriesName: TextSlot,
    episodeNo: IdSlot,
    about: IdSlot)

  /**
   * `movieRating !== movie.movieRating`: the stored rating is a number (or
   * NaN), so only the very same integer number compares equal.
   */
  predicate SameRating(input: IdSlot, stored: Option<int>) {
    input.IntNumber? && stored == Some(input.n)
  }

  /**
   * The plain part of Movie.update. A title is assigned only when truthy
   * and different; the release date and the genre list never compare equal
   * to the stored Date and array, so they are always assigned; the rating
   * is assigned unless it is the stored number. The part succeeds exactly
   * when every assigned value passes its check.
   */
  function UpdatePlain(d: Draft, u: MovieChanges): (r: Exec<Draft>)
    ensures r.state.persons == d.persons
    ensures r.state.movie == d.movie.(title := r.state.movie.title, releaseDate := r.state.movie.releaseDate,
                                      rating := r.state.movie.rating, genres := r.state.movie.genres)
    ensures r.Threw? ==> r.error != NoConstraintViolation
    ensures r.Done? <==>
              && (TextTruthy(u.title) && u.title != Chars(d.movie.title) ==> CheckTitle(u.title) == NoConstraintViolation)
              && CheckReleaseDate(u.releaseDate) == NoConstraintViolation
              && (SameRating(u.movieRating, d.movie.rating) || CheckMovieRating(u.movieRating) == NoConstraintViolation)
              && CheckMovieGenres(u.movieGenre) == NoConstraintViolation
    ensures !TextTruthy(u.title) || u.title == Chars(d.movie.title) ==> r.state.movie.title == d.movie.title
    ensures r.Done? && TextTruthy(u.title) ==> u.title.Chars? && r.state.movie.title == u.title.s
    ensures r.Done? && u.releaseDate.Day? ==>
              r.state.movie.releaseDate == ValidDate(u.releaseDate.year, u.releaseDate.month, u.releaseDate.day)
    ensures r.Done? && !u.releaseDate.Day? ==> r.state.movie.releaseDate == InvalidDate
    ensures r.Done? ==> r.state.movie.rating == ParseInt(u.movieRating)
    ensures r.Done? ==>
              u.movieGenre.GenreArray? && |r.state.movie.genres| == |u.movieGenre.items| &&
              forall i :: 0 <= i < |u.movieGenre.items| ==> u.movieGenre.items[i] == IntNumber(r.state.movie.genres[i])
  {
    var d1 :- if TextTruthy(u.title) && u.title != Chars(d.movie.title) then SetTitle(d, u.title) else Done(d);
    var d2 :- SetReleaseDate(d1, u.releaseDate);
    var d3 :- if SameRating(u.movieRating, d2.movie.rating) then Done(d2) else SetMovieRating(d2, u.movieRating);
    SetMovieGenre(d3, u.movieGenre)
  }

  /** The ids an optional list of actor slots names; none when the list is absent. */
  function ListedIds(refs: Option<seq<IdSlot>>): set<int> {
    if refs.Some? then ParsedIds(refs.value) else {}
  }

  /**
   * The director as `director !== movie.director` lets it through: an
   * undefined property is skipped only while the movie has no director; any
   * other value is assigned, since a stored Person object never equals an id.
   */
  function UpdateDirector(d: Draft, director: Option<IdSlot>): (r: Exec<Draft>)
    ensures r.state.persons.Keys == d.persons.Keys
    ensures r.state.movie == d.movie.(director := r.state.movie.director)
    ensures director.None? ==> r.Done? && r.state.movie.director == None
    ensures director.None? && d.movie.director.None? ==> r == Done(d)
    ensures director.Some? ==> r == SetDirector(d, director.value)
  {
    match director
    case None => if d.movie.director.None? then Done(d) else SetDirector(d, Missing)
    case Some(p) => SetDirector(d, p)
  }

  /**
   * The reference part of Movie.update: the director step, then the listed
   * actors are added and the listed actors removed. On success the director
   * is the given one (none for a falsy or undefined value) and the actors
   * are the stored ones plus the added minus the removed.
   */
  function UpdateReferences(d: Draft, u: MovieChanges): (r: Exec<Draft>)
    ensures r.state.persons.Keys == d.persons.Keys
    ensures r.state.movie == d.movie.(director := r.state.movie.director, actors := r.state.movie.actors)
    ensures r.Threw? ==> r.error != NoConstraintViolation
    ensures u.director.Some? && !Truthy(u.director.value) && d.movie.director.None? ==> r == Threw(d, TypeError)
    ensures u.director.Some? && Truthy(u.director.value) &&
            CheckPersonRef(u.director.value, d.persons.Keys) != NoConstraintViolation ==>
              r == Threw(d, CheckPersonRef(u.director.value, d.persons.Keys))
    ensures r.Done? ==>
              r.state.movie.director ==
                (if u.director.Some? && Truthy(u.director.value) then StoreKey(u.director.value) else None)
    ensures r.Done? ==>
              r.state.movie.actors == (d.movie.actors + ListedIds(u.actorsToAdd)) - ListedIds(u.actorsToRemove)
  {
    var d5 :- UpdateDirector(d, u.director);
    var d6 :- if u.actorsToAdd.Some? then AddActors(d5, u.actorsToAdd.value) else Done(d5);
    if u.actorsToRemove.Some? then RemoveActors(d6, u.actorsToRemove.value) else Done(d6)
  }

  /**
   * `movieType != movie.movieType` for a truthy input: loose equality with
   * the stored number holds for that integer or its decimal string.
   */
  predicate LooselyEqual(v: IdSlot, stored: TypeVal) {
    stored.TypeCode? && StoreKey(v) == Some(stored.code)
  }

  /**
   * The movieType step of Movie.update. A truthy type is assigned only
   * while none is stored; a different one reaches `window.alert(message)`,
   * whose `message` is undeclared (ReferenceError). The empty string
   * always throws FrozenValue, because `"movieType" in movie` finds the
   * accessor on the prototype.
   */
  function UpdateType(d: Draft, t: TypeInput): (r: Exec<Draft>)
    ensures r.state.persons == d.persons
    ensures r.state.movie == d.movie.(movieType := r.state.movie.movieType)
    ensures d.movie.movieType != Untyped ==> r.state.movie.movieType == d.movie.movieType
    ensures t == EmptyString ==> r == Threw(d, FrozenValue)
    ensures t.TypeValue? && Truthy(t.v) && d.movie.movieType != Untyped ==>
              r == if LooselyEqual(t.v, d.movie.movieType) then Done(d) else Threw(d, ReferenceError)
    ensures t.TypeValue? && !Truthy(t.v) ==> r == Done(d)
    ensures t.TypeValue? && Truthy(t.v) && d.movie.movieType == Untyped ==> r == SetMovieType(d, t.v)
  {
    match t
    case EmptyString => Threw(d, FrozenValue)
    case TypeValue(v) =>
      if !Truthy(v) then Done(d)
      else if d.movie.movieType == Untyped then SetMovieType(d, v)
      else if LooselyEqual(v, d.movie.movieType) then Done(d)
      else Threw(d, ReferenceError)
  }

  /**
   * The segment part of Movie.update: series name and episode number when
   * truthy and different from the stored slot, the subject whenever truthy
   * (a stored Person object never equals an id). Each assigned value is
   * checked against the stored movie type; falsy values leave the stored
   * property alone.
   */
  function UpdateSegments(d: Draft, u: MovieChanges): (r: Exec<Draft>)
    ensures r.state.persons.Keys == d.persons.Keys
    ensures r.state.movie == d.movie.(tvSeriesName := r.state.movie.tvSeriesName,
                                      episodeNo := r.state.movie.episodeNo, about := r.state.movie.about)
    ensures r.Threw? ==> r.error != NoConstraintViolation
    ensures !TextTruthy(u.tvSeriesName) ==> r.state.movie.tvSeriesName == d.movie.tvSeriesName
    ensures !Truthy(u.episodeNo) ==> r.state.movie.episodeNo == d.movie.episodeNo
    ensures !Truthy(u.about) ==> r.state.movie.about == d.movie.about
    ensures r.Done? && TextTruthy(u.tvSeriesName) ==> r.state.movie.tvSeriesName == Some(u.tvSeriesName)
    ensures r.Done? && TextTruthy(u.tvSeriesName) && d.movie.tvSeriesName != Some(u.tvSeriesName) ==>
              CheckTvSeriesName(u.tvSeriesName, TypeSlot(d.movie.movieType)) == NoConstraintViolation
    ensures r.Done? && Truthy(u.episodeNo) ==> r.state.movie.episodeNo == Some(u.episodeNo)
    ensures r.Done? && Truthy(u.episodeNo) && d.movie.episodeNo != Some(u.episodeNo) ==>
              CheckEpisodeNo(u.episodeNo, TypeSlot(d.movie.movieType)) == NoConstraintViolation
    ensures r.Done? && Truthy(u.about) ==>
              r.state.movie.about == StoreKey(u.about) &&
              CheckAbout(u.about, TypeSlot(d.movie.movieType), d.persons.Keys) == NoConstraintViolation
  {
    var d9 :- if TextTruthy(u.tvSeriesName) && d.movie.tvSeriesName != Some(u.tvSeriesName)
              then SetTvSeriesName(d, u.tvSeriesName) else Done(d);
    var d10 :- if Truthy(u.episodeNo) && d9.movie.episodeNo != Some(u.episodeNo)
               then SetEpisodeNo(d9, u.episodeNo) else Done(d9);
    if Truthy(u.about) then SetAbout(d10, u.about) else Done(d10)
  }

  /** The body of Movie.update's try block on the stored movie. */
  function ApplyChanges(d: Draft, u: MovieChanges): (r: Exec<Draft>)
    ensures r.state.persons.Keys == d.persons.Keys
    ensures r.state.movie.movieId == d.movie.movieId
    ensures r.Threw? ==> r.error != NoConstraintViolation
    ensures d.movie.movieType != Untyped ==> r.state.movie.movieType == d.movie.movieType
    ensures u.movieType == EmptyString ==> r.Threw?
  {
    var d4 :- UpdatePlain(d, u);
    var d7 :- UpdateReferences(d4, u);
    var d8 :- UpdateType(d7, u.movieType);
    UpdateSegments(d8, u)
  }

  /**
   * Movie.update. An unknown id fails at the first property access
   * (TypeError) with nothing changed. A violation restores the stored
   * movie from its snapshot, but the person edits the setters had already
   * made stay. Threw reports the exception the operation caught and logged.
   */
  function MovieUpdate(s: Store, u: MovieChanges): (r: Exec<Store>)
    ensures r.state.actors == s.actors && r.state.directors == s.directors
    ensures r.state.persons.Keys == s.persons.Keys
    ensures r.state.movies.Keys == s.movies.Keys
    ensures forall k :: k in s.movies && k != u.movieId ==> r.state.movies[k] == s.movies[k]
    ensures u.movieId !in s.movies ==> r == Threw(s, TypeError)
    ensures r.Threw? ==> r.state.movies == s.movies && r.error != NoConstraintViolation
    ensures r.Done? ==> r.state.movies[u.movieId].movieId == s.movies[u.movieId].movieId
    ensures u.movieId in s.movies && s.movies[u.movieId].movieType != Untyped ==>
              r.state.movies[u.movieId].movieType == s.movies[u.movieId].movieType
    ensures u.movieType == EmptyString ==> r.Threw?
  {
    if u.movieId !in s.movies then Threw(s, TypeError)
    else
      match ApplyChanges(Draft(s.movies[u.movieId], s.persons), u)
      case Done(d) => Done(s.(movies := s.movies[u.movieId := d.movie], persons := d.persons))
      case Threw(d, e) => Threw(s.(persons := d.persons), e)
  }

  /**
   * What a successful Movie.update stores under its id: each given value
   * as its setter stores it, the actors as the stored ones plus the added
   * minus the removed, and the properties given falsy values untouched.
   * The type is written once: only an untyped movie takes a truthy one.
   */
  lemma MovieUpdateStoresChanges(s: Store, u: MovieChanges)
    ensures var r := MovieUpdate(s, u);
            r.Done? ==>
              var m0 := s.movies[u.movieId];
              var m := r.state.movies[u.movieId];
              && (TextTruthy(u.title) ==> u.title == Chars(m.title))
              && (!TextTruthy(u.title) ==> m.title == m0.title)
              && m.rating == ParseInt(u.movieRating)
              && m.director == (if u.director.Some? && Truthy(u.director.value) then StoreKey(u.director.value) else None)
              && m.actors == (m0.actors + ListedIds(u.actorsToAdd)) - ListedIds(u.actorsToRemove)
              && (TextTruthy(u.tvSeriesName) ==> m.tvSeriesName == Some(u.tvSeriesName))
              && (!TextTruthy(u.tvSeriesName) ==> m.tvSeriesName == m0.tvSeriesName)
              && (Truthy(u.episodeNo) ==> m.episodeNo == Some(u.episodeNo))
              && (!Truthy(u.episodeNo) ==> m.episodeNo == m0.episodeNo)
              && (Truthy(u.about) ==> m.about == StoreKey(u.about))
              && (!Truthy(u.about) ==> m.about == m0.about)
              && (u.releaseDate.Day? ==>
                    m.releaseDate == ValidDate(u.releaseDate.year, u.releaseDate.month, u.releaseDate.day))
              && (!u.releaseDate.Day? ==> m.releaseDate == InvalidDate)
              && u.movieGenre.GenreArray? && |m.genres| == |u.movieGenre.items|
              && (forall i :: 0 <= i < |u.movieGenre.items| ==> u.movieGenre.items[i] == IntNumber(m.genres[i]))
              && u.movieType.TypeValue?
              && (!Truthy(u.movieType.v) || m0.movieType != Untyped ==> m.movieType == m0.movieType)
              && (Truthy(u.movieType.v) && m0.movieType == Untyped ==>
                    IsIntegerOrIntegerString(u.movieType.v) && m.movieType == TypeCode(u.movieType.v.n))
  {
  }

  lemma UpdateReferencesKeepsLinks(d: Draft, u: MovieChanges)
    ensures KeepsLinks(d, UpdateReferences(d, u))
  {
    var r5 := UpdateDirector(d, u.director);
    if u.director.Some? {
      SetDirectorKeepsLinks(d, u.director.value);
    } else if d.movie.director.Some? {
      SetDirectorKeepsLinks(d, Missing);
    } else {
      PlainStep(d, r5);
    }
    if r5.Done? {
      var r6 := if u.actorsToAdd.Some? then AddActors(r5.state, u.actorsToAdd.value) else Done(r5.state);
      if u.actorsToAdd.Some? {
        AddActorsKeepsLinks(r5.state, u.actorsToAdd.value);
      } else {
        PlainStep(r5.state, r6);
      }
      ChainLinks(d, r5, r6);
      if r6.Done? {
        var r7 := if u.actorsToRemove.Some? then RemoveActors(r6.state, u.actorsToRemove.value) else Done(r6.state);
        if u.actorsToRemove.Some? {
          RemoveActorsKeepsLinks(r6.state, u.actorsToRemove.value);
        } else {
          PlainStep(r6.state, r7);
        }
        ChainLinks(d, r6, r7);
      }
    }
  }

  lemma UpdateSegmentsKeepsLinks(d: Draft, u: MovieChanges)
    ensures KeepsLinks(d, UpdateSegments(d, u))
  {
    var r9 := if TextTruthy(u.tvSeriesName) && d.movie.tvSeriesName != Some(u.tvSeriesName)
              then SetTvSeriesName(d, u.tvSeriesName) else Done(d);
    PlainStep(d, r9);
    if r9.Done? {
      var r10 := if Truthy(u.episodeNo) && r9.state.movie.episodeNo != Some(u.episodeNo)
                 then SetEpisodeNo(r9.state, u.episodeNo) else Done(r9.state);
      PlainStep(r9.state, r10);
      ChainLinks(d, r9, r10);
      if r10.Done? {
        var r11 := if Truthy(u.about) then SetAbout(r10.state, u.about) else Done(r10.state);
        if Truthy(u.about) {
          SetAboutKeepsLinks(r10.state, u.about);
        } else {
          PlainStep(r10.state, r11);
        }
        ChainLinks(d, r10, r11);
      }
    }
  }

  lemma ApplyChangesKeepsLinks(d: Draft, u: MovieChanges)
    ensures KeepsLinks(d, ApplyChanges(d, u))
  {
    var r4 := UpdatePlain(d, u);
    PlainStep(d, r4);
    if r4.Done? {
      var r7 := UpdateReferences(r4.state, u);
      UpdateReferencesKeepsLinks(r4.state, u);
      ChainLinks(d, r4, r7);
      if r7.Done? {
        var r8 := UpdateType(r7.state, u.movieType);
        PlainStep(r7.state, r8);
        ChainLinks(d, r7, r8);
        if r8.Done? {
          UpdateSegmentsKeepsLinks(r8.state, u);
          ChainLinks(d, r8, UpdateSegments(r8.state, u));
        }
      }
    }
  }

  /** A successful Movie.update keeps the store keyed and consistent. */
  lemma MovieUpdateKeepsConsistent(s: Store, u: MovieChanges)
    requires Consistent(s) && Keyed(s)
    requires MovieUpdate(s, u).Done?
    ensures Consistent(MovieUpdate(s, u).state) && Keyed(MovieUpdate(s, u).state)
  {
    var d := Draft(s.movies[u.movieId], s.persons);
    ApplyChangesKeepsLinks(d, u);
    var r := ApplyChanges(d, u);
    CommitKeepsConsistent(s, u.movieId, r.state.movie, r.state.persons);
  }

  /**
   * Movie.destroy: deletes the given key and nothing else; an unknown id
   * leaves the store unchanged. The persons' inverse maps are not touched.
   */
  function MovieDestroy(s: Store, movieId: int): (r: Store)
    ensures r.persons == s.persons && r.actors == s.actors && r.directors == s.directors
    ensures r.movies.Keys == s.movies.Keys - {movieId}
    ensures forall k :: k in r.movies ==> r.movies[k] == s.movies[k]
  {
    if movieId in s.movies then s.(movies := s.movies - {movieId}) else s
  }

  /** Movie.destroy keeps every remaining movie mirrored. */
  lemma MovieDestroyKeepsMirrored(s: Store, movieId: int)
    requires AllMirrored(s) && Keyed(s)
    ensures AllMirrored(MovieDestroy(s, movieId)) && Keyed(MovieDestroy(s, movieId))
  {
  }

  /**
   * Movie.destroy leaves its director's directedMovies naming the deleted
   * movie, so a consistent store stops being consistent.
   */
  lemma MovieDestroyLeavesStale(s: Store, movieId: int)
    requires Consistent(s)
    requires movieId in s.movies && s.movies[movieId].director.Some?
    ensures !NoStale(MovieDestroy(s, movieId))
  {
    var p := s.movies[movieId].director.value;
    assert Plays(s.movies[movieId], Directing, p);
    assert movieId in RoleSet(s.persons[p], Directing);
  }
}

=== FILE: movie_checks.dfy ===
/**
 * The Movie validators of assignment 6 (assignment 5 has the same text for
 * every check it shares: checkId, checkMovieIdAsId, checkTitle,
 * checkReleaseDate, checkMovieRating, checkMovieGenre(s), checkDirector,
 * checkActor). All are pure: they return a tag and never change state.
 */
module MovieChecks {
  import opened JsValues
  import opened PersonChecks

  /** GenreEL.MAX: the genre enumeration has fifteen labels, coded 1..15. */
  const GenreMax := 15

  /** MovieTypeEL codes: labels are numbered from 1. */
  const Biography := 1
  const TvSeriesEpisode := 2

  /**
   * A release-date slot as `new Date(releaseDate)` reads it: nothing, a
   * calendar day, or a string that gives an Invalid Date.
   */
  datatype DateSlot = NoDate | Day(year: int, month: int, day: int) | BadDate

  /** A stored release date: a calendar day or the Invalid Date object. */
  datatype DateVal = ValidDate(year: int, month: int, day: int) | InvalidDate

  /**
   * `new Date(1895, 12, 28)`: month index 12 rolls over, so the bound is
   * 28 January 1896, not the 28 December 1895 the message names.
   */
  const MinYear := 1896
  const MinMonth := 1
  const MinDay := 28

  /** (y, m, d) comes strictly before the lower bound. */
  predicate BeforeMinDate(y: int, m: int, d: int) {
    y < MinYear || (y == MinYear && (m < MinMonth || (m == MinMonth && d < MinDay)))
  }

  /**
   * checkId: Mandatory when falsy, Range when not an integer or integer
   * string; a non-positive id makes the check construct the undefined
   * IntervalConstraintViolation, which raises a ReferenceError.
   */
  function CheckId(movieId: IdSlot): (v: Violation)
    ensures v == NoConstraintViolation <==> IsIntegerOrIntegerString(movieId) && movieId.n > 0
    ensures v == MandatoryValue <==> !Truthy(movieId)
    ensures v == Range <==> Truthy(movieId) && !IsIntegerOrIntegerString(movieId)
    ensures v == ReferenceError <==> movieId == IntString(0) || (IsIntegerOrIntegerString(movieId) && movieId.n < 0)
  {
    if !Truthy(movieId) then MandatoryValue
    else if !IsIntegerOrIntegerString(movieId) then Range
    else if movieId.n <= 0 then ReferenceError
    else NoConstraintViolation
  }

  /** checkMovieIdAsId: checkId, then Uniqueness when the id is already a key of Movie.instances. */
  function CheckMovieIdAsId(movieId: IdSlot, keys: set<int>): (v: Violation)
    ensures v == NoConstraintViolation <==>
              IsIntegerOrIntegerString(movieId) && movieId.n > 0 && movieId.n !in keys
    ensures v == Uniqueness <==>
              IsIntegerOrIntegerString(movieId) && movieId.n > 0 && movieId.n in keys
    ensures CheckId(movieId) != NoConstraintViolation ==> v == CheckId(movieId)
  {
    var v := CheckId(movieId);
    if v != NoConstraintViolation then v
    else if movieId.n in keys then Uniqueness
    else NoConstraintViolation
  }

  /** The titles checkTitle accepts: `title.length` counts UTF-16 code units. */
  predicate ValidTitle(t: string) {
    t != [] && !IsBlank(t) && Utf16Length(t) <= 120
  }

  /** checkTitle: Mandatory when empty; Range for a non-string, a blank title or one over 120 code units. */
  function CheckTitle(title: TextSlot): (v: Violation)
    ensures v == NoConstraintViolation <==> title.Chars? && ValidTitle(title.s)
    ensures v == MandatoryValue <==> !TextTruthy(title)
    ensures v == Range <==> TextTruthy(title) && !(title.Chars? && ValidTitle(title.s))
  {
    if !TextTruthy(title) then MandatoryValue
    else if title.NonString? || IsBlank(title.s) || Utf16Length(title.s) > 120 then Range
    else NoConstraintViolation
  }

  /** The title the concrete scenarios use passes checkTitle. */
  lemma ReelTitleValid()
    ensures CheckTitle(Chars("Reel")) == NoConstraintViolation
  {
    assert !IsJsSpace("Reel"[0]);
    assert Utf16Length("Reel") == 4 by {
      Utf16LengthBounds("Reel");
      assert forall i :: 0 <= i < 4 ==> !IsAstral("Reel"[i]);
    }
  }

  /**
   * Sixty-one musical G clefs (U+1D11E) are 61 characters but 122 UTF-16
   * code units, so checkTitle rejects them with a Range violation.
   */
  lemma AstralTitleRejected()
    ensures var t := seq(61, i => '\U{1D11E}'); |t| <= 120 && CheckTitle(Chars(t)) == Range
  {
    var t := seq(61, i => '\U{1D11E}');
    Utf16LengthBounds(t);
  }

  /**
   * checkReleaseDate: Mandatory when empty, Range for a day before the
   * bound. An unparseable date compares false with the bound and passes.
   */
  function CheckReleaseDate(d: DateSlot): (v: Violation)
    ensures v == MandatoryValue <==> d.NoDate?
    ensures v == Range <==> d.Day? && BeforeMinDate(d.year, d.month, d.day)
    ensures v == NoConstraintViolation <==> d.BadDate? || (d.Day? && !BeforeMinDate(d.year, d.month, d.day))
  {
    match d
    case NoDate => MandatoryValue
    case BadDate => NoConstraintViolation
    case Day(y, m, dd) => if BeforeMinDate(y, m, dd) then Range else NoConstraintViolation
  }

  /** checkMovieRating: optional; a truthy value must be an integer or integer string (tagged Mandatory). */
  function CheckMovieRating(r: IdSlot): (v: Violation)
    ensures v == NoConstraintViolation <==> !Truthy(r) || IsIntegerOrIntegerString(r)
    ensures v != NoConstraintViolation ==> v == MandatoryValue
  {
    if !Truthy(r) then NoConstraintViolation
    else if !IsIntegerOrIntegerString(r) then MandatoryValue
    else NoConstraintViolation
  }

  /** A genre code as checkMovieGenre accepts it: an integer NUMBER within 1..GenreMax. */
  predicate ValidGenre(g: IdSlot) {
    g.IntNumber? && 1 <= g.n <= GenreMax
  }

  /** checkMovieGenre: Mandatory when falsy (0 included), Range for a non-number or a code outside 1..GenreMax. */
  function CheckMovieGenre(g: IdSlot): (v: Violation)
    ensures v == NoConstraintViolation <==> ValidGenre(g)
    ensures v == MandatoryValue <==> !Truthy(g)
    ensures v == Range <==> Truthy(g) && !ValidGenre(g)
  {
    if !Truthy(g) then MandatoryValue
    else if !IsIntegerNumber(g) || g.n < 1 || g.n > GenreMax then Range
    else NoConstraintViolation
  }

  /** A movieGenre slot: an array of genre slots, or some non-array value. */
  datatype GenresSlot = GenreArray(items: seq<IdSlot>) | NotAnArray(value: IdSlot)

  /** The loop of checkMovieGenres: the violation of the first failing element, or success. */
  function FirstGenreViolation(items: seq<IdSlot>): (v: Violation)
    ensures v == NoConstraintViolation <==> forall i :: 0 <= i < |items| ==> ValidGenre(items[i])
    ensures v != NoConstraintViolation ==>
              exists i :: 0 <= i < |items| && v == CheckMovieGenre(items[i]) &&
                          forall j :: 0 <= j < i ==> ValidGenre(items[j])
  {
    if items == [] then NoConstraintViolation
    else
      var v := CheckMovieGenre(items[0]);
      if v != NoConstraintViolation then v
      else
        var rest := FirstGenreViolation(items[1..]);
        assert forall i :: 1 <= i < |items| ==> items[i] == items[1..][i - 1];
        if rest != NoConstraintViolation then
          var i :| 0 <= i < |items[1..]| && rest == CheckMovieGenre(items[1..][i]) &&
                   forall j :: 0 <= j < i ==> ValidGenre(items[1..][j]);
          assert rest == CheckMovieGenre(items[i + 1]);
          rest
        else rest
  }

  /** checkMovieGenres: Mandatory for a missing or empty list, Range for a non-array, else element by element. */
  function CheckMovieGenres(gs: GenresSlot): (v: Violation)
    ensures v == NoConstraintViolation <==>
              gs.GenreArray? && gs.items != [] && forall i :: 0 <= i < |gs.items| ==> ValidGenre(gs.items[i])
    ensures gs.NotAnArray? ==> v == (if Truthy(gs.value) then Range else MandatoryValue)
    ensures gs == GenreArray([]) ==> v == MandatoryValue
  {
    match gs
    case NotAnArray(x) => if !Truthy(x) then MandatoryValue else Range
    case GenreArray(items) => if items == [] then MandatoryValue else FirstGenreViolation(items)
  }

  /**
   * checkDirector and checkActor (identical but for their messages):
   * Mandatory when falsy, otherwise Person.checkPersonAsIdRef.
   */
  function CheckPersonRef(personId: IdSlot, personKeys: set<int>): (v: Violation)
    ensures v == CheckPersonAsIdRef(personId, personKeys)
  {
    if !Truthy(personId) then MandatoryValue
    else CheckPersonAsIdRef(personId, personKeys)
  }

  /**
   * checkMovieType: optional; a truthy type must be an integer or integer
   * string (tagged Mandatory). The source repeats checkMovieRating's test
   * word for word, so the one definition serves both.
   */
  function CheckMovieType(t: IdSlot): (v: Violation)
    ensures v == NoConstraintViolation <==> !Truthy(t) || IsIntegerOrIntegerString(t)
    ensures v != NoConstraintViolation ==> v == MandatoryValue
  {
    CheckMovieRating(t)
  }

  /** parseInt(movieType) === code. */
  predicate TypeIs(movieType: IdSlot, code: int) {
    ParseInt(movieType) == Some(code)
  }

  /**
   * checkTvSeriesName: Mandatory for a TV episode without a name, the
   * generic ConstraintViolation for a name with any other type, Range for
   * a non-string or blank name.
   */
  function CheckTvSeriesName(name: TextSlot, movieType: IdSlot): (v: Violation)
    ensures TypeIs(movieType, TvSeriesEpisode) && !TextTruthy(name) ==> v == MandatoryValue
    ensures !TypeIs(movieType, TvSeriesEpisode) && TextTruthy(name) ==> v == Generic
    ensures v == NoConstraintViolation <==>
              if TypeIs(movieType, TvSeriesEpisode) then name.Chars? && name.s != [] && !IsBlank(name.s)
              else !TextTruthy(name)
  {
    var tv := TypeIs(movieType, TvSeriesEpisode);
    if tv && !TextTruthy(name) then MandatoryValue
    else if !tv && TextTruthy(name) then Generic
    else if TextTruthy(name) && (name.NonString? || IsBlank(name.s)) then Range
    else NoConstraintViolation
  }

  /** parseInt(episodeNo) is a non-zero number. */
  predicate EpisodeGiven(episodeNo: IdSlot) {
    ParseInt(episodeNo).Some? && ParseInt(episodeNo).value != 0
  }

  /**
   * checkEpisodeNo: the first two rules of checkTvSeriesName applied to
   * parseInt(episodeNo); the third rule cannot fire on a number, so any
   * non-zero integer, negative ones included, passes for a TV episode.
   */
  function CheckEpisodeNo(episodeNo: IdSlot, movieType: IdSlot): (v: Violation)
    ensures v == NoConstraintViolation <==>
              (TypeIs(movieType, TvSeriesEpisode) <==> EpisodeGiven(episodeNo))
    ensures TypeIs(movieType, TvSeriesEpisode) && !EpisodeGiven(episodeNo) ==> v == MandatoryValue
    ensures !TypeIs(movieType, TvSeriesEpisode) && EpisodeGiven(episodeNo) ==> v == Generic
  {
    var tv := TypeIs(movieType, TvSeriesEpisode);
    var given := EpisodeGiven(episodeNo);
    if tv && !given then MandatoryValue
    else if !tv && given then Generic
    else NoConstraintViolation
  }

  /**
   * checkAbout: Mandatory for a biography without a person, otherwise
   * checkPersonAsIdRef of the parsed id. The "must be empty if not a
   * biography" branch compares a number with a boolean and never fires.
   */
  function CheckAbout(personId: IdSlot, movieType: IdSlot, personKeys: set<int>): (v: Violation)
    ensures TypeIs(movieType, Biography) && !Truthy(Parsed(personId)) ==> v == MandatoryValue
    ensures v == NoConstraintViolation <==>
              ParseInt(personId).Some? && ParseInt(personId).value >= 1 && ParseInt(personId).value in personKeys
  {
    var pid := Parsed(personId);
    if TypeIs(movieType, Biography) && !Truthy(pid) then MandatoryValue
    else CheckPersonAsIdRef(pid, personKeys)
  }

  /**
   * The movie type plays no part in checkAbout's verdict: the biography
   * branch only repeats what checkPersonAsIdRef says of a missing id, and a
   * person is accepted as the subject of any type of movie.
   */
  lemma AboutIgnoresMovieType(personId: IdSlot, t1: IdSlot, t2: IdSlot, keys: set<int>)
    ensures CheckAbout(personId, t1, keys) == CheckAbout(personId, t2, keys)
  {
  }

  /** A negative episode number passes for a TV series episode. */
  lemma NegativeEpisodeAccepted()
    ensures CheckEpisodeNo(IntString(-3), IntNumber(TvSeriesEpisode)) == NoConstraintViolation
  {
  }

  /**
   * The boundary of checkReleaseDate lies in 1896; 28 December 1895 itself
   * is rejected. Days are compared as calendar days: `new Date(1896, 0, 28)`
   * is local midnight while a "YYYY-MM-DD" string parses as UTC midnight,
   * so on the boundary day itself the outcome depends on the time zone,
   * which the model does not follow.
   */
  lemma ReleaseDateBoundary()
    ensures CheckReleaseDate(Day(1895, 12, 28)) == Range
    ensures CheckReleaseDate(Day(1896, 1, 27)) == Range
    ensures CheckReleaseDate(Day(1896, 1, 28)) == NoConstraintViolation
    ensures CheckReleaseDate(Day(1800, 1, 1)) == Range
    ensures CheckReleaseDate(Day(1994, 5, 12)) == NoConstraintViolation
  {
  }

  /** (y, m, d) comes strictly before 28 December 1895, the bound the message names. */
  predicate BeforeIntendedMinDate(y: int, m: int, d: int) {
    y < 1895 || (y == 1895 && (m < 12 || (m == 12 && d < 28)))
  }

  /** checkReleaseDate with the bound its message names, `new Date(1895, 11, 28)`. */
  function CheckReleaseDateIntended(d: DateSlot): (v: Violation)
    ensures v == MandatoryValue <==> d.NoDate?
    ensures v == Range <==> d.Day? && BeforeIntendedMinDate(d.year, d.month, d.day)
  {
    match d
    case NoDate => MandatoryValue
    case BadDate => NoConstraintViolation
    case Day(y, m, dd) => if BeforeIntendedMinDate(y, m, dd) then Range else NoConstraintViolation
  }

  /**
   * The written check and the intended one disagree exactly on the days
   * from 28 December 1895 to 27 January 1896, which only the intended
   * check accepts; 28 December 1895 is one of them.
   */
  lemma ReleaseDateCorrection(d: DateSlot)
    ensures CheckReleaseDate(d) != CheckReleaseDateIntended(d) <==>
              d.Day? && !BeforeIntendedMinDate(d.year, d.month, d.day) && BeforeMinDate(d.year, d.month, d.day)
    ensures CheckReleaseDate(d) != CheckReleaseDateIntended(d) ==>
              CheckReleaseDateIntended(d) == NoConstraintViolation && CheckReleaseDate(d) == Range
    ensures CheckReleaseDateIntended(Day(1895, 12, 28)) == NoConstraintViolation
  {
  }

  /**
   * checkAbout as its second branch evidently means it
   * (`cat !== MovieTypeEL.BIOGRAPHY && person_id`): a movie of any other
   * type must not name a subject.
   */
  function CheckAboutIntended(personId: IdSlot, movieType: IdSlot, personKeys: set<int>): (v: Violation)
    ensures v == NoConstraintViolation ==> TypeIs(movieType, Biography)
    ensures TypeIs(movieType, Biography) ==> v == CheckAbout(personId, movieType, personKeys)
    ensures !TypeIs(movieType, Biography) && Truthy(Parsed(personId)) ==> v == MandatoryValue
  {
    var pid := Parsed(personId);
    if TypeIs(movieType, Biography) && !Truthy(pid) then MandatoryValue
    else if !TypeIs(movieType, Biography) && Truthy(pid) then MandatoryValue
    else CheckPersonAsIdRef(pid, personKeys)
  }

  /**
   * As written, a TV episode may name a subject: checkAbout accepts person
   * 1 for a movie of type 2, where the intended check rejects it.
   */
  lemma AboutAcceptedForEpisode()
    ensures CheckAbout(IntNumber(1), IntNumber(TvSeriesEpisode), {1}) == NoConstraintViolation
    ensures CheckAboutIntended(IntNumber(1), IntNumber(TvSeriesEpisode), {1}) == MandatoryValue
  {
  }
}

=== FILE: person5.dfy ===
/**
 * Person of assignment 5: construction, Person.add, Person.update,
 * Person.destroy and retrieveAll. Persons carry directedMovies and
 * playedMovies maps that no operation of assignment 5 fills, so destroy's
 * cascade never fires and a destroyed person leaves its movies pointing at
 * nobody.
 */
module Person5Store {
  import opened JsValues
  import opened PersonChecks
  import opened Catalog5

  /** `new Person({personId, name})`: the id setter (the older checkPersonAsId) runs before the name setter. */
  function NewPerson5(sl: PersonInput, personKeys: set<int>): (r: Result<Person5>)
    ensures r.Ok? <==> WellFormedPersonId(sl.personId) && ParseInt(sl.personId).value !in personKeys &&
                       sl.name.Chars? && sl.name.s != []
    ensures CheckPersonAsIdOld(sl.personId, personKeys) != NoConstraintViolation ==>
              r == Err(CheckPersonAsIdOld(sl.personId, personKeys))
    ensures CheckPersonAsIdOld(sl.personId, personKeys) == NoConstraintViolation && r.Err? ==>
              r.error == CheckName(sl.name)
    ensures r.Ok? ==> r.value == Person5(ParseInt(sl.personId).value, sl.name.s, {}, {}) && r.value.personId >= 1
  {
    var idv := CheckPersonAsIdOld(sl.personId, personKeys);
    if idv != NoConstraintViolation then Err(idv)
    else if CheckName(sl.name) != NoConstraintViolation then Err(CheckName(sl.name))
    else Ok(Person5(ParseInt(sl.personId).value, sl.name.s, {}, {}))
  }

  /** Person.add: a constructed person is bound under its id; a failure is logged and changes nothing. */
  function Person5Add(s: Store5, sl: PersonInput): (r: Store5)
    ensures r.movies == s.movies
    ensures NewPerson5(sl, s.persons.Keys).Err? ==> r == s
    ensures NewPerson5(sl, s.persons.Keys).Ok? ==>
              var p := NewPerson5(sl, s.persons.Keys).value;
              p.personId !in s.persons && r.persons == s.persons[p.personId := p]
  {
    match NewPerson5(sl, s.persons.Keys)
    case Err(_) => s
    case Ok(p) => s.(persons := s.persons[p.personId := p])
  }

  /** Person.add only adds a person, so references that resolved still resolve and no inverse map is filled. */
  lemma Person5AddKeepsResolved(s: Store5, sl: PersonInput)
    requires Resolved5(s) && NoInverse5(s)
    ensures Resolved5(Person5Add(s, sl)) && NoInverse5(Person5Add(s, sl))
  {
  }

  /**
   * Person.update({personId, name}). An unknown id makes
   * cloneObject(undefined) throw a TypeError. The name is assigned only
   * when truthy and different; a non-string name fails its check, which is
   * caught, logged, and the person rebound to its unchanged clone.
   */
  function Person5Update(s: Store5, personId: IdSlot, name: TextSlot): (r: Exec<Store5>)
    ensures r.state.movies == s.movies
    ensures r.Threw? ==> r.state == s
    ensures StoreKey(personId).None? || StoreKey(personId).value !in s.persons ==> r == Threw(s, TypeError)
    ensures r.Done? <==> StoreKey(personId).Some? && StoreKey(personId).value in s.persons && name != NonString(true)
    ensures r.Threw? && r.error != TypeError ==> r.error == Range && name == NonString(true)
    ensures r.Done? ==>
              var k := StoreKey(personId).value;
              && r.state.persons.Keys == s.persons.Keys
              && (forall q :: q in s.persons && q != k ==> r.state.persons[q] == s.persons[q])
              && r.state.persons[k] == s.persons[k].(name := r.state.persons[k].name)
              && (name.Chars? && name.s != [] ==> r.state.persons[k].name == name.s)
              && (!TextTruthy(name) ==> r.state == s)
  {
    match StoreKey(personId)
    case None => Threw(s, TypeError)
    case Some(k) =>
      if k !in s.persons then Threw(s, TypeError)
      else
        var p := s.persons[k];
        if !(TextTruthy(name) && name != Chars(p.name)) then Done(s)
        else if CheckName(name) != NoConstraintViolation then Threw(s, CheckName(name))
        else Done(s.(persons := s.persons[k := p.(name := name.s)]))
  }

  /** Person.update renames at most; references that resolved still resolve. */
  lemma Person5UpdateKeepsResolved(s: Store5, personId: IdSlot, name: TextSlot)
    requires Resolved5(s) && NoInverse5(s)
    ensures Resolved5(Person5Update(s, personId, name).state) && NoInverse5(Person5Update(s, personId, name).state)
  {
  }

  /**
   * First loop of Person.destroy: each movie object in playedMovies loses
   * the person as an actor. Only a movie still stored under that id is
   * visible in Movie.instances.
   */
  function DropPlayed5(movies: map<int, Movie5>, played: set<int>, k: int): (r: map<int, Movie5>)
    ensures r.Keys == movies.Keys
    ensures forall mid :: mid in movies ==>
              r[mid] == (if mid in played then movies[mid].(actors := movies[mid].actors - {k}) else movies[mid])
  {
    map mid | mid in movies :: if mid in played then movies[mid].(actors := movies[mid].actors - {k}) else movies[mid]
  }

  /**
   * Person.destroy of assignment 5. An unknown id throws a TypeError on
   * `person.playedMovies` before anything changes. Otherwise the played
   * movies lose the actor, the directed movies are deleted, and the person
   * goes; movies are otherwise left alone (the scan over all movies is
   * commented out).
   */
  function Person5Destroy(s: Store5, personId: IdSlot): (r: Exec<Store5>)
    ensures StoreKey(personId).None? || StoreKey(personId).value !in s.persons ==> r == Threw(s, TypeError)
    ensures r.Done? ==>
              var k := StoreKey(personId).value;
              var p := s.persons[k];
              && r.state.persons == s.persons - {k}
              && r.state.movies.Keys == s.movies.Keys - p.directed
              && forall mid :: mid in r.state.movies ==>
                   r.state.movies[mid].actors == (if mid in p.played then s.movies[mid].actors - {k} else s.movies[mid].actors)
                   && r.state.movies[mid] == s.movies[mid].(actors := r.state.movies[mid].actors)
  {
    match StoreKey(personId)
    case None => Threw(s, TypeError)
    case Some(k) =>
      if k !in s.persons then Threw(s, TypeError)
      else
        var p := s.persons[k];
        var movies := DropPlayed5(s.movies, p.played, k) - p.directed;
        Done(Store5(movies, s.persons - {k}))
  }

  /**
   * Since nothing fills the inverse maps, Person.destroy of a director or
   * actor removes only the person: every movie stays as it was, and one
   * that named the person now refers to nobody.
   */
  lemma Person5DestroyDangles(s: Store5, personId: IdSlot, mid: int)
    requires NoInverse5(s)
    requires StoreKey(personId).Some? && StoreKey(personId).value in s.persons
    requires mid in s.movies && (s.movies[mid].director == StoreKey(personId) || StoreKey(personId).value in s.movies[mid].actors)
    ensures var r := Person5Destroy(s, personId);
            && r.Done?
            && r.state.movies == s.movies
            && !Resolved5(r.state)
  {
    var r := Person5Destroy(s, personId);
    var k := StoreKey(personId).value;
    assert r.state.movies == s.movies;
    assert k !in r.state.persons;
    assert mid in r.state.movies;
  }

  /**
   * Person.destroy keeps every reference resolvable exactly when no movie
   * names the person (under empty inverse maps).
   */
  lemma Person5DestroyResolvedIff(s: Store5, personId: IdSlot)
    requires NoInverse5(s) && Resolved5(s)
    requires StoreKey(personId).Some? && StoreKey(personId).value in s.persons
    ensures var k := StoreKey(personId).value;
            Resolved5(Person5Destroy(s, personId).state) <==>
              forall mid :: mid in s.movies ==> s.movies[mid].director != Some(k) && k !in s.movies[mid].actors
  {
    var r := Person5Destroy(s, personId);
    var k := StoreKey(personId).value;
    assert r.state.movies == s.movies;
    if !Resolved5(r.state) {
      var mid :| mid in r.state.movies &&
                 !((r.state.movies[mid].director.Some? ==> r.state.movies[mid].director.value in r.state.persons)
                   && forall a :: a in r.state.movies[mid].actors ==> a in r.state.persons);
      assert s.movies[mid].director == Some(k) || k in s.movies[mid].actors;
    }
  }

  /**
   * Person.retrieveAll of assignment 5: each saved record that constructs
   * (uniqueness against the people loaded so far) is bound under its id;
   * a failing one is caught, logged and skipped.
   */
  function LoadPeople5(s: Store5, recs: seq<PersonInput>): (r: Store5)
    ensures r.movies == s.movies
    ensures s.persons.Keys <= r.persons.Keys
    ensures forall q :: q in s.persons ==> r.persons[q] == s.persons[q]
    ensures forall q :: q in r.persons && q !in s.persons ==> r.persons[q].directed == {} && r.persons[q].played == {}
    decreases |recs|
  {
    if recs == [] then s else LoadPeople5(Person5Add(s, recs[0]), recs[1..])
  }

  /** toJSON as retrieveAll reads it back: the id and the name (the inverse maps are ignored). */
  function Person5Json(p: Person5): (rec: PersonInput)
    ensures StoreKey(rec.personId) == Some(p.personId) && rec.name == Chars(p.name)
  {
    PersonInput(IntNumber(p.personId), Chars(p.name))
  }

  /** A saved person is a stored one: a positive id and a non-empty name. */
  predicate Savable5(p: Person5) {
    p.personId >= 1 && p.name != []
  }

  /**
   * Saving people and loading them into an empty store gives back every
   * saved person (with empty inverse maps), provided their ids are
   * distinct.
   */
  lemma {:induction false} People5RoundTrip(s: Store5, ps: seq<Person5>)
    requires forall i :: 0 <= i < |ps| ==> Savable5(ps[i]) && ps[i].personId !in s.persons
    requires forall i, j :: 0 <= i < j < |ps| ==> ps[i].personId != ps[j].personId
    ensures var r := LoadPeople5(s, seq(|ps|, i requires 0 <= i < |ps| => Person5Json(ps[i])));
            forall i :: 0 <= i < |ps| ==> ps[i].personId in r.persons && r.persons[ps[i].personId] == ps[i].(directed := {}, played := {})
    decreases |ps|
  {
    var recs := seq(|ps|, i requires 0 <= i < |ps| => Person5Json(ps[i]));
    if ps != [] {
      var p := ps[0];
      assert CheckName(Chars(p.name)) == NoConstraintViolation;
      var s1 := Person5Add(s, recs[0]);
      assert s1.persons == s.persons[p.personId := p.(directed := {}, played := {})];
      var tail := seq(|ps| - 1, i requires 0 <= i < |ps| - 1 => Person5Json(ps[1..][i]));
      assert recs[1..] == tail;
      People5RoundTrip(s1, ps[1..]);
    }
  }
}

=== FILE: person6.dfy ===
/**
 * Person of assignment 6: the constructor checks, Person.add,
 * Person.update and the cascading Person.destroy, on the stores of
 * Catalog6.
 *
 * Person.subtypes is taken to hold Actor and Director, in that order (the
 * order the views import them).
 */
module Person6 {
  import opened JsValues
  import opened PersonChecks
  import opened Catalog6

  /** The record a Person, Actor or Director constructor receives. */
  datatype PersonSlots = PersonSlots(personId: IdSlot, name: TextSlot, agent: TextSlot)

  /**
   * `new Person(slots)` (and the Person part of `new Actor` / `new
   * Director`) against the keys of Person.instances: the id setter runs
   * checkPersonAsId, the name setter checkName, and the inverse maps start
   * empty. Only an Actor stores its agent, unchecked.
   */
  function NewPersonRec(sl: PersonSlots, kind: Kind, personKeys: set<int>): (r: Result<PersonRec>)
    ensures r.Ok? <==> CheckPersonAsId(sl.personId, personKeys) == NoConstraintViolation && sl.name.Chars? && sl.name.s != []
    ensures r.Err? && CheckPersonAsId(sl.personId, personKeys) != NoConstraintViolation ==>
              r.error == CheckPersonAsId(sl.personId, personKeys)
    ensures r.Err? && CheckPersonAsId(sl.personId, personKeys) == NoConstraintViolation ==>
              r.error == CheckName(sl.name) && r.error != NoConstraintViolation
    ensures r.Ok? ==>
              && ParseInt(sl.personId) == Some(r.value.personId)
              && r.value.personId >= 1 && r.value.personId !in personKeys
              && sl.name == Chars(r.value.name) && r.value.kind == kind
              && r.value.agent == (if kind == ActorKind then sl.agent else NonString(false))
              && r.value.directed == {} && r.value.played == {} && r.value.about == {}
  {
    var idCheck := CheckPersonAsId(sl.personId, personKeys);
    if idCheck != NoConstraintViolation then Err(idCheck)
    else if CheckName(sl.name) != NoConstraintViolation then Err(CheckName(sl.name))
    else
      var agent := if kind == ActorKind then sl.agent else NonString(false);
      Ok(PersonRec(ParseInt(sl.personId).value, sl.name.s, kind, agent, {}, {}, {}))
  }

  /**
   * Person.add: a constructed person is bound under its id; a failing
   * constructor is logged and nothing changes.
   */
  function PersonAdd(s: Store, sl: PersonSlots): (r: Store)
    ensures r.movies == s.movies && r.actors == s.actors && r.directors == s.directors
    ensures NewPersonRec(sl, PlainPerson, s.persons.Keys).Err? ==> r == s
    ensures NewPersonRec(sl, PlainPerson, s.persons.Keys).Ok? ==>
              var p := NewPersonRec(sl, PlainPerson, s.persons.Keys).value;
              && r.persons.Keys == s.persons.Keys + {p.personId}
              && p.personId !in s.persons
              && r.persons[p.personId] == p
    ensures forall q :: q in s.persons ==> q in r.persons && r.persons[q] == s.persons[q]
  {
    match NewPersonRec(sl, PlainPerson, s.persons.Keys)
    case Err(_) => s
    case Ok(p) => s.(persons := s.persons[p.personId := p])
  }

  /**
   * Adding a person keeps the store consistent: the newcomer has empty
   * inverse maps and, since every movie reference resolved before, no
   * movie refers to its fresh id.
   */
  lemma PersonAddKeepsConsistent(s: Store, sl: PersonSlots)
    requires Consistent(s)
    ensures Consistent(PersonAdd(s, sl))
  {
    var r := PersonAdd(s, sl);
    if r != s {
      var p := NewPersonRec(sl, PlainPerson, s.persons.Keys).value;
      forall mid | mid in r.movies
        ensures Mirrors(r.persons, mid, r.movies[mid])
      {
        var m := s.movies[mid];
        assert Mirrors(s.persons, mid, m);
        forall q, role | q in r.persons
          ensures mid in RoleSet(r.persons[q], role) <==> Plays(m, role, q)
        {
          if q == p.personId {
            assert !Plays(m, role, q);
          }
        }
      }
    }
  }

  /**
   * The objects the subtype stores hold after Person.instances[k] has been
   * replaced by a clone: an entry that aliased the old object no longer
   * aliases Person.instances[k], so it keeps the old value as its own.
   */
  function DetachAt(sub: map<int, SubEntry>, k: int, prior: PersonRec): (r: map<int, SubEntry>)
    ensures r.Keys == sub.Keys
    ensures forall q :: q in sub && q != k ==> r[q] == sub[q]
    ensures k in sub ==> r[k] == (if sub[k].Alias? then Detached(prior) else sub[k])
  {
    if k in sub && sub[k].Alias? then sub[k := Detached(prior)] else sub
  }

  /**
   * Person.update({personId, name}). An id that does not name a person
   * makes cloneObject(undefined) throw a TypeError before anything
   * changes. The name is assigned only when truthy and different; when its
   * check fails, Person.instances[personId] is rebound to a clone of the
   * old person, which the subtype stores do not alias.
   */
  function PersonUpdate(s: Store, personId: IdSlot, name: TextSlot): (r: Exec<Store>)
    ensures r.state.movies == s.movies
    ensures StoreKey(personId).None? || StoreKey(personId).value !in s.persons ==> r == Threw(s, TypeError)
    ensures r.Done? <==> StoreKey(personId).Some? && StoreKey(personId).value in s.persons && name != NonString(true)
    ensures r.Done? ==>
              var k := StoreKey(personId).value;
              && r.state.actors == s.actors && r.state.directors == s.directors
              && r.state.persons.Keys == s.persons.Keys
              && (forall q :: q in s.persons && q != k ==> r.state.persons[q] == s.persons[q])
              && r.state.persons[k] == s.persons[k].(name := r.state.persons[k].name)
              && (name.Chars? && name.s != [] ==> r.state.persons[k].name == name.s)
              && (!TextTruthy(name) ==> r.state == s)
    ensures r.Threw? && r.error != TypeError ==>
              var k := StoreKey(personId).value;
              && r.error == Range && name == NonString(true)
              && r.state.persons == s.persons
              && r.state.actors == DetachAt(s.actors, k, s.persons[k])
              && r.state.directors == DetachAt(s.directors, k, s.persons[k])
  {
    match StoreKey(personId)
    case None => Threw(s, TypeError)
    case Some(k) =>
      if k !in s.persons then Threw(s, TypeError)
      else
        var p := s.persons[k];
        if !(TextTruthy(name) && name != Chars(p.name)) then Done(s)
        else if CheckName(name) != NoConstraintViolation then
          Threw(s.(actors := DetachAt(s.actors, k, p), directors := DetachAt(s.directors, k, p)), CheckName(name))
        else Done(s.(persons := s.persons[k := p.(name := name.s)]))
  }

  /**
   * Person.update never touches a reference or an inverse map, so it keeps
   * a consistent store consistent whether it succeeds or fails.
   */
  lemma PersonUpdateKeepsConsistent(s: Store, personId: IdSlot, name: TextSlot)
    requires Consistent(s)
    ensures Consistent(PersonUpdate(s, personId, name).state)
  {
    var r := PersonUpdate(s, personId, name).state;
    assert r.persons.Keys == s.persons.Keys;
    forall q, role | q in s.persons
      ensures RoleSet(r.persons[q], role) == RoleSet(s.persons[q], role)
    {
    }
  }

  /** Repeating a successful update changes nothing further. */
  lemma PersonUpdateIdempotent(s: Store, personId: IdSlot, name: TextSlot)
    requires PersonUpdate(s, personId, name).Done?
    ensures PersonUpdate(PersonUpdate(s, personId, name).state, personId, name)
              == PersonUpdate(s, personId, name)
  {
  }

  /**
   * Step 1 of Person.destroy: every movie in the person's playedMovies that
   * still lists the person as an actor loses that actor. Assignment 5's
   * Person5Store.DropPlayed5 does the same to its own movie records; the
   * two iterations share no movie type, so each keeps its own.
   */
  function DropPlayed(movies: map<int, MovieRec>, played: set<int>, k: int): (r: map<int, MovieRec>)
    ensures r.Keys == movies.Keys
    ensures forall mid :: mid in movies ==>
              r[mid] == (if mid in played then movies[mid].(actors := movies[mid].actors - {k}) else movies[mid])
  {
    map mid | mid in movies :: if mid in played then movies[mid].(actors := movies[mid].actors - {k}) else movies[mid]
  }

  /**
   * What stops the scan over the remaining movies at movie `m`: a movie
   * without a director (reading `movie.director.personId` throws a
   * TypeError), or, when the id was passed as a string (only then do
   * `includes` and `===` match), a movie that still lists the person as
   * actor or director (the branch then names Actor or Director, which the
   * module never imports: a ReferenceError).
   */
  predicate Offends(m: MovieRec, k: int, byString: bool) {
    || (byString && k in m.actors)
    || m.director.None?
    || (byString && m.director == Some(k) && m.movieId != 0)
  }

  /**
   * Step 3 of Person.destroy: the loop over `Object.keys(Movie.instances)`,
   * in ascending key order, over the keys still `pending`. It stops at the
   * first offending movie, after the partial edit that movie's branch
   * makes.
   */
  function ScanMovies(movies: map<int, MovieRec>, pending: set<int>, k: int, byString: bool): (r: Exec<map<int, MovieRec>>)
    ensures r.Done? <==> forall key :: key in pending ==> key in movies && !Offends(movies[key], k, byString)
    ensures r.Done? ==> r.state == movies
    ensures r.Threw? ==> r.error == TypeError || (byString && r.error == ReferenceError)
    ensures r.state.Keys <= movies.Keys
    ensures forall mid :: mid in r.state ==>
              r.state[mid] == movies[mid].(actors := r.state[mid].actors) && r.state[mid].actors <= movies[mid].actors
    decreases pending
  {
    if pending == {} then Done(movies)
    else
      var key := SetMin(pending);
      if key !in movies then Threw(movies, TypeError)
      else
        var m := movies[key];
        if byString && k in m.actors then
          if m.movieId in movies then
            var target := movies[m.movieId];
            Threw(movies[m.movieId := target.(actors := target.actors - {k})], ReferenceError)
          else Threw(movies, TypeError)
        else if m.director.None? then Threw(movies, TypeError)
        else if byString && m.director == Some(k) && m.movieId != 0 then
          Threw(movies - {m.movieId}, ReferenceError)
        else ScanMovies(movies, pending - {key}, k, byString)
  }

  /**
   * Person.destroy(personId): drop the person from the actors of the
   * movies in playedMovies, delete every movie id in directedMovies and
   * aboutMovies from Movie.instances, scan the remaining movies (see
   * ScanMovies), and only then delete the person from Person.instances and
   * from both subtype stores. An id that names no person throws a
   * TypeError at once.
   */
  function PersonDestroy(s: Store, personId: IdSlot): (r: Exec<Store>)
    ensures StoreKey(personId).None? || StoreKey(personId).value !in s.persons ==> r == Threw(s, TypeError)
    ensures r.Threw? ==> r.state.persons == s.persons && r.state.actors == s.actors && r.state.directors == s.directors
    ensures r.Done? ==>
              var k := StoreKey(personId).value;
              var p := s.persons[k];
              && k in s.persons
              && r.state.persons == s.persons - {k}
              && r.state.actors == s.actors - {k}
              && r.state.directors == s.directors - {k}
              && r.state.movies.Keys == s.movies.Keys - p.directed - p.about
              && forall mid :: mid in r.state.movies ==>
                   r.state.movies[mid] ==
                     (if mid in p.played then s.movies[mid].(actors := s.movies[mid].actors - {k}) else s.movies[mid])
  {
    match StoreKey(personId)
    case None => Threw(s, TypeError)
    case Some(k) =>
      if k !in s.persons then Threw(s, TypeError)
      else
        var p := s.persons[k];
        var remaining := DropPlayed(s.movies, p.played, k) - p.directed - p.about;
        match ScanMovies(remaining, remaining.Keys, k, personId.IntString?)
        case Threw(ms, e) => Threw(s.(movies := ms), e)
        case Done(ms) => Done(Store(ms, s.persons - {k}, s.actors - {k}, s.directors - {k}))
  }

  /**
   * On a consistent store Person.destroy deletes exactly the movies the
   * person directs or is the subject of, removes the person from the cast
   * of every other movie, and fails only when some other movie has no
   * director.
   */
  lemma PersonDestroyCascade(s: Store, k: int, personId: IdSlot)
    requires Consistent(s)
    requires StoreKey(personId) == Some(k) && k in s.persons
    ensures PersonDestroy(s, personId).Done? <==>
              forall mid :: mid in s.movies && s.movies[mid].director != Some(k) && s.movies[mid].about != Some(k) ==>
                s.movies[mid].director.Some?
    ensures PersonDestroy(s, personId).Done? ==>
              var ms := PersonDestroy(s, personId).state.movies;
              && (forall mid :: mid in ms <==>
                    mid in s.movies && s.movies[mid].director != Some(k) && s.movies[mid].about != Some(k))
              && forall mid :: mid in ms ==> k !in ms[mid].actors
  {
    var p := s.persons[k];
    var byString := personId.IntString?;
    var remaining := DropPlayed(s.movies, p.played, k) - p.directed - p.about;
    forall mid | mid in s.movies
      ensures mid in p.directed <==> s.movies[mid].director == Some(k)
      ensures mid in p.about <==> s.movies[mid].about == Some(k)
      ensures mid in p.played <==> k in s.movies[mid].actors
    {
      assert Mirrors(s.persons, mid, s.movies[mid]);
      assert mid in RoleSet(p, Directing) <==> Plays(s.movies[mid], Directing, k);
      assert mid in RoleSet(p, Subject) <==> Plays(s.movies[mid], Subject, k);
      assert mid in RoleSet(p, Playing) <==> Plays(s.movies[mid], Playing, k);
    }
    forall mid | mid in remaining
      ensures k !in remaining[mid].actors && remaining[mid].director != Some(k)
      ensures Offends(remaining[mid], k, byString) <==> s.movies[mid].director.None?
    {
    }
    forall mid | mid in s.movies && mid !in p.directed && mid !in p.about
      ensures mid in remaining
    {
    }
  }

  /**
   * On a consistent store every movie that survives Person.destroy is
   * still mirrored by the remaining persons.
   */
  lemma PersonDestroyKeepsMirrored(s: Store, personId: IdSlot)
    requires Consistent(s)
    requires PersonDestroy(s, personId).Done?
    ensures AllMirrored(PersonDestroy(s, personId).state)
  {
    var k := StoreKey(personId).value;
    var r := PersonDestroy(s, personId).state;
    PersonDestroyCascade(s, k, personId);
    forall mid | mid in r.movies
      ensures Mirrors(r.persons, mid, r.movies[mid])
    {
      var m := s.movies[mid];
      assert Mirrors(s.persons, mid, m);
      assert r.movies[mid] == m.(actors := m.actors - {k});
      forall q, role | q in r.persons
        ensures mid in RoleSet(r.persons[q], role) <==> Plays(r.movies[mid], role, q)
      {
        assert Plays(r.movies[mid], role, q) <==> Plays(m, role, q);
      }
    }
  }

  /**
   * Person.destroy deletes the movies the person directed but not the
   * other cast members' playedMovies entries for them: a consistent store
   * is left with stale inverse entries.
   */
  lemma PersonDestroyLeavesStale(s: Store, personId: IdSlot, mid: int, q: int)
    requires Consistent(s)
    requires PersonDestroy(s, personId).Done?
    requires mid in s.movies && s.movies[mid].director == StoreKey(personId)
    requires q in s.movies[mid].actors && Some(q) != StoreKey(personId)
    ensures !NoStale(PersonDestroy(s, personId).state)
  {
    var r := PersonDestroy(s, personId).state;
    var k := StoreKey(personId).value;
    assert Mirrors(s.persons, mid, s.movies[mid]);
    assert mid in RoleSet(s.persons[k], Directing);
    assert Plays(s.movies[mid], Playing, q);
    assert mid in RoleSet(s.persons[q], Playing);
    assert q in r.persons && mid !in r.movies;
  }

  /**
   * Person.destroy deletes whatever movie is bound under an id in the
   * person's directedMovies, even one another person directs.
   */
  lemma PersonDestroyTrustsInverseMap(s: Store, personId: IdSlot, mid: int)
    requires StoreKey(personId).Some? && StoreKey(personId).value in s.persons
    requires mid in s.persons[StoreKey(personId).value].directed
    requires PersonDestroy(s, personId).Done?
    ensures mid !in PersonDestroy(s, personId).state.movies
  {
  }
}

=== FILE: person_checks.dfy ===
/**
 * The Person validators. checkPersonId, checkPersonAsIdRef and checkName
 * read the same in all three iterations of the catalogue; checkPersonAsId
 * was reordered in assignment 6 (parse first, and a choice of store).
 */
module PersonChecks {
  import opened JsValues

  /** The ids checkPersonId accepts: truthy, and parseInt reads them as a positive integer. */
  predicate WellFormedPersonId(id: IdSlot) {
    Truthy(id) && ParseInt(id).Some? && ParseInt(id).value >= 1
  }

  /** checkPersonId: Mandatory for an empty or zero id, Range when parseInt gives NaN or a value below 1. */
  function CheckPersonId(id: IdSlot): (v: Violation)
    ensures v == NoConstraintViolation <==> WellFormedPersonId(id)
    ensures v == MandatoryValue <==> !Truthy(id)
    ensures v == Range <==> Truthy(id) && !WellFormedPersonId(id)
  {
    if !Truthy(id) then MandatoryValue
    else
      match ParseInt(id)
      case None => Range
      case Some(n) => if n < 1 then Range else NoConstraintViolation
  }

  /**
   * checkPersonAsId of assignment 6: parse first (NaN is Mandatory), then
   * checkPersonId on the parsed number (so 0 is Mandatory, a negative id
   * Range), then Uniqueness against the keys of the chosen store.
   */
  function CheckPersonAsId(id: IdSlot, keys: set<int>): (v: Violation)
    ensures v == NoConstraintViolation <==>
              ParseInt(id).Some? && ParseInt(id).value >= 1 && ParseInt(id).value !in keys
    ensures v == MandatoryValue <==> ParseInt(id) == None || ParseInt(id) == Some(0)
    ensures v == Range <==> ParseInt(id).Some? && ParseInt(id).value < 0
    ensures v == Uniqueness <==> ParseInt(id).Some? && ParseInt(id).value >= 1 && ParseInt(id).value in keys
  {
    match ParseInt(id)
    case None => MandatoryValue
    case Some(n) =>
      var v := CheckPersonId(IntNumber(n));
      if v != NoConstraintViolation then v
      else if n in keys then Uniqueness
      else NoConstraintViolation
  }

  /**
   * checkPersonAsId of assignment 5 and of the first iteration:
   * checkPersonId on the raw slot first, then Uniqueness of the parsed id.
   */
  function CheckPersonAsIdOld(id: IdSlot, keys: set<int>): (v: Violation)
    ensures v == NoConstraintViolation <==> WellFormedPersonId(id) && ParseInt(id).value !in keys
    ensures v == Uniqueness <==> WellFormedPersonId(id) && ParseInt(id).value in keys
    ensures !WellFormedPersonId(id) ==> v == CheckPersonId(id)
  {
    var v := CheckPersonId(id);
    if v != NoConstraintViolation then v
    else
      match ParseInt(id)
      case None => MandatoryValue
      case Some(n) => if n in keys then Uniqueness else NoConstraintViolation
  }

  /**
   * checkPersonAsIdRef: checkPersonId's violation for a malformed id,
   * ReferentialIntegrity when `String(id)` is not a key of Person.instances.
   */
  function CheckPersonAsIdRef(id: IdSlot, keys: set<int>): (v: Violation)
    ensures v == NoConstraintViolation <==>
              WellFormedPersonId(id) && StoreKey(id).Some? && StoreKey(id).value in keys
    ensures !WellFormedPersonId(id) ==> v == CheckPersonId(id)
    ensures v == ReferentialIntegrity <==>
              WellFormedPersonId(id) && (StoreKey(id) == None || StoreKey(id).value !in keys)
  {
    var v := CheckPersonId(id);
    if v == NoConstraintViolation && Truthy(id) then
      match StoreKey(id)
      case Some(k) => if k in keys then v else ReferentialIntegrity
      case None => ReferentialIntegrity
    else v
  }

  /** checkName: Mandatory for an empty name, Range for a non-string. */
  function CheckName(name: TextSlot): (v: Violation)
    ensures v == NoConstraintViolation <==> name.Chars? && name.s != []
    ensures v == MandatoryValue <==> !TextTruthy(name)
    ensures v == Range <==> name.NonString? && name.truthy
  {
    if !TextTruthy(name) then MandatoryValue
    else if name.NonString? then Range
    else NoConstraintViolation
  }

  /**
   * For an integer or integer-string id, the creation check and the
   * reference check of assignment 6 are complementary on the same store:
   * a positive id is either fresh (accepted by checkPersonAsId) or
   * resolvable (accepted by checkPersonAsIdRef), never both.
   */
  lemma IdAndIdRefComplementary(id: IdSlot, keys: set<int>)
    requires IsIntegerOrIntegerString(id) && id.n >= 1
    ensures (CheckPersonAsId(id, keys) == NoConstraintViolation) !=
            (CheckPersonAsIdRef(id, keys) == NoConstraintViolation)
  {
  }

  /**
   * The two orderings of checkPersonAsId agree on integer and
   * integer-string ids; they differ only on junk (an unparseable string is
   * Mandatory in assignment 6 but Range before).
   */
  lemma AsIdVersionsAgreeOnIntegers(id: IdSlot, keys: set<int>)
    requires IsIntegerOrIntegerString(id) && id != IntString(0)
    ensures CheckPersonAsId(id, keys) == CheckPersonAsIdOld(id, keys)
  {
  }

  lemma AsIdVersionsDifferOnJunk(keys: set<int>)
    ensures CheckPersonAsId(Unparseable, keys) == MandatoryValue
    ensures CheckPersonAsIdOld(Unparseable, keys) == Range
  {
  }
}

=== FILE: person_src.dfy ===
/**
 * Person of the top-level catalogue (docs/src): a person is an id and a
 * name, with no inverse maps. Person.destroy finds the movies to delete by
 * scanning Movie.instances, comparing ids as strings, and retrieveAll has
 * no try/catch. Movies are seen only through the three properties destroy
 * reads; the Movie class of this iteration is not part of this model.
 */
module PersonSrc {
  import opened JsValues
  import opened PersonChecks
  import opened Catalog5

  datatype PersonSrcRec = PersonSrcRec(personId: int, name: string)

  /** What Person.destroy reads of a movie: its movieId, its director's personId (None when it has none), its actor keys. */
  datatype MovieView = MovieView(movieId: int, director: Option<int>, actors: set<int>)

  datatype StoreSrc = StoreSrc(movies: map<int, MovieView>, persons: map<int, PersonSrcRec>)

  /** Movie.instances binds every movie under its own movieId. */
  ghost predicate KeyedSrc(movies: map<int, MovieView>) {
    forall mid :: mid in movies ==> movies[mid].movieId == mid
  }

  /** `new Person({personId, name})`: the id setter runs before the name setter. */
  function NewPersonSrc(sl: PersonInput, personKeys: set<int>): (r: Result<PersonSrcRec>)
    ensures r.Ok? <==> WellFormedPersonId(sl.personId) && ParseInt(sl.personId).value !in personKeys &&
                       sl.name.Chars? && sl.name.s != []
    ensures CheckPersonAsIdOld(sl.personId, personKeys) != NoConstraintViolation ==>
              r == Err(CheckPersonAsIdOld(sl.personId, personKeys))
    ensures CheckPersonAsIdOld(sl.personId, personKeys) == NoConstraintViolation && r.Err? ==>
              r.error == CheckName(sl.name)
    ensures r.Ok? ==> r.value == PersonSrcRec(ParseInt(sl.personId).value, sl.name.s) && r.value.personId >= 1
  {
    var idv := CheckPersonAsIdOld(sl.personId, personKeys);
    if idv != NoConstraintViolation then Err(idv)
    else if CheckName(sl.name) != NoConstraintViolation then Err(CheckName(sl.name))
    else Ok(PersonSrcRec(ParseInt(sl.personId).value, sl.name.s))
  }

  /** Person.add: a constructed person is bound under its id; a failure is logged and changes nothing. */
  function PersonSrcAdd(s: StoreSrc, sl: PersonInput): (r: StoreSrc)
    ensures r.movies == s.movies
    ensures NewPersonSrc(sl, s.persons.Keys).Err? ==> r == s
    ensures NewPersonSrc(sl, s.persons.Keys).Ok? ==>
              var p := NewPersonSrc(sl, s.persons.Keys).value;
              p.personId !in s.persons && r.persons == s.persons[p.personId := p]
  {
    match NewPersonSrc(sl, s.persons.Keys)
    case Err(_) => s
    case Ok(p) => s.(persons := s.persons[p.personId := p])
  }

  /**
   * Person.update({personId, name}): an unknown id throws a TypeError from
   * cloneObject(undefined); a truthy, different name is assigned when it is
   * a string, and otherwise the violation is caught and logged with the
   * person as before.
   */
  function PersonSrcUpdate(s: StoreSrc, personId: IdSlot, name: TextSlot): (r: Exec<StoreSrc>)
    ensures r.state.movies == s.movies
    ensures r.Threw? ==> r.state == s
    ensures StoreKey(personId).None? || StoreKey(personId).value !in s.persons ==> r == Threw(s, TypeError)
    ensures r.Done? <==> StoreKey(personId).Some? && StoreKey(personId).value in s.persons && name != NonString(true)
    ensures r.Threw? && r.error != TypeError ==> r.error == Range
    ensures r.Done? ==>
              var k := StoreKey(personId).value;
              && r.state.persons.Keys == s.persons.Keys
              && (forall q :: q in s.persons && q != k ==> r.state.persons[q] == s.persons[q])
              && r.state.persons[k].personId == s.persons[k].personId
              && r.state.persons[k].name == (if name.Chars? && name.s != [] then name.s else s.persons[k].name)
  {
    match StoreKey(personId)
    case None => Threw(s, TypeError)
    case Some(k) =>
      if k !in s.persons then Threw(s, TypeError)
      else
        var p := s.persons[k];
        if !(TextTruthy(name) && name != Chars(p.name)) then Done(s)
        else if CheckName(name) != NoConstraintViolation then Threw(s, CheckName(name))
        else Done(s.(persons := s.persons[k := p.(name := name.s)]))
  }

  /** Person.instances binds every person under its own personId, with a non-empty name. */
  ghost predicate PeopleKeyedSrc(persons: map<int, PersonSrcRec>) {
    forall k :: k in persons ==> persons[k].personId == k && persons[k].name != []
  }

  /**
   * Person.add keeps Person.instances keyed, and adding the same record a
   * second time fails the uniqueness check and changes nothing.
   */
  lemma PersonSrcAddKeepsKeyed(s: StoreSrc, sl: PersonInput)
    requires PeopleKeyedSrc(s.persons)
    ensures PeopleKeyedSrc(PersonSrcAdd(s, sl).persons)
    ensures PersonSrcAdd(PersonSrcAdd(s, sl), sl) == PersonSrcAdd(s, sl)
  {
  }

  /**
   * Person.update keeps Person.instances keyed, and repeating an update
   * changes nothing more: the second call finds the name already in place.
   */
  lemma PersonSrcUpdateKeepsKeyed(s: StoreSrc, personId: IdSlot, name: TextSlot)
    requires PeopleKeyedSrc(s.persons)
    ensures PeopleKeyedSrc(PersonSrcUpdate(s, personId, name).state.persons)
    ensures var r := PersonSrcUpdate(s, personId, name);
            PersonSrcUpdate(r.state, personId, name) == r
  {
  }

  /**
   * `actIdArray.includes(personId)` and `String(director.personId) ===
   * personId` compare strings: only an id given as a string can match.
   */
  predicate NamesActor(m: MovieView, personId: IdSlot) {
    personId.IntString? && personId.n in m.actors
  }

  predicate NamesDirector(m: MovieView, personId: IdSlot) {
    personId.IntString? && m.director == Some(personId.n) && m.movieId != 0
  }

  /**
   * The loop of Person.destroy over the keys of Movie.instances, in
   * ascending order. A movie listing the person as an actor is deleted; its
   * director is then read, which throws a TypeError when it has none; a
   * movie the person directs is deleted. A key whose movie an earlier step
   * deleted yields `undefined.movieId`, a TypeError.
   */
  function ScanSrc(movies: map<int, MovieView>, pending: set<int>, personId: IdSlot): (r: Exec<map<int, MovieView>>)
    ensures r.Threw? ==> r.error == TypeError
    ensures r.state.Keys <= movies.Keys
    ensures forall mid :: mid in r.state ==> r.state[mid] == movies[mid]
    ensures !personId.IntString? ==> r.state == movies
    ensures !personId.IntString? ==>
              (r.Done? <==> forall key :: key in pending ==> key in movies && movies[key].director.Some?)
    decreases pending
  {
    if pending == {} then Done(movies)
    else
      var key := SetMin(pending);
      if key !in movies then Threw(movies, TypeError)
      else
        var m := movies[key];
        var m1 := if NamesActor(m, personId) then movies - {m.movieId} else movies;
        if m.director.None? then Threw(m1, TypeError)
        else
          var m2 := if NamesDirector(m, personId) then m1 - {m.movieId} else m1;
          ScanSrc(m2, pending - {key}, personId)
  }

  /**
   * Person.destroy: the movie scan, then `delete Person.instances[personId]`,
   * then `person.name`, which throws a TypeError for an unknown id, after
   * the deletions.
   */
  function PersonSrcDestroy(s: StoreSrc, personId: IdSlot): (r: Exec<StoreSrc>)
    ensures r.Threw? ==> r.error == TypeError
    ensures r.state.movies.Keys <= s.movies.Keys
    ensures forall mid :: mid in r.state.movies ==> r.state.movies[mid] == s.movies[mid]
    ensures r.Done? <==> ScanSrc(s.movies, s.movies.Keys, personId).Done? &&
                         StoreKey(personId).Some? && StoreKey(personId).value in s.persons
    ensures ScanSrc(s.movies, s.movies.Keys, personId).Done? ==>
              r.state.persons == (if StoreKey(personId).Some? then s.persons - {StoreKey(personId).value} else s.persons)
  {
    var scan := ScanSrc(s.movies, s.movies.Keys, personId);
    if scan.Threw? then Threw(s.(movies := scan.state), TypeError)
    else
      match StoreKey(personId)
      case None => Threw(s.(movies := scan.state), TypeError)
      case Some(k) =>
        if k !in s.persons then Threw(StoreSrc(scan.state, s.persons), TypeError)
        else Done(StoreSrc(scan.state, s.persons - {k}))
  }

  /** The movies Person.destroy keeps when the scan runs through. */
  ghost function Survivors(movies: map<int, MovieView>, pending: set<int>, personId: IdSlot): set<int> {
    set mid | mid in movies && !(mid in pending && (NamesActor(movies[mid], personId) || NamesDirector(movies[mid], personId)))
  }

  /**
   * On a keyed store whose pending movies all have a director, the scan
   * runs through and deletes exactly the pending movies that name the
   * person as actor or director.
   */
  lemma {:induction false} ScanSrcDeletes(movies: map<int, MovieView>, pending: set<int>, personId: IdSlot)
    requires KeyedSrc(movies) && pending <= movies.Keys
    requires forall key :: key in pending ==> movies[key].director.Some?
    ensures ScanSrc(movies, pending, personId).Done?
    ensures ScanSrc(movies, pending, personId).state.Keys == Survivors(movies, pending, personId)
    decreases pending
  {
    if pending != {} {
      var key := SetMin(pending);
      var m := movies[key];
      var m1 := if NamesActor(m, personId) then movies - {m.movieId} else movies;
      var m2 := if NamesDirector(m, personId) then m1 - {m.movieId} else m1;
      var rest := pending - {key};
      assert m2 == (if NamesActor(m, personId) || NamesDirector(m, personId) then movies - {key} else movies);
      ScanSrcDeletes(m2, rest, personId);
      assert Survivors(m2, rest, personId) == Survivors(movies, pending, personId);
    }
  }

  /**
   * Person.destroy with the id as a string (as the forms pass it), on a
   * keyed store with positive movie ids that all have a director: the
   * person goes, and with them exactly the movies they act in or direct.
   */
  lemma PersonSrcDestroyByString(s: StoreSrc, k: int)
    requires KeyedSrc(s.movies) && k in s.persons
    requires forall mid :: mid in s.movies ==> mid >= 1 && s.movies[mid].director.Some?
    ensures var r := PersonSrcDestroy(s, IntString(k));
            && r.Done?
            && r.state.persons == s.persons - {k}
            && forall mid :: mid in r.state.movies <==>
                 mid in s.movies && k !in s.movies[mid].actors && s.movies[mid].director != Some(k)
  {
    ScanSrcDeletes(s.movies, s.movies.Keys, IntString(k));
  }

  /**
   * Person.destroy with the id as a number never matches a movie, so the
   * person goes and every movie stays, now possibly naming nobody.
   */
  lemma PersonSrcDestroyByNumber(s: StoreSrc, k: int)
    requires k in s.persons
    requires forall mid :: mid in s.movies ==> s.movies[mid].director.Some?
    ensures var r := PersonSrcDestroy(s, IntNumber(k));
            && r.Done? && r.state.movies == s.movies && r.state.persons == s.persons - {k}
  {
  }

  /**
   * A pending key whose movie is gone, or has no director, stops the scan
   * when the loop reaches it: the scan only deletes entries, so the movie
   * is either still there unchanged or missing by then.
   */
  lemma {:induction false} ScanSrcBlocked(movies: map<int, MovieView>, pending: set<int>, personId: IdSlot, mid: int)
    requires mid in pending && (mid !in movies || movies[mid].director.None?)
    ensures ScanSrc(movies, pending, personId).Threw?
    decreases pending
  {
    var key := SetMin(pending);
    if key in movies && movies[key].director.Some? {
      var m := movies[key];
      var m1 := if NamesActor(m, personId) then movies - {m.movieId} else movies;
      var m2 := if NamesDirector(m, personId) then m1 - {m.movieId} else m1;
      assert mid != key;
      ScanSrcBlocked(m2, pending - {key}, personId, mid);
    }
  }

  /**
   * A movie without a director stops Person.destroy with a TypeError
   * before the person is deleted, whatever the id. A number id matches no
   * movie, so nothing changes at all; a string id may already have cost
   * the movies at lower keys that list the person as an actor.
   */
  lemma DirectorlessMovieBlocksDestroy(s: StoreSrc, personId: IdSlot, mid: int)
    requires mid in s.movies && s.movies[mid].director.None?
    ensures var r := PersonSrcDestroy(s, personId);
            r.Threw? && r.error == TypeError && r.state.persons == s.persons
    ensures !personId.IntString? ==> PersonSrcDestroy(s, personId) == Threw(s, TypeError)
  {
    ScanSrcBlocked(s.movies, s.movies.Keys, personId, mid);
  }

  /**
   * With the string id the forms pass, a movie the person acts in is
   * deleted before a directorless movie at a higher key stops the scan:
   * Person.destroy throws, yet the store has changed.
   */
  lemma StringIdDeletesBeforeThrow()
    ensures var s := StoreSrc(map[1 := MovieView(1, Some(6), {5}), 2 := MovieView(2, None, {})],
                              map[5 := PersonSrcRec(5, "Eve")]);
            PersonSrcDestroy(s, IntString(5)) == Threw(s.(movies := map[2 := MovieView(2, None, {})]), TypeError)
  {
    var movies := map[1 := MovieView(1, Some(6), {5}), 2 := MovieView(2, None, {})];
    var rest := map[2 := MovieView(2, None, {})];
    assert movies - {1} == rest;
    assert SetMin({1, 2}) == 1;
    assert SetMin({2}) == 2;
    assert ScanSrc(rest, {2}, IntString(5)) == Threw(rest, TypeError);
    assert ScanSrc(movies, {1, 2}, IntString(5)) == Threw(rest, TypeError);
  }

  /**
   * toJSON: the underscore properties without their prefix, that is the id
   * and the name. It writes what Person5Store.Person5Json writes, but from
   * this iteration's own person record.
   */
  function PersonSrcJson(p: PersonSrcRec): (rec: PersonInput)
    ensures StoreKey(rec.personId) == Some(p.personId) && rec.name == Chars(p.name)
  {
    PersonInput(IntNumber(p.personId), Chars(p.name))
  }

  /**
   * Person.retrieveAll: each saved record is constructed and bound under
   * its id; with no try/catch, the first failing record aborts the load
   * with the earlier people in place.
   */
  function LoadPeopleSrc(s: StoreSrc, recs: seq<PersonInput>): (r: Exec<StoreSrc>)
    ensures r.state.movies == s.movies
    ensures s.persons.Keys <= r.state.persons.Keys
    ensures forall q :: q in s.persons ==> r.state.persons[q] == s.persons[q]
    ensures recs != [] && NewPersonSrc(recs[0], s.persons.Keys).Err? ==>
              r == Threw(s, NewPersonSrc(recs[0], s.persons.Keys).error)
    decreases |recs|
  {
    if recs == [] then Done(s)
    else
      match NewPersonSrc(recs[0], s.persons.Keys)
      case Err(e) => Threw(s, e)
      case Ok(p) => LoadPeopleSrc(s.(persons := s.persons[p.personId := p]), recs[1..])
  }

  /**
   * Saving people and loading them back into a store without their ids
   * succeeds and gives back every saved person, provided the ids are
   * distinct and positive and the names non-empty.
   */
  lemma {:induction false} PeopleSrcRoundTrip(s: StoreSrc, ps: seq<PersonSrcRec>)
    requires forall i :: 0 <= i < |ps| ==> ps[i].personId >= 1 && ps[i].name != [] && ps[i].personId !in s.persons
    requires forall i, j :: 0 <= i < j < |ps| ==> ps[i].personId != ps[j].personId
    ensures var r := LoadPeopleSrc(s, seq(|ps|, i requires 0 <= i < |ps| => PersonSrcJson(ps[i])));
            && r.Done?
            && forall i :: 0 <= i < |ps| ==> ps[i].personId in r.state.persons && r.state.persons[ps[i].personId] == ps[i]
    decreases |ps|
  {
    var recs := seq(|ps|, i requires 0 <= i < |ps| => PersonSrcJson(ps[i]));
    if ps != [] {
      var p := ps[0];
      assert CheckName(Chars(p.name)) == NoConstraintViolation;
      assert NewPersonSrc(recs[0], s.persons.Keys) == Ok(p);
      var s1 := s.(persons := s.persons[p.personId := p]);
      var tail := seq(|ps| - 1, i requires 0 <= i < |ps| - 1 => PersonSrcJson(ps[1..][i]));
      assert recs[1..] == tail;
      PeopleSrcRoundTrip(s1, ps[1..]);
    }
  }
}

=== FILE: subtypes6.dfy ===
/**
 * The two Person subtypes of assignment 6, Actor and Director: add,
 * update, destroy, and the reload that Person.retrieveAll drives
 * (people first, then each registered subtype, merged into
 * Person.instances).
 */
module Subtypes6 {
  import opened JsValues
  import opened PersonChecks
  import opened Catalog6
  import opened Person6

  /** A registered Person subtype. */
  datatype Subclass = Actors | Directors

  /** The Kind an object of the subtype's class carries. */
  function KindOf(c: Subclass): (k: Kind)
    ensures k != PlainPerson
  {
    match c
    case Actors => ActorKind
    case Directors => DirectorKind
  }

  /** `Subtype.instances`. */
  function SubStore(s: Store, c: Subclass): map<int, SubEntry> {
    match c
    case Actors => s.actors
    case Directors => s.directors
  }

  /** The store with `Subtype.instances` replaced and nothing else changed. */
  function WithSub(s: Store, c: Subclass, sub: map<int, SubEntry>): (r: Store)
    ensures SubStore(r, c) == sub
    ensures r.movies == s.movies && r.persons == s.persons
    ensures forall other :: other != c ==> SubStore(r, other) == SubStore(s, other)
  {
    match c
    case Actors => s.(actors := sub)
    case Directors => s.(directors := sub)
  }

  /** The object `Subtype.instances[k]` denotes, if any. */
  function Resolve(s: Store, c: Subclass, k: int): (r: Option<PersonRec>)
    ensures r.Some? ==> k in SubStore(s, c)
    ensures k in SubStore(s, c) && SubStore(s, c)[k].Detached? ==> r == Some(SubStore(s, c)[k].rec)
    ensures k in SubStore(s, c) && SubStore(s, c)[k].Alias? ==>
              r == (if k in s.persons then Some(s.persons[k]) else None)
  {
    if k !in SubStore(s, c) then None
    else match SubStore(s, c)[k]
      case Detached(rec) => Some(rec)
      case Alias => if k in s.persons then Some(s.persons[k]) else None
  }

  /**
   * Actor.add / Director.add: the constructor checks uniqueness against
   * Person.instances, and the new object goes into the subtype store only,
   * as an object of its own, replacing any entry under the same id.
   */
  function SubtypeAdd(s: Store, c: Subclass, sl: PersonSlots): (r: Store)
    ensures r.movies == s.movies && r.persons == s.persons
    ensures forall other :: other != c ==> SubStore(r, other) == SubStore(s, other)
    ensures NewPersonRec(sl, KindOf(c), s.persons.Keys).Err? ==> r == s
    ensures NewPersonRec(sl, KindOf(c), s.persons.Keys).Ok? ==>
              var p := NewPersonRec(sl, KindOf(c), s.persons.Keys).value;
              SubStore(r, c) == SubStore(s, c)[p.personId := Detached(p)]
  {
    match NewPersonRec(sl, KindOf(c), s.persons.Keys)
    case Err(_) => s
    case Ok(p) => WithSub(s, c, SubStore(s, c)[p.personId := Detached(p)])
  }

  /**
   * An actor or director just added is not in Person.instances, so no
   * movie can refer to it until the next reload: checkPersonAsIdRef
   * rejects its id. And since uniqueness is never checked against the
   * subtype store, adding the same slots again succeeds again.
   */
  lemma AddedSubtypeNotReferable(s: Store, c: Subclass, sl: PersonSlots)
    requires NewPersonRec(sl, KindOf(c), s.persons.Keys).Ok?
    ensures var r := SubtypeAdd(s, c, sl);
            var id := NewPersonRec(sl, KindOf(c), s.persons.Keys).value.personId;
            && CheckPersonAsIdRef(IntNumber(id), r.persons.Keys) == ReferentialIntegrity
            && SubtypeAdd(r, c, sl) == r
  {
    var r := SubtypeAdd(s, c, sl);
    var id := NewPersonRec(sl, KindOf(c), s.persons.Keys).value.personId;
    assert id !in r.persons.Keys;
    assert NewPersonRec(sl, KindOf(c), r.persons.Keys) == NewPersonRec(sl, KindOf(c), s.persons.Keys);
  }

  /** An object with its name and agent steps applied (both unchecked here). */
  function Edited(p: PersonRec, name: TextSlot, agent: TextSlot): (q: PersonRec)
    requires !(TextTruthy(name) && name != Chars(p.name)) || name.Chars?
    ensures q == p.(name := q.name, agent := q.agent)
    ensures q.name == (if TextTruthy(name) then name.s else p.name)
    ensures q.agent == (if TextTruthy(agent) then agent else p.agent)
  {
    var p1 := if TextTruthy(name) && name != Chars(p.name) then p.(name := name.s) else p;
    if TextTruthy(agent) && agent != p1.agent then p1.(agent := agent) else p1
  }

  /**
   * Actor.update / Director.update({personId, name, agent}). An id that
   * does not denote an object makes cloneObject(undefined) throw a
   * TypeError first. The name (checked) and then the agent (unchecked) are
   * assigned when truthy and different. The edit lands on the object the
   * entry denotes: Person.instances[k] for an alias, the subtype's own
   * object otherwise. A failing name check rebinds the entry to a clone of
   * the old object.
   */
  function SubtypeUpdate(s: Store, c: Subclass, personId: IdSlot, name: TextSlot, agent: TextSlot): (r: Exec<Store>)
    ensures r.state.movies == s.movies
    ensures forall other :: other != c ==> SubStore(r.state, other) == SubStore(s, other)
    ensures StoreKey(personId).None? || Resolve(s, c, StoreKey(personId).value).None? ==> r == Threw(s, TypeError)
    ensures r.Done? <==> StoreKey(personId).Some? && Resolve(s, c, StoreKey(personId).value).Some? && name != NonString(true)
    ensures r.Done? ==>
              var k := StoreKey(personId).value;
              && Resolve(r.state, c, k) == Some(Edited(Resolve(s, c, k).value, name, agent))
              && r.state.persons.Keys == s.persons.Keys
              && (forall q :: q in s.persons && q != k ==> r.state.persons[q] == s.persons[q])
              && SubStore(r.state, c).Keys == SubStore(s, c).Keys
              && (forall q :: q in SubStore(s, c) && q != k ==> SubStore(r.state, c)[q] == SubStore(s, c)[q])
    ensures r.Threw? && r.error != TypeError ==>
              var k := StoreKey(personId).value;
              && r.error == Range && name == NonString(true)
              && r.state.persons == s.persons
              && SubStore(r.state, c) == SubStore(s, c)[k := Detached(Resolve(s, c, k).value)]
  {
    match StoreKey(personId)
    case None => Threw(s, TypeError)
    case Some(k) =>
      match Resolve(s, c, k)
      case None => Threw(s, TypeError)
      case Some(p) =>
        if TextTruthy(name) && name != Chars(p.name) && CheckName(name) != NoConstraintViolation then
          Threw(WithSub(s, c, SubStore(s, c)[k := Detached(p)]), CheckName(name))
        else
          var q := Edited(p, name, agent);
          if SubStore(s, c)[k].Alias? then Done(s.(persons := s.persons[k := q]))
          else Done(WithSub(s, c, SubStore(s, c)[k := Detached(q)]))
  }

  /**
   * A subtype update never touches references or inverse maps, so it
   * keeps a consistent store consistent whether it succeeds or fails.
   */
  lemma SubtypeUpdateKeepsConsistent(s: Store, c: Subclass, personId: IdSlot, name: TextSlot, agent: TextSlot)
    requires Consistent(s)
    ensures Consistent(SubtypeUpdate(s, c, personId, name, agent).state)
  {
    var r := SubtypeUpdate(s, c, personId, name, agent);
    if r.Done? {
      var k := StoreKey(personId).value;
      forall q, role | q in s.persons
        ensures RoleSet(r.state.persons[q], role) == RoleSet(s.persons[q], role)
      {
        if q == k && SubStore(s, c)[k].Alias? {
          assert r.state.persons[k] == Edited(s.persons[k], name, agent);
        }
      }
    }
  }

  /** The other registered subtype. */
  function Other(c: Subclass): (o: Subclass)
    ensures o != c
  {
    match c
    case Actors => Directors
    case Directors => Actors
  }

  /**
   * Actor.destroy / Director.destroy(personId): the id is deleted from the
   * subtype store and from Person.instances before the logging line reads
   * the object's name, which throws a TypeError when the id denoted no
   * object. Movies are not touched. An entry of the other subtype's store
   * that was the very object of Person.instances keeps that object, now
   * as one of its own.
   */
  function SubtypeDestroy(s: Store, c: Subclass, personId: IdSlot): (r: Exec<Store>)
    ensures r.state.movies == s.movies
    ensures StoreKey(personId).Some? ==>
              && r.state.persons == s.persons - {StoreKey(personId).value}
              && SubStore(r.state, c) == SubStore(s, c) - {StoreKey(personId).value}
    ensures StoreKey(personId).Some? && StoreKey(personId).value in s.persons ==>
              var k := StoreKey(personId).value;
              SubStore(r.state, Other(c)) == DetachAt(SubStore(s, Other(c)), k, s.persons[k])
    ensures StoreKey(personId).Some? && StoreKey(personId).value !in s.persons ==>
              SubStore(r.state, Other(c)) == SubStore(s, Other(c))
    ensures forall q :: Resolve(r.state, Other(c), q) == Resolve(s, Other(c), q)
    ensures StoreKey(personId).None? ==> r.state == s
    ensures r.Done? <==> StoreKey(personId).Some? && Resolve(s, c, StoreKey(personId).value).Some?
    ensures r.Threw? ==> r.error == TypeError
  {
    match StoreKey(personId)
    case None => Threw(s, TypeError)
    case Some(k) =>
      var others := if k in s.persons then DetachAt(SubStore(s, Other(c)), k, s.persons[k]) else SubStore(s, Other(c));
      var cut := WithSub(WithSub(s, c, SubStore(s, c) - {k}), Other(c), others).(persons := s.persons - {k});
      assert forall q :: Resolve(cut, Other(c), q) == Resolve(s, Other(c), q) by {
        forall q ensures Resolve(cut, Other(c), q) == Resolve(s, Other(c), q) {
          if q != k && q in others {
            assert others[q] == SubStore(s, Other(c))[q];
          }
        }
      }
      if Resolve(s, c, k).Some? then Done(cut) else Threw(cut, TypeError)
  }

  /** Every alias left in either subtype store still names an object of Person.instances. */
  lemma SubtypeDestroyKeepsAliasesResolve(s: Store, c: Subclass, personId: IdSlot)
    requires AliasesResolve(s)
    ensures AliasesResolve(SubtypeDestroy(s, c, personId).state)
  {
  }

  /**
   * Destroying a subtype object that some movie refers to leaves that
   * reference dangling: the store is no longer mirrored.
   */
  lemma SubtypeDestroyDangles(s: Store, c: Subclass, personId: IdSlot, mid: int, role: Role)
    requires StoreKey(personId).Some? && mid in s.movies
    requires Plays(s.movies[mid], role, StoreKey(personId).value)
    ensures !AllMirrored(SubtypeDestroy(s, c, personId).state)
  {
    var r := SubtypeDestroy(s, c, personId).state;
    var k := StoreKey(personId).value;
    assert k !in r.persons && r.movies[mid] == s.movies[mid];
    assert !Mirrors(r.persons, mid, r.movies[mid]);
  }

  /**
   * Actor.destroy given the id of a person who is not an actor still
   * deletes that person from Person.instances before it throws.
   */
  lemma SubtypeDestroyOfOutsider(s: Store, c: Subclass, k: int)
    requires k in s.persons && k !in SubStore(s, c)
    ensures var r := SubtypeDestroy(s, c, IntNumber(k));
            r.Threw? && r.error == TypeError && k !in r.state.persons
  {
  }

  /** Person.retrieveAll, first loop: each stored people record that constructs is bound under its id. */
  function LoadPeople(s: Store, recs: seq<PersonSlots>): (r: Store)
    ensures r.movies == s.movies && r.actors == s.actors && r.directors == s.directors
    ensures s.persons.Keys <= r.persons.Keys
    ensures forall q :: q in s.persons ==> r.persons[q] == s.persons[q]
    decreases |recs|
  {
    if recs == [] then s else LoadPeople(PersonAdd(s, recs[0]), recs[1..])
  }

  /** Loading people into a consistent store keeps it consistent. */
  lemma {:induction false} LoadPeopleKeepsConsistent(s: Store, recs: seq<PersonSlots>)
    requires Consistent(s)
    ensures Consistent(LoadPeople(s, recs))
    decreases |recs|
  {
    if recs != [] {
      PersonAddKeepsConsistent(s, recs[0]);
      LoadPeopleKeepsConsistent(PersonAdd(s, recs[0]), recs[1..]);
    }
  }

  /**
   * Actor.retrieveAll / Director.retrieveAll: each stored record that
   * constructs (uniqueness against Person.instances included) is bound in
   * the subtype store and, as the same object, in Person.instances.
   */
  function LoadSubtype(s: Store, c: Subclass, recs: seq<PersonSlots>): (r: Store)
    ensures r.movies == s.movies
    ensures forall other :: other != c ==> SubStore(r, other) == SubStore(s, other)
    ensures s.persons.Keys <= r.persons.Keys
    ensures forall q :: q in s.persons ==> r.persons[q] == s.persons[q]
    ensures SubStore(s, c).Keys <= SubStore(r, c).Keys
    ensures forall q :: q in SubStore(s, c) && q in s.persons ==> SubStore(r, c)[q] == SubStore(s, c)[q]
    ensures forall q :: q in SubStore(r, c) && q !in SubStore(s, c) ==> SubStore(r, c)[q].Alias? && q in r.persons
    ensures forall q :: q in SubStore(s, c) && q !in s.persons && SubStore(r, c)[q] != SubStore(s, c)[q] ==>
              SubStore(r, c)[q].Alias? && q in r.persons
    decreases |recs|
  {
    if recs == [] then s
    else
      var s1 := match NewPersonRec(recs[0], KindOf(c), s.persons.Keys)
        case Err(_) => s
        case Ok(p) => WithSub(s, c, SubStore(s, c)[p.personId := Alias]).(persons := s.persons[p.personId := p]);
      LoadSubtype(s1, c, recs[1..])
  }

  /**
   * The merge loop of Person.retrieveAll: `Person.instances[key] =
   * Subtype.instances[key]` for every key of the subtype store, after
   * which every entry aliases Person.instances.
   */
  function MergeSubtype(s: Store, c: Subclass): (r: Store)
    ensures r.movies == s.movies
    ensures forall other :: other != c ==> SubStore(r, other) == SubStore(s, other)
    ensures SubStore(r, c).Keys == SubStore(s, c).Keys
    ensures forall k :: k in SubStore(r, c) ==> SubStore(r, c)[k] == Alias
    ensures forall k :: k in SubStore(s, c) ==> Resolve(r, c, k) == Resolve(s, c, k)
    ensures forall q :: q in s.persons && (q !in SubStore(s, c) || SubStore(s, c)[q].Alias?) ==>
              q in r.persons && r.persons[q] == s.persons[q]
    ensures r.persons.Keys == s.persons.Keys + (set k | k in SubStore(s, c) && SubStore(s, c)[k].Detached?)
  {
    var sub := SubStore(s, c);
    var detached := map k | k in sub && sub[k].Detached? :: sub[k].rec;
    WithSub(s, c, map k | k in sub :: Alias).(persons := s.persons + detached)
  }

  /**
   * Person.retrieveAll: load the people records, then for Actor and then
   * Director load the subtype's records and merge its whole store into
   * Person.instances.
   */
  function PersonRetrieveAll(s: Store, people: seq<PersonSlots>, actors: seq<PersonSlots>, directors: seq<PersonSlots>): (r: Store)
    ensures r.movies == s.movies
  {
    var s1 := LoadPeople(s, people);
    var s2 := MergeSubtype(LoadSubtype(s1, Actors, actors), Actors);
    MergeSubtype(LoadSubtype(s2, Directors, directors), Directors)
  }

  /** Every alias in the store of subtype `c` has an object in Person.instances. */
  ghost predicate SubAliasesResolve(s: Store, c: Subclass) {
    forall k :: k in SubStore(s, c) && SubStore(s, c)[k].Alias? ==> k in s.persons
  }

  /** AliasesResolve is SubAliasesResolve for both subtypes. */
  lemma AliasesResolveBySubtype(s: Store)
    ensures AliasesResolve(s) <==> SubAliasesResolve(s, Actors) && SubAliasesResolve(s, Directors)
  {
    assert SubStore(s, Actors) == s.actors && SubStore(s, Directors) == s.directors;
  }

  /**
   * One subtype phase of Person.retrieveAll, loading the subtype's records
   * and merging its store into Person.instances, leaves every entry of that
   * subtype an alias and keeps every alias resolvable.
   */
  lemma SubtypePhaseAliases(s: Store, c: Subclass, recs: seq<PersonSlots>)
    requires AliasesResolve(s)
    ensures var r := MergeSubtype(LoadSubtype(s, c, recs), c);
            && AliasesResolve(r)
            && forall k :: k in SubStore(r, c) ==> SubStore(r, c)[k] == Alias
  {
    var r := MergeSubtype(LoadSubtype(s, c, recs), c);
    AliasesResolveBySubtype(s);
    assert SubAliasesResolve(r, c);
    assert forall other :: other != c ==> SubAliasesResolve(r, other);
    AliasesResolveBySubtype(r);
  }

  /**
   * After Person.retrieveAll every subtype entry aliases Person.instances
   * and therefore has an object there, provided that held of the aliases
   * beforehand.
   */
  lemma RetrieveAllAliases(s: Store, people: seq<PersonSlots>, actors: seq<PersonSlots>, directors: seq<PersonSlots>)
    requires AliasesResolve(s)
    ensures var r := PersonRetrieveAll(s, people, actors, directors);
            && AliasesResolve(r)
            && (forall k :: k in r.actors ==> r.actors[k] == Alias)
            && (forall k :: k in r.directors ==> r.directors[k] == Alias)
  {
    var s1 := LoadPeople(s, people);
    SubtypePhaseAliases(s1, Actors, actors);
    var s2 := MergeSubtype(LoadSubtype(s1, Actors, actors), Actors);
    SubtypePhaseAliases(s2, Directors, directors);
    var r := MergeSubtype(LoadSubtype(s2, Directors, directors), Directors);
    assert r.actors == SubStore(r, Actors) == SubStore(s2, Actors);
    assert r.directors == SubStore(r, Directors);
  }

  /**
   * Person.retrieveAll as one page runs it: the actors page imports only
   * Actor, the directors page only Director, and the movies page neither,
   * so at most one subtype has registered itself in Person.subtypes.
   */
  function PageRetrieveAll(s: Store, people: seq<PersonSlots>, registered: Option<Subclass>, recs: seq<PersonSlots>): (r: Store)
    ensures r.movies == s.movies
    ensures registered.None? ==> r.actors == s.actors && r.directors == s.directors
    ensures registered.Some? ==>
              forall other :: other != registered.value ==> SubStore(r, other) == SubStore(s, other)
  {
    var s1 := LoadPeople(s, people);
    match registered
    case None => s1
    case Some(c) => MergeSubtype(LoadSubtype(s1, c, recs), c)
  }

  /**
   * On a page, Person.retrieveAll keeps every alias resolvable and turns
   * the registered subtype's entries into aliases; the other subtype's
   * store is left as it was, detached entries included.
   */
  lemma PageRetrieveAllAliases(s: Store, people: seq<PersonSlots>, registered: Option<Subclass>, recs: seq<PersonSlots>)
    requires AliasesResolve(s)
    ensures var r := PageRetrieveAll(s, people, registered, recs);
            && AliasesResolve(r)
            && (registered.Some? ==> forall k :: k in SubStore(r, registered.value) ==> SubStore(r, registered.value)[k] == Alias)
  {
    var s1 := LoadPeople(s, people);
    assert AliasesResolve(s1);
    if registered.Some? {
      SubtypePhaseAliases(s1, registered.value, recs);
    }
  }

  /**
   * A subtype record whose id was already loaded as a person is rejected
   * by the uniqueness check: the subtype store gains nothing under it.
   */
  lemma SubtypeRecordShadowed(s: Store, c: Subclass, sl: PersonSlots)
    requires ParseInt(sl.personId).Some? && ParseInt(sl.personId).value in s.persons
    ensures LoadSubtype(s, c, [sl]) == s
  {
    assert NewPersonRec(sl, KindOf(c), s.persons.Keys).Err?;
  }
}

=== FILE: values.dfy ===
/**
 * JavaScript values as the model layer's checks observe them.
 *
 * The catalogue's checks and setters receive whatever the forms or the
 * loaded records hold and read it through three lenses only: JavaScript
 * truthiness, `parseInt`, and the helper `isIntegerOrIntegerString`.
 * The slot datatypes below keep exactly the distinctions those lenses can
 * see, instead of modelling JavaScript coercion in full.
 */
module JsValues {

  datatype Option<T> = None | Some(value: T)

  /**
   * An id-like input slot (ids, codes, episode numbers, genre members).
   * - Missing: undefined, null, the empty string or NaN; falsy, parseInt gives NaN.
   * - IntNumber(n): an integer number; falsy exactly when n == 0.
   * - IntString(n): the canonical decimal string of n ("7", "-3", "0"); always truthy.
   * - Prefixed(n): any other non-empty string that parseInt reads as n ("12abc", "3.5", " 4").
   * - Unparseable: a non-empty string that parseInt reads as NaN ("abc").
   */
  datatype IdSlot =
    | Missing
    | IntNumber(n: int)
    | IntString(n: int)
    | Prefixed(n: int)
    | Unparseable

  /** JavaScript truthiness of an id slot. */
  predicate Truthy(v: IdSlot) {
    match v
    case Missing => false
    case IntNumber(n) => n != 0
    case _ => true
  }

  /** `parseInt(v)`: None stands for NaN. */
  function ParseInt(v: IdSlot): Option<int> {
    match v
    case Missing => None
    case Unparseable => None
    case IntNumber(n) => Some(n)
    case IntString(n) => Some(n)
    case Prefixed(n) => Some(n)
  }

  /**
   * `isIntegerOrIntegerString(v)`: an integer number, or a string that is an
   * optionally signed run of decimal digits.
   */
  predicate IsIntegerOrIntegerString(v: IdSlot) {
    v.IntNumber? || v.IntString?
  }

  /** `Number.isInteger(v)`: only numbers qualify, never strings. */
  predicate IsIntegerNumber(v: IdSlot) {
    v.IntNumber?
  }

  /**
   * The integer key that the property name `String(v)` denotes in a store
   * whose keys are canonical integers; None when `String(v)` is no such key.
   */
  function StoreKey(v: IdSlot): Option<int> {
    match v
    case IntNumber(n) => Some(n)
    case IntString(n) => Some(n)
    case _ => None
  }

  /** The number `parseInt(v)` yields, as a slot (NaN behaves as Missing in every check). */
  function Parsed(v: IdSlot): (r: IdSlot)
    ensures ParseInt(r) == ParseInt(v)
    ensures r.IntNumber? || r.Missing?
  {
    match ParseInt(v)
    case Some(n) => IntNumber(n)
    case None => Missing
  }

  /** A text slot (titles, names, series names, agents): a string, or any non-string value. */
  datatype TextSlot = Chars(s: string) | NonString(truthy: bool)

  /** JavaScript truthiness of a text slot. */
  predicate TextTruthy(t: TextSlot) {
    match t
    case Chars(s) => s != []
    case NonString(b) => b
  }

  /** The characters `String.prototype.trim` strips (white space and line terminators). */
  predicate IsJsSpace(c: char) {
    c == ' ' || c == '\t' || c == '\n' || c == '\r' || c == '\U{B}' || c == '\U{C}'
    || c == '\U{A0}' || c == '\U{2028}' || c == '\U{2029}' || c == '\U{FEFF}'
    || c == '\U{1680}' || ('\U{2000}' <= c <= '\U{200A}') || c == '\U{202F}'
    || c == '\U{205F}' || c == '\U{3000}'
  }

  /** `s.trim() === ""`. */
  predicate IsBlank(s: string) {
    forall i :: 0 <= i < |s| ==> IsJsSpace(s[i])
  }

  /** A character outside the Basic Multilingual Plane takes a surrogate pair in UTF-16. */
  predicate IsAstral(c: char) {
    c > '\U{FFFF}'
  }

  /** `s.length`: JavaScript strings count UTF-16 code units, not characters. */
  function Utf16Length(s: string): nat {
    if s == [] then 0
    else (if IsAstral(s[0]) then 2 else 1) + Utf16Length(s[1..])
  }

  /**
   * `s.length` lies between the character count and twice it, and equals
   * the character count exactly when no character is astral.
   */
  lemma {:induction false} Utf16LengthBounds(s: string)
    ensures |s| <= Utf16Length(s) <= 2 * |s|
    ensures Utf16Length(s) == |s| <==> forall i :: 0 <= i < |s| ==> !IsAstral(s[i])
    ensures (forall i :: 0 <= i < |s| ==> IsAstral(s[i])) ==> Utf16Length(s) == 2 * |s|
  {
    if s != [] {
      Utf16LengthBounds(s[1..]);
      assert forall i :: 1 <= i < |s| ==> s[i] == s[1..][i - 1];
    }
  }

  /**
   * The tagged results of the checks (lib/errorTypes.mjs is not part of this
   * model; only the tags matter). NoConstraintViolation is success.
   * ReferenceError and TypeError are the JavaScript errors some checks and
   * setters raise instead of returning or throwing a constraint violation.
   */
  datatype Violation =
    | NoConstraintViolation
    | MandatoryValue
    | Range
    | Uniqueness
    | ReferentialIntegrity
    | FrozenValue
    | Generic
    | ReferenceError
    | TypeError

  /**
   * The outcome of JavaScript code that may throw after having mutated
   * state: Threw carries the state as it stood when the exception left.
   */
  datatype Exec<S> = Done(state: S) | Threw(state: S, error: Violation) {
    predicate IsFailure() {
      Threw?
    }

    /** An exception leaves the enclosing code with the state it had reached. */
    function PropagateFailure(): Exec<S>
      requires Threw?
    {
      this
    }

    function Extract(): S
      requires Done?
    {
      state
    }
  }

  /** A value, or the violation that prevented it (for code without side effects on failure). */
  datatype Result<T> = Ok(value: T) | Err(error: Violation) {
    predicate IsFailure() {
      Err?
    }

    function PropagateFailure<U>(): Result<U>
      requires Err?
    {
      Err(error)
    }

    function Extract(): T
      requires Ok?
    {
      value
    }
  }

  /** Strictly ascending: the order `Object.keys` lists integer-like keys in. */
  predicate Ascending(r: seq<int>) {
    forall i, j :: 0 <= i < j < |r| ==> r[i] < r[j]
  }

  lemma NonEmptyHasMember(s: set<int>)
    requires s != {}
    ensures exists x :: x in s
  {
    if forall x :: x !in s {
      assert false;
    }
  }

  /** The largest member of a non-empty set of ids. */
  method MaxOf(s: set<int>) returns (m: int)
    requires s != {}
    ensures m in s
    ensures forall y :: y in s ==> y <= m
  {
    NonEmptyHasMember(s);
    m :| m in s;
    var rest := s - {m};
    while rest != {}
      invariant rest <= s && m in s
      invariant forall y :: y in s && y !in rest ==> y <= m
      decreases rest
    {
      NonEmptyHasMember(rest);
      var x :| x in rest;
      if x > m {
        m := x;
      }
      rest := rest - {x};
    }
  }

  /**
   * `Object.keys` of an id-keyed object turned into integers: the keys in
   * ascending order, each exactly once.
   */
  method SortedIds(ids: set<int>) returns (r: seq<int>)
    ensures Ascending(r)
    ensures forall x :: x in r <==> x in ids
    ensures |r| == |ids|
  {
    r := [];
    var rest := ids;
    while rest != {}
      invariant rest <= ids
      invariant Ascending(r)
      invariant forall x :: x in r <==> x in ids && x !in rest
      invariant forall x, i :: x in rest && 0 <= i < |r| ==> x < r[i]
      invariant |r| + |rest| == |ids|
      decreases rest
    {
      var m := MaxOf(rest);
      r := [m] + r;
      rest := rest - {m};
    }
  }

  /** The smallest member of a non-empty set of ids: the next key `Object.keys` yields. */
  function SetMin(s: set<int>): (m: int)
    requires s != {}
    ensures m in s
    ensures forall y :: y in s ==> m <= y
  {
    MinExists(s);
    var m :| m in s && forall y :: y in s ==> m <= y;
    m
  }

  lemma {:induction false} MinExists(s: set<int>)
    requires s != {}
    ensures exists m :: m in s && forall y :: y in s ==> m <= y
    decreases s
  {
    NonEmptyHasMember(s);
    var x :| x in s;
    if s - {x} != {} {
      MinExists(s - {x});
      var m :| m in s - {x} && forall y :: y in s - {x} ==> m <= y;
      forall y | y in s
        ensures y == x || y in s - {x}
      {
      }
      if x < m {
        assert x in s && forall y :: y in s ==> x <= y;
      } else {
        assert m in s && forall y :: y in s ==> m <= y;
      }
    } else {
      forall y | y in s
        ensures y == x
      {
        assert y !in s - {x};
      }
      assert x in s && forall y :: y in s ==> x <= y;
    }
  }
}
